=== FILE: README.md ===
# RSafeFS caching and write-back, modelled in Dafny

RSafeFS is a stackable FUSE file system. Each configured layer forwards
operations to the layer below it. This project models the layers and
helpers that keep state:

- the two eviction managers (least-recently-used and uniform-random);
- the metadata cache and its pass-through layer, which answers `getattr`
  from cache and invalidates entries on every mutating operation;
- the data-block cache, which reads whole blocks, keys them by path and
  block index, and checks them against the file's recorded modification
  time;
- the read-ahead cache, which keeps one prefetch window per open file;
- the write-back RPC client: its block queue, the block-merge rule and
  `send_block`, the flush-call state machine, and the scheduler that
  starts flush calls one at a time;
- the in-process event channel;
- the layer-stack validator;
- the RPC server's per-call state machines.

Every component is a set of immutable datatypes with pure transition
functions. Methods appear where the source makes a random choice or
loops, and for DataCache.Refresh, whose proof of the block agreement is
written as statements. Other things become explicit inputs:

- **Time:** the current instant, `now`, in nanoseconds. Each operation sees one instant. The data cache's read loop checks validity and stamps refreshed and filled blocks at that one `now`, where the source reads the clock afresh at each check and each stamp.
- **The layer below:** functions passed as parameters. Reads are
  `(path, offset, length) -> Result<bytes>`.
- **Concurrency:** threads, locks, the idle timer and the gRPC completion
  queue are sequential events that the caller chooses to deliver.

Files, one module each unless noted:

- `base.dfy`: options, results, bytes, the clock rule shared by both TTL
  caches, and POSIX read windows.
- Eviction:
  - `lru_manager.dfy`: modules `LruManager` and `LruRecency`;
  - `rnd_manager.dfy`: modules `RndManager` and `RndHistory`;
  - `eviction_policy.dfy`: the interface both caches use.
- Metadata:
  - `metadata_cache.dfy`: the cache;
  - `metadata_layer.dfy`: the layer's getattr and invalidation rules.
- `data_cache.dfy`: the data-block cache.
- `read_ahead.dfy`: the read-ahead cache.
- Write-back client:
  - `write_back.dfy`: blocks, merging, requests, the flush call;
  - `write_scheduler.dfy`: the client front end and the scheduler.
- `channel.dfy`: the event channel.
- `config.dfy`: layer names and the stack validator.
- `server.dfy`: modules `Server`, `UnaryCall`, `BidiStreamCall` and
  `ClientStreamCall`.

## Model

| member | source | states |
|---|---|---|
| LruManager.Touch | include/rsafefs/common/cache/lru_manager.hpp:14-23 | The touched key becomes tracked and sits at the most-recent end. The other keys keep their relative order. List and index stay consistent. |
| LruManager.Remove | include/rsafefs/common/cache/lru_manager.hpp:25-33 | Removing an untracked key changes nothing. Otherwise only that key leaves the list and the index, and the rest keep their order. |
| LruManager.Evict | include/rsafefs/common/cache/lru_manager.hpp:35-45 | An empty manager yields no key and is unchanged. Otherwise the back of the list is returned, and the list becomes the rest of the list in order. |
| LruManager.Erase | include/rsafefs/common/cache/lru_manager.hpp:19 | Unlinking a key keeps exactly the other keys, in order, and never introduces a duplicate. |
| LruRecency.ReplayIsRecencyOrder | include/rsafefs/common/cache/lru_manager.hpp:14-23 | After any history of touches, the tracked keys are exactly the touched ones. They are listed from most to least recently touched. |
| LruRecency.EvictIsLeastRecent | include/rsafefs/common/cache/lru_manager.hpp:35-45 | After any history of touches, evict returns the key whose last touch is the oldest. It returns nothing only when nothing was touched. |
| LruRecency.RemoveIdempotent | include/rsafefs/common/cache/lru_manager.hpp:25-33 | Removing a key twice has the same effect as removing it once. |
| LruRecency.TouchAbcaEvictsBca | include/rsafefs/common/cache/lru_manager.hpp:14-45 | For distinct keys A, B, C, touching A, B, C, A and then evicting yields B, then C, then A, then nothing. |
| RndHistory.ReplayTracks | include/rsafefs/common/cache/rnd_manager.hpp:19-29 | After any sequence of touches and removes from an empty manager, a key is tracked exactly when the last call that named it was a touch. |
| RndManager.TouchIdempotent | include/rsafefs/common/cache/rnd_manager.hpp:19-23 | Touching twice has the same effect as touching once. |
| RndManager.Evict | include/rsafefs/common/cache/rnd_manager.hpp:31-43 | An empty set yields no key and is unchanged. Otherwise some tracked key is chosen and removed, and the set shrinks by exactly one. |
| RndHistory.EvictAfter | include/rsafefs/common/cache/rnd_manager.hpp:19-43 | After any such history, evict yields nothing exactly when no key's last call was a touch. Otherwise it yields such a key, and exactly the other such keys stay tracked. |
| EvictionPolicy.Evict | include/rsafefs/common/cache/cache_manager.hpp:8-16 | Either policy's evict returns only a tracked key, and stops tracking exactly that key. It returns nothing iff nothing is tracked. The LRU policy agrees with LruManager.Evict. |
| EvictionPolicy.Touch | include/rsafefs/common/cache/cache_manager.hpp:11 | The tracked set gains the key, whichever policy is configured. Under LRU the key becomes the most recent one. |
| EvictionPolicy.Remove | include/rsafefs/common/cache/cache_manager.hpp:13 | The tracked set loses the key, whichever policy is configured. |
| MetadataCache.MakeRoom | lib/layers/metadata_cache/cache.cpp:16-22 | When the entry count is at least the configured size, one policy-chosen cached path is evicted from map and policy. Otherwise nothing changes. |
| MetadataCache.Emplace | lib/layers/metadata_cache/cache.cpp:24-25 | A path already present keeps its old snapshot and stamp. A new path gets the snapshot stamped now. Other entries are untouched. Either way the policy is touched for the path. |
| MetadataCache.Put | lib/layers/metadata_cache/cache.cpp:11-26 | The path ends up cached. The old snapshot survives unless the eviction chose this very path. The bound of max(size, 1) entries and the map/policy agreement are kept. The path is touched last, so under LRU it is the most recent entry. |
| MetadataCache.Get | lib/layers/metadata_cache/cache.cpp:28-51 | A missing path is a miss with no state change. A stale entry is erased from map and policy and reported as a miss. A fresh entry returns its stored attributes, and the policy is touched for the path, which refreshes its LRU recency. |
| MetadataCache.Remove | lib/layers/metadata_cache/cache.cpp:53-59 | Exactly the path leaves the map and the policy. |
| MetadataCache.ValidityRule | lib/layers/metadata_cache/cache.cpp:67-77 | A time-out of at most zero never expires an entry. Otherwise an entry is valid iff fewer than time-out whole seconds have elapsed, and staleness persists as time moves on. |
| MetadataCache.GetRoundTrip | lib/layers/metadata_cache/cache.cpp:24-50 | A snapshot looked up at the instant it was stored is returned unchanged. Once a full time-out has passed, the lookup misses and the entry is gone. |
| MetadataLayer.Getattr | lib/layers/metadata_cache/metadata_cache.cpp:41-70 | A fresh hit answers 0 without calling the backend. A miss returns the backend's result unchanged, and caches the attributes only when that result is 0. |
| MetadataLayer.Mutate | lib/layers/metadata_cache/metadata_cache.cpp:73-229 | Each mutating operation returns the backend's result and removes exactly the affected paths: the path, the source and the target, and the parents where the source removes them. Other entries are untouched, whatever the backend returns. |
| MetadataLayer.RemoveAll | lib/layers/metadata_cache/metadata_cache.cpp:76-79 | Removing a list of paths keeps exactly the cached paths not in the list, with their entries unchanged. |
| DataCache.Open | lib/layers/data_cache/cache.cpp:15-38 | A negative open result, then a negative getattr result, is returned as-is with the cache unchanged. Only when both succeed is the modification time recorded. |
| DataCache.Release | lib/layers/data_cache/cache.cpp:40-49 | The recorded modification time is forgotten and the backend's release result is returned. Blocks stay. |
| DataCache.RemoveBlock | lib/layers/data_cache/cache.cpp:148-157 | A cached block is erased and its block size given back. Removing an absent key changes nothing. Tracked bytes stay block size times block count. |
| DataCache.Insert | lib/layers/data_cache/cache.cpp:135-143 | A new block is stored under its key, tracked bytes grow by one block size, and the policy is touched for the key. Other blocks are unchanged. |
| DataCache.MakeRoom | lib/layers/data_cache/cache.cpp:119-124 | Over budget, one policy-chosen block is dropped and its bytes released. Otherwise nothing changes. |
| DataCache.Refresh | lib/layers/data_cache/cache.cpp:81-102 | A block is valid exactly when its stamped modification time equals the file's current one and, with a positive time-out, its age is below the time-out. A valid block is left alone. An invalid one is re-read at its own offset. A read error removes the block from map and policy and returns the code. Success leaves a valid block holding the file's bytes. |
| DataCache.HitTurn | lib/layers/data_cache/cache.cpp:77-143 | On a cached block, at most the bytes still wanted are copied from the cursor's position in the block, and then the policy is touched for the block. With the corrected count (see Findings), a block ending at or before the cursor stops the loop, with the policy untouched. |
| DataCache.MissTurn | lib/layers/data_cache/cache.cpp:117-142 | On a miss, room is made first, then the block is read at index times block size. An error is returned, an empty read stops, and a non-empty read is cached and touched, so under LRU it becomes the most recent block. |
| DataCache.Turn | lib/layers/data_cache/cache.cpp:71-143 | One loop turn uses block index = cursor / block size. An error comes from a read of that block at index times block size. The cache stays consistent and within one block of the budget. A copied or filled block is touched in the policy. |
| DataCache.Advance | lib/layers/data_cache/cache.cpp:71-144 | A turn that continues moves the read strictly closer to its end. The bytes gathered so far stay equal to the file's bytes at the read offset. |
| DataCache.Serve | lib/layers/data_cache/cache.cpp:71-145 | The loop returns at most the bytes requested. When the backend reads the file as fixed content and the valid cached blocks agree with it, a successful result equals the file's window at the offset, and the blocks still agree afterwards. An error is the code of a failed backend read of a block the request covers, and that block is left uncached. |
| DataCache.Read | lib/layers/data_cache/cache.cpp:51-146 | A path without a recorded modification time returns exactly the backend read with the cache unchanged. Otherwise the loop's result is returned, at most size bytes. When the backend reads the file as fixed content and the valid cached blocks agree with it, those are exactly the bytes a direct read returns. An error is the code of a failed backend read of a block the request covers, and that block is left uncached. |
| DataCache.CopyCount | lib/layers/data_cache/cache.cpp:104-109 | Corrected count: the copy never overruns the block or the request, and it is zero exactly when the block ends at or before the cursor. |
| DataCache.CopyCountAsWritten | lib/layers/data_cache/cache.cpp:104-106 | The count as written, with 64-bit unsigned wrap-around. It agrees with the corrected count whenever the cursor lies within the block. |
| DataCache.CopyCountOverrun | lib/layers/data_cache/cache.cpp:104-106 | A 10-byte file with 16-byte blocks, read at offset 12: the count as written copies 2 (or 100) bytes past the block's end. The corrected count is 0. |
| DataCache.ValidityRule | lib/layers/data_cache/cache.cpp:169-185 | A block read under a different modification time is invalid at every instant. Under the same time it is valid when just stamped, and never expires with a non-positive time-out. With a positive time-out it is valid exactly while less than a whole time-out has elapsed. Once invalid it stays invalid as the clock advances. |
| ReadAhead.BufferRead | lib/layers/read_ahead/read_ahead_cache.cpp:79-90 | The buffer answers iff the request lies inside its window, which a fresh buffer never has. It then returns exactly size bytes taken from offset minus window start. |
| ReadAhead.Open | lib/layers/read_ahead/read_ahead_cache.cpp:14-27 | A path without a buffer gets an empty one. An existing buffer is left intact, and the backend's open result is returned. |
| ReadAhead.Release | lib/layers/read_ahead/read_ahead_cache.cpp:55-62 | The buffer is erased and the backend's release result is returned. |
| ReadAhead.Read | lib/layers/read_ahead/read_ahead_cache.cpp:29-53 | A covered request is served from the buffer without a backend call. A miss fetches max(size, prefetch) bytes at the offset. On an error the window is unchanged; otherwise it returns the first min(res, size) fetched bytes and the window becomes the fetch. |
| ReadAhead.MissThenHit | lib/layers/read_ahead/read_ahead_cache.cpp:39-53 | After a miss fetched n bytes at an offset, any later read inside that range hits, without calling the backend. |
| ReadAhead.ReadIsTransparent | lib/layers/read_ahead/read_ahead_cache.cpp:29-53 | When the layer below reads the file as fixed content, a read through the cache returns the same bytes as a direct read, and the buffer keeps agreeing with the file. |
| ReadAhead.OpenHolds | lib/layers/read_ahead/read_ahead_cache.cpp:64-68 | A freshly created buffer holds no window, so it agrees with any file content. |
| Channel.New | tests/channel_test.cpp:15 | A new channel has no pending messages. |
| Channel.Send | include/rsafefs/fuse_rpc/grpc/channel.hpp:26-40 | The item joins the back of the queue, and the pending count grows by one. |
| Channel.Receive | include/rsafefs/fuse_rpc/grpc/channel.hpp:15-24 | An empty channel yields nothing, where the source blocks. Otherwise the front item is removed and returned, and the count drops by one. |
| Channel.SendAllAppends | include/rsafefs/fuse_rpc/grpc/channel.hpp:26-40 | Sending items appends them, in order, behind those pending. |
| Channel.ReceiveManyTakesFront | include/rsafefs/fuse_rpc/grpc/channel.hpp:15-24 | Receiving k items yields the first k pending ones and leaves the rest. |
| Channel.FifoOrder | include/rsafefs/fuse_rpc/grpc/channel.hpp:15-52 | Items sent on a new channel are received in the order they were sent, and the channel is then empty again. |
| Channel.SendFourReceiveFour | tests/channel_test.cpp:27-42 | After sending 1, 2, 3, 4 there are four pending messages. They are received as 1, 2, 3, 4, leaving none. |
| Config.KindOf | lib/config.cpp:46-60 | Exactly the six layer names the constructor knows map to a layer kind. |
| Config.ParseStack | lib/config.cpp:42-61 | Accepted iff every name is known, keeping file order. Otherwise rejected with an unknown name from the stack. |
| Config.ValidateAcceptsWellFormed | lib/config.cpp:77-115 | The ordered checks accept exactly the non-empty stacks where a client is the only client and first, a server is the only server and last, and client and server never meet. |
| Config.ValidateSamples | lib/config.cpp:77-115 | Each rejection reason is reported for a stack that fails that check alone. A stack with two servers and two clients fails both count checks and is reported as too many servers, the check that runs first. A client stack and a server stack are accepted. |
| Config.ValidStackHasOneRole | lib/config.cpp:117-140 | Every accepted stack is exactly one of a client stack (no rpc server layer) and a server stack (last layer is an rpc server). |
| WriteBack.Extend | lib/fuse_rpc/grpc/async_client.cpp:277-287 | The merge loop ends at the maximal run: each block continues its predecessor and the sizes stay within the limit. The loop stops at the first block that fails either test. |
| WriteBack.MaximalRunUnique | lib/fuse_rpc/grpc/async_client.cpp:277-287 | Only one run satisfies the loop's stopping rule, so a request's extent is determined by the queue. |
| WriteBack.SendBlock | lib/fuse_rpc/grpc/async_client.cpp:261-307 | A request takes its path, offset and handle fields from the first block. Its buffer is the run's payloads in order, and its size is the buffer's length. |
| WriteBack.MessagesCoverQueue | lib/fuse_rpc/grpc/async_client.cpp:264-303 | The payloads of all requests of a queue, back to back, are the queue's payloads back to back: no byte is dropped, duplicated or reordered. |
| WriteBack.MessagesWriteLikeBlocks | lib/fuse_rpc/grpc/async_client.cpp:168-180 | Applying a queue's merged requests to the server's files has the same effect as applying its blocks one by one. |
| WriteBack.UnmergeableSplit | lib/fuse_rpc/grpc/async_client.cpp:168-180 | Two blocks where the second does not continue the first travel as two requests. |
| WriteBack.AdjacentMerge | lib/fuse_rpc/grpc/async_client.cpp:168-180 | Two adjacent writes under one handle that fit the limit together travel as one request with both payloads. |
| WriteBack.Start | lib/fuse_rpc/grpc/async_client.cpp:197-205 | A call with no blocks ends at once with success. Any other call opens the stream. |
| WriteBack.Proceed | lib/fuse_rpc/grpc/async_client.cpp:215-259 | CREATE sends the first request, or finishes when empty. WRITE releases exactly the blocks the completed write carried, then sends the next run or WRITES_DONE. WRITES_DONE finishes, and FINISHED ends with the stream's status. Every step but the last moves the call strictly closer to its end. |
| WriteBack.Drive | lib/fuse_rpc/grpc/async_client.cpp:215-259 | A call driven to its end writes exactly its outstanding requests, releases all its bytes, and reports the stream status. |
| WriteBack.CallDeliversQueue | lib/fuse_rpc/grpc/async_client.cpp:182-259 | A flush call over a queue sends exactly the queue's requests, whose payloads are the queue's bytes. It releases the queue's size, and the server's files end as if the blocks were written in order. |
| WriteScheduler.Init | lib/fuse_rpc/grpc/async_client.cpp:17-19 | A new client holds nothing, and its threshold is at most its cache size. |
| WriteScheduler.ScheduleFlush | lib/fuse_rpc/grpc/async_client.cpp:140-156 | The whole queue moves into a new call at the back of the scheduled calls. The queue empties and its counter resets, the total is unchanged, and a flush request is sent. |
| WriteScheduler.Write | lib/fuse_rpc/grpc/async_client.cpp:40-68 | Over the budget, the writer schedules a flush and waits on it. Otherwise it returns size, appends the block, and adds size to both counters. The idle timer is re-armed exactly when the write completed. |
| WriteScheduler.WriteQueues | lib/fuse_rpc/grpc/async_client.cpp:50-65 | Within the budget, a queue beyond the threshold is detached into a background flush before the block joins the queue. Otherwise the block joins the existing queue. |
| WriteScheduler.Resume | lib/fuse_rpc/grpc/async_client.cpp:51-58 | Once the awaited flush has ended, the waiting writer appends its block and returns its size. |
| WriteScheduler.TimerFired | lib/fuse_rpc/grpc/async_client.cpp:60-65 | The idle timer's expiry schedules a flush of the whole queue. |
| WriteScheduler.Shutdown | lib/fuse_rpc/grpc/async_client.cpp:26-30 | With every call ended, the destructor's termination message is sent. |
| WriteScheduler.Accounting | lib/fuse_rpc/grpc/async_client.cpp:56-58 | The total counter is the queue counter plus the bytes of every block held by scheduled and in-flight calls. |
| WriteScheduler.InFlight | lib/fuse_rpc/grpc/async_client.cpp:112-127 | At most one call is started and not ended, and only while the scheduler's flag is up. |
| WriteScheduler.StartOldest | lib/fuse_rpc/grpc/async_client.cpp:114-126 | The call started is the oldest scheduled one and is numbered next in start order, so calls start in FIFO order. An empty call ends at once. |
| WriteScheduler.Step | lib/fuse_rpc/grpc/async_client.cpp:101-138 | One received event keeps the invariant. Either nothing starts, or the oldest scheduled call starts next in order. The loop ends only on a termination with no other event pending. |
| WriteScheduler.OnCallEnded | lib/fuse_rpc/grpc/async_client.cpp:112-120 | The flag drops, and the oldest scheduled call, if any, starts. |
| WriteScheduler.OnFlushRequest | lib/fuse_rpc/grpc/async_client.cpp:121-128 | The oldest scheduled call starts only if none is running. |
| WriteScheduler.OnTerminated | lib/fuse_rpc/grpc/async_client.cpp:129-135 | With other events pending, the termination is sent again behind them. Otherwise the loop ends. |
| WriteScheduler.CallProceed | lib/fuse_rpc/grpc/async_client.cpp:215-259 | A completion of the in-flight call releases the oldest held blocks in order, lowering the total by exactly their size. The call's end empties the in-flight slot and sends CALL_ENDED. |
| Server.Clamp | lib/fuse_rpc/grpc/server.cpp:18-19 | The queue count and the pollers per queue are at least one. A count that was already positive is kept. |
| UnaryCall.Proceed | lib/fuse_rpc/grpc/server.cpp:162-184 | PROCESS creates the sibling, calls the backend and finishes with one reply carrying its result. FINISHED deletes the object. The ok flag plays no part. |
| UnaryCall.OneReply | lib/fuse_rpc/grpc/server.cpp:162-184 | Over its life, a unary call serves once and sends exactly one reply, carrying the backend's result. It creates exactly one sibling and is then deleted, whatever the ok flags. |
| BidiStreamCall.Proceed | lib/fuse_rpc/grpc/server.cpp:1292-1334 | CREATE goes to READ and reads. READ with ok calls the backend, writes the reply and goes to WRITE. READ without ok finishes. WRITE goes back to READ and reads. FINISHED deletes. |
| BidiStreamCall.StreamAlternates | lib/fuse_rpc/grpc/server.cpp:1346-1386 | From creation on, reads and reply writes strictly alternate, starting with a read. A finish can only replace a reply, as the last operation. |
| BidiStreamCall.OnePending | lib/fuse_rpc/grpc/server.cpp:1292-1334 | Every proceed except the deleting one issues exactly one new operation. |
| BidiStreamCall.SpawnsOnce | lib/fuse_rpc/grpc/server.cpp:1296 | Only the first proceed creates a sibling, and a stream accepted in CREATE creates exactly one. |
| BidiStreamCall.RepliesCarryResults | lib/fuse_rpc/grpc/server.cpp:1308-1318 | Every reply written follows a backend call on the message just read and carries that call's result. |
| ClientStreamCall.Proceed | lib/fuse_rpc/grpc/server.cpp:1400-1435 | CREATE goes to READ and reads. READ with ok writes the message to the backend and reads again, without a reply. READ without ok finishes with the default reply. FINISHED deletes. |
| ClientStreamCall.WholeStream | lib/fuse_rpc/grpc/server.cpp:1400-1435 | Over a whole stream, the messages are written to the backend exactly once each, in order. One sibling is created, every message is answered by a read, and one reply comes at the end. |
| ClientStreamCall.MessagesSized | lib/fuse_rpc/grpc/async_client.cpp:300-303 | Every request the write-back client sends declares its buffer's length as its size. |
| ClientStreamCall.FlushLandsInOrder | lib/fuse_rpc/grpc/server.cpp:1409-1422 | End to end: the server applies the requests of a flush call, sized as the client declares them. The backend's files end as if the queued blocks were written one by one, in order. |

## Left out

- Concurrency:
  - Mutexes, shared locks and atomics are not modelled.
  - The completion-queue poller threads, the asio timer thread and futures are replaced by sequential events.
  - `delete this` is not modelled.
  - Interleavings of concurrent reads and writes on one cache are not modelled; each operation is atomic here.
- The gRPC transport and protobuf are not modelled:
  - the synchronous client stubs;
  - the RPC-client forwarding;
  - the field copies between structs and messages.
- The server runs the backend call passed to it. The server's polling loop and its seeding of one object per call kind are not modelled.
- The POSIX backends (local and NFS) are abstract functions.
- The following are outside the modelled logic:
  - YAML option parsing;
  - the command line;
  - logging;
  - the pure delegating drivers and the layer wiring.
- Wall-clock time is the parameter `now`.
- The random generator's choice is a nondeterministic `:|` choice.
- WriteScheduler.Config: the floating-point flush threshold is an abstract `threshold` of at most `cacheSize`. The float multiplication and its clamp to [0, 1] are not modelled.
- The client's thread count, clamped to at least one, is not modelled, because the threads are not modelled.
- The write-back client's `flush` and `fsync` call `schedule_flush` without holding the block lock and wait on its future. The model covers the first half: WriteScheduler.ScheduleFlush returns the new call's number, and the wait that follows lasts until `ended` exceeds that number. The wait itself, and the forwarding to the synchronous client afterwards, are not modelled.
- The idle timer's cancel racing its expiry is not modelled. A fired timer that was cancelled is simply not delivered.
- WriteScheduler.Write: the threshold case split is stated on WriteScheduler.WriteQueues. Write's own contract states only the budget split.
- Integer widths are not modelled:
  - the `size_t` counters are unbounded naturals;
  - `off_t` offsets are naturals, so negative offsets are not modelled;
  - `write` returning `size` as an `int` is not checked for overflow.
  - The one place where width matters is the copy count in the data cache. Only DataCache.CopyCountAsWritten carries its 64-bit wrap-around (see Findings); the read loop uses the corrected DataCache.CopyCount.
- Only the handle fields of `fuse_file_info` that the merge rule compares are modelled. Other attributes are carried as an opaque `Stat`, and only the modification time is interpreted.
- The data cache returns a backend error even after it has copied bytes into the caller's buffer. The model follows that code rather than a short-read reading, and returns the error.
- The data cache copies from a block whose size is the backend's result. A refresh that fails first stores the negative result as the size; the block is removed right away, so that value is never read and is not modelled.
- BidiStreamCall.RepliesCarryResults: the two bidirectional streams (stream read, stream write) share one state machine, with the backend result as the reply. The bytes a stream read returns in its reply are not modelled.
- ClientStreamCall.Proceed: the backend's result for each streamed write is discarded by the source and is not modelled.
- ClientStreamCall.Payload: a message whose declared size exceeds its buffer would make the source read past the buffer. The model cuts the write at the buffer's end. The write-back client never sends such a message (ClientStreamCall.MessagesSized).
- DataCache.HitTurn: copies with the corrected count (see Findings), so a cursor at or past the end of a short cached block stops the read. The source copies `size - readed` bytes from beyond the block's valid bytes. Example: a 10-byte file, block size 16, block 0 cached, read 2 bytes at offset 12.
- DataCache.Turn: inherits the corrected count from HitTurn; on the same input it reports a stop where the source copies 2 bytes.
- DataCache.Advance: inherits the corrected count; the bytes it gathers are the file's bytes, where the source would append bytes from past the block's end on the same input.
- DataCache.Serve: inherits the corrected count; on the same input it returns an empty result where the source returns 2 bytes past the block's valid data.
- DataCache.Read: inherits the corrected count; reading 2 bytes at offset 12 of the 10-byte file returns an empty result, where the source returns 2 bytes (and with size 100 reads past the 16-byte buffer).
- Metadata `getattr` and `fgetattr` are one operation here. They differ only in the backend call.
- Read-ahead `read` on a path that was never opened dereferences a missing buffer in the source. The model requires a prior `open`.

## Findings

| source | as written | input that shows it | evidently intended | confidence | as-written member | corrected member |
|---|---|---|---|---|---|---|
| lib/layers/data_cache/cache.cpp:104-106 | The copy count is `min(size - readed, block.size_ - offset_in_the_block)`, computed in unsigned arithmetic. When the cursor lies past the end of a short block at end of file, the subtraction wraps to a huge value, and the count becomes the whole remaining request. | A 10-byte file with block size 16 (one 10-byte cached block), read for 2 bytes at offset 12: the count is 2, so 2 bytes are copied from beyond the block's 10 valid bytes. | A count of 0 for a cursor at or past the block's end, which ends the read at end of file. | not executed | DataCache.CopyCountOverrun | DataCache.CopyCount |

=== FILE: base.dfy ===
/** Shared vocabulary of the model: optional values, results carrying a
    POSIX-style negative error code, bytes, paths and the clock arithmetic
    both TTL-based caches use. */
module Base {

  datatype Option<+T> = None | Some(value: T)

  /** A backend call either succeeds with a value or fails with the negative
      code the backend returned. */
  datatype Result<+T> = Ok(value: T) | Err(code: int)

  type Byte = bv8

  type Path = string

  /** A POSIX timestamp: whole seconds and nanoseconds. */
  datatype Timespec = Timespec(sec: int, nsec: int)

  /** The file attributes the caches store or consult; only the modification
      time is interpreted, by the data cache. */
  datatype Stat = Stat(mode: nat, nlink: nat, size: nat, mtime: Timespec)

  /** Clock readings, in nanoseconds of the high-resolution clock. */
  type Instant = nat

  const NanosPerSecond: nat := 1_000_000_000

  /** Whole seconds from `stamp` to `now`, truncated toward zero, the way a
      cast of a clock difference to a count of seconds truncates. A clock that
      went backwards gives a non-positive count. */
  function ElapsedSeconds(now: Instant, stamp: Instant): (r: int)
    ensures now >= stamp ==> r >= 0 && r * NanosPerSecond <= now - stamp < (r + 1) * NanosPerSecond
    ensures now < stamp ==> r <= 0
  {
    if now >= stamp then (now - stamp) / NanosPerSecond
    else -((stamp - now) / NanosPerSecond)
  }

  /** The freshness rule shared by the metadata and data caches: a positive
      time-out bounds the age in whole seconds, any other time-out disables
      expiry. */
  predicate FreshAt(now: Instant, stamp: Instant, timeOut: int)
  {
    timeOut > 0 ==> ElapsedSeconds(now, stamp) < timeOut
  }

  /** The freshness rule as stated by its effect: with a positive time-out a
      stamp is fresh exactly while less than a whole time-out has elapsed, and
      once stale it stays stale as the clock advances; otherwise it never
      expires. */
  lemma FreshRule(stamp: Instant, timeOut: int, now: Instant, later: Instant)
    requires stamp <= now <= later
    ensures timeOut <= 0 ==> FreshAt(now, stamp, timeOut)
    ensures FreshAt(stamp, stamp, timeOut)
    ensures timeOut > 0 ==> (FreshAt(now, stamp, timeOut) <==> now - stamp < timeOut * NanosPerSecond)
    ensures !FreshAt(now, stamp, timeOut) ==> !FreshAt(later, stamp, timeOut)
  {
    if timeOut > 0 {
      var d := ElapsedSeconds(now, stamp);
      if now - stamp < timeOut * NanosPerSecond {
        assert d * NanosPerSecond <= now - stamp;
      } else {
        assert (d + 1) * NanosPerSecond > timeOut * NanosPerSecond;
      }
      assert ElapsedSeconds(later, stamp) >= d by {
        DivMonotone(now - stamp, later - stamp);
      }
    }
  }

  lemma DivMonotone(a: nat, b: nat)
    requires a <= b
    ensures a / NanosPerSecond <= b / NanosPerSecond
  {
  }

  function Min(a: int, b: int): int { if a <= b then a else b }

  function Max(a: int, b: int): int { if a >= b then a else b }

  /** The bytes of `content` in [offset, offset + len), cut at the end of the
      content: what a POSIX read of `len` bytes at `offset` delivers. */
  function Window(content: seq<Byte>, offset: nat, len: nat): (r: seq<Byte>)
    ensures |r| <= len
    ensures offset + len <= |content| ==> r == content[offset..offset + len]
    ensures offset >= |content| ==> r == []
  {
    if offset >= |content| then []
    else content[offset..Min(offset + len, |content|)]
  }

  /** The backend reads `path` as the file `content`: every successful
      positional read yields exactly the content's bytes in the requested
      range. */
  ghost predicate ReadsFile(read: (Path, nat, nat) -> Result<seq<Byte>>, path: Path, content: seq<Byte>)
  {
    forall o, n :: read(path, o, n).Ok? ==> read(path, o, n).value == Window(content, o, n)
  }

  /** Asking for fewer bytes at the same offset yields a prefix. */
  lemma WindowPrefix(content: seq<Byte>, offset: nat, n: nat, m: nat)
    requires n <= m
    ensures var w := Window(content, offset, m);
            w[..Min(|w|, n)] == Window(content, offset, n)
  {
  }

  /** A window that came back whole can be cut anywhere inside it: the piece
      is the window of the content at the piece's own offset. */
  lemma WindowInside(content: seq<Byte>, start: nat, len: nat, offset: nat, n: nat)
    requires |Window(content, start, len)| == len
    requires start <= offset && offset + n <= start + len
    ensures Window(content, start, len)[offset - start..][..n] == Window(content, offset, n)
  {
    if n > 0 {
      assert start + len <= |content|;
    }
  }

  /** A window is the window of its own length. */
  lemma WindowOwnLength(content: seq<Byte>, offset: nat, n: nat)
    ensures var w := Window(content, offset, n);
            w == Window(content, offset, |w|)
  {
  }
}

=== FILE: channel.dfy ===
/** The in-process message channel: an unbounded first-in first-out queue
    whose receiver waits while it is empty. The mutex and condition variable
    only serialise access; the model is the queue's contents. */
module Channel {
  import opened Base

  /** Pending messages, the front (next to be received) first. */
  datatype Channel<T> = Channel(queue: seq<T>)

  function New<T>(): (ch: Channel<T>)
    ensures !HasPending(ch) && NPending(ch) == 0
  {
    Channel([])
  }

  /** channel::send: append at the back. */
  function Send<T>(ch: Channel<T>, item: T): (ch': Channel<T>)
    ensures NPending(ch') == NPending(ch) + 1 && HasPending(ch')
    ensures ch'.queue[..NPending(ch)] == ch.queue && ch'.queue[NPending(ch)] == item
  {
    Channel(ch.queue + [item])
  }

  /** channel::receive: the front message and the rest of the queue, or
      `None` while the queue is empty, when the receiver keeps waiting. */
  function Receive<T>(ch: Channel<T>): (r: Option<(T, Channel<T>)>)
    ensures r.None? <==> !HasPending(ch)
    ensures r.Some? ==> && r.value.0 == ch.queue[0]
                        && [r.value.0] + r.value.1.queue == ch.queue
                        && NPending(r.value.1) == NPending(ch) - 1
  {
    if |ch.queue| == 0 then None else Some((ch.queue[0], Channel(ch.queue[1..])))
  }

  function NPending<T>(ch: Channel<T>): nat
  {
    |ch.queue|
  }

  predicate HasPending<T>(ch: Channel<T>)
  {
    |ch.queue| > 0
  }

  /** Send every item of `items`, in order. */
  function SendAll<T>(ch: Channel<T>, items: seq<T>): (ch': Channel<T>)
    ensures NPending(ch') == NPending(ch) + |items|
    decreases |items|
  {
    if |items| == 0 then ch else SendAll(Send(ch, items[0]), items[1..])
  }

  /** Receive `n` messages, or as many as are pending if fewer; the received
      messages in order and the channel left behind. */
  function ReceiveMany<T>(ch: Channel<T>, n: nat): (r: (seq<T>, Channel<T>))
    ensures |r.0| == Min(n, NPending(ch))
    ensures NPending(r.1) == NPending(ch) - |r.0|
    decreases n
  {
    if n == 0 then ([], ch)
    else match Receive(ch)
      case None => ([], ch)
      case Some((item, rest)) =>
        var (items, left) := ReceiveMany(rest, n - 1);
        ([item] + items, left)
  }

  /** Sending appends the items behind whatever was pending. */
  lemma {:induction false} SendAllAppends<T>(ch: Channel<T>, items: seq<T>)
    ensures SendAll(ch, items).queue == ch.queue + items
    decreases |items|
  {
    if |items| > 0 {
      SendAllAppends(Send(ch, items[0]), items[1..]);
      assert ch.queue + [items[0]] + items[1..] == ch.queue + items;
    }
  }

  /** Receiving k messages yields the first k pending ones and leaves the rest. */
  lemma {:induction false} ReceiveManyTakesFront<T>(ch: Channel<T>, k: nat)
    requires k <= NPending(ch)
    ensures ReceiveMany(ch, k) == (ch.queue[..k], Channel(ch.queue[k..]))
    decreases k
  {
    if k > 0 {
      ReceiveManyTakesFront(Channel(ch.queue[1..]), k - 1);
      assert [ch.queue[0]] + ch.queue[1..][..k - 1] == ch.queue[..k];
      assert ch.queue[1..][k - 1..] == ch.queue[k..];
    }
  }

  /** First in, first out: items sent on an empty channel come out in the
      order they were sent, and the channel is empty afterwards. */
  lemma FifoOrder<T>(items: seq<T>)
    ensures var (got, left) := ReceiveMany(SendAll(New<T>(), items), |items|);
            got == items && !HasPending(left)
  {
    SendAllAppends(New<T>(), items);
    ReceiveManyTakesFront(SendAll(New<T>(), items), |items|);
    assert SendAll(New<T>(), items).queue == items;
  }

  /** A new channel has nothing pending; after sending 1, 2, 3, 4 four
      messages are pending, they are received as 1, 2, 3, 4, and none is
      left. */
  lemma SendFourReceiveFour()
    ensures !HasPending(New<int>())
    ensures var ch := SendAll(New<int>(), [1, 2, 3, 4]);
            && HasPending(ch) && NPending(ch) == 4
            && ReceiveMany(ch, 4).0 == [1, 2, 3, 4] && NPending(ReceiveMany(ch, 4).1) == 0
  {
    FifoOrder([1, 2, 3, 4]);
  }
}

=== FILE: config.dfy ===
/** The layer-stack configuration: the ordered list of layer names of a
    configuration file mapped to layer kinds, and the validation of the
    resulting stack, with the client/server role it implies. */
module Config {
  import opened Base

  datatype LayerKind = DataCache | Local | MetadataCache | ReadAhead | RpcClient | RpcServer

  /** Why a configuration is refused, one reason per check, in the order
      the checks run. */
  datatype ConfigError =
    | NotImplemented(name: string)
    | EmptyConfiguration
    | TooManyServers
    | TooManyClients
    | ClientNotFirst
    | ServerNotLast
    | ClientAndServer

  datatype Checked<T> = Accepted(value: T) | Rejected(error: ConfigError)

  /** The layer names the configuration constructor recognises. */
  function KindOf(name: string): (k: Option<LayerKind>)
    ensures k.Some? <==> name in {"data_cache", "local", "metadata_cache", "read_ahead", "rpc_client", "rpc_server"}
  {
    if name == "data_cache" then Some(DataCache)
    else if name == "local" then Some(Local)
    else if name == "metadata_cache" then Some(MetadataCache)
    else if name == "read_ahead" then Some(ReadAhead)
    else if name == "rpc_client" then Some(RpcClient)
    else if name == "rpc_server" then Some(RpcServer)
    else None
  }

  /** The configuration constructor's loop: each top-level name in file
      order becomes a layer; the first unknown name aborts construction. */
  function ParseStack(names: seq<string>): (r: Checked<seq<LayerKind>>)
    ensures r.Accepted? <==> forall i :: 0 <= i < |names| ==> KindOf(names[i]).Some?
    ensures r.Accepted? ==> |r.value| == |names| && forall i :: 0 <= i < |names| ==> Some(r.value[i]) == KindOf(names[i])
    ensures r.Rejected? ==> FirstUnknown(names, r.error)
  {
    if |names| == 0 then Accepted([])
    else match KindOf(names[0])
      case None => Rejected(NotImplemented(names[0]))
      case Some(k) =>
        match ParseStack(names[1..])
        case Rejected(e) =>
          FirstUnknownShift(names, e);
          Rejected(e)
        case Accepted(rest) => Accepted([k] + rest)
  }

  /** `e` names the first unknown layer name of the stack. */
  ghost predicate FirstUnknown(names: seq<string>, e: ConfigError)
  {
    exists j :: && 0 <= j < |names| && e == NotImplemented(names[j])
                && KindOf(names[j]).None?
                && forall i :: 0 <= i < j ==> KindOf(names[i]).Some?
  }

  /** A known first name keeps the first unknown name of the rest first. */
  lemma FirstUnknownShift(names: seq<string>, e: ConfigError)
    requires |names| > 0 && KindOf(names[0]).Some? && FirstUnknown(names[1..], e)
    ensures FirstUnknown(names, e)
  {
    var j :| && 0 <= j < |names[1..]| && e == NotImplemented(names[1..][j])
             && KindOf(names[1..][j]).None? && forall i :: 0 <= i < j ==> KindOf(names[1..][i]).Some?;
    assert names[1..][j] == names[j + 1];
    forall i | 0 <= i < j + 1
      ensures KindOf(names[i]).Some?
    {
      if i > 0 {
        assert names[i] == names[1..][i - 1];
      }
    }
  }

  /** How many layers of the stack are of kind `k`. */
  function Count(layers: seq<LayerKind>, k: LayerKind): (n: nat)
    ensures n <= |layers|
    ensures n == 0 <==> k !in layers
  {
    if |layers| == 0 then 0 else (if layers[0] == k then 1 else 0) + Count(layers[1..], k)
  }

  /** config::is_valid: `None` when the stack is accepted, otherwise the
      error of the first failing check. */
  function Validate(layers: seq<LayerKind>): (r: Option<ConfigError>)
    ensures r.None? ==> |layers| > 0
  {
    var servers, clients := Count(layers, RpcServer), Count(layers, RpcClient);
    if |layers| == 0 then Some(EmptyConfiguration)
    else if servers > 1 then Some(TooManyServers)
    else if clients > 1 then Some(TooManyClients)
    else if clients == 1 && layers[0] != RpcClient then Some(ClientNotFirst)
    else if servers == 1 && layers[|layers| - 1] != RpcServer then Some(ServerNotLast)
    else if servers == 1 && clients == 1 then Some(ClientAndServer)
    else None
  }

  /** config::is_client: no layer is an rpc server. */
  predicate IsClient(layers: seq<LayerKind>)
  {
    RpcServer !in layers
  }

  /** config::is_server: the last layer is an rpc server. The source reads
      the last layer unguarded; it is only asked of a validated stack. */
  predicate IsServer(layers: seq<LayerKind>)
    requires |layers| > 0
  {
    layers[|layers| - 1] == RpcServer
  }

  /** An accepted stack, described independently of the checks: it is not
      empty, an rpc client may only be the first layer, an rpc server may
      only be the last, and they are never both present. */
  predicate WellFormed(layers: seq<LayerKind>)
  {
    && |layers| > 0
    && (forall i :: 0 < i < |layers| ==> layers[i] != RpcClient)
    && (forall i :: 0 <= i < |layers| - 1 ==> layers[i] != RpcServer)
    && !(layers[0] == RpcClient && layers[|layers| - 1] == RpcServer)
  }

  /** A kind that occurs at most once and sits at position `i` occurs nowhere else. */
  lemma {:induction false} CountOne(layers: seq<LayerKind>, k: LayerKind, i: nat)
    requires i < |layers| && layers[i] == k
    ensures Count(layers, k) >= 1
    ensures Count(layers, k) == 1 ==> forall j :: 0 <= j < |layers| && j != i ==> layers[j] != k
    decreases |layers|
  {
    if i > 0 {
      CountOne(layers[1..], k, i - 1);
      if Count(layers, k) == 1 {
        assert layers[0] != k;
        forall j | 0 <= j < |layers| && j != i
          ensures layers[j] != k
        {
          if j > 0 {
            assert layers[j] == layers[1..][j - 1];
          }
        }
      }
    } else if Count(layers, k) == 1 {
      assert Count(layers[1..], k) == 0;
      forall j | 0 < j < |layers|
        ensures layers[j] != k
      {
        assert layers[j] == layers[1..][j - 1];
      }
    }
  }

  /** A kind that occurs only at position `i` is counted once. */
  lemma {:induction false} CountOnly(layers: seq<LayerKind>, k: LayerKind, i: nat)
    requires i < |layers| && layers[i] == k
    requires forall j :: 0 <= j < |layers| && j != i ==> layers[j] != k
    ensures Count(layers, k) == 1
    decreases |layers|
  {
    if i > 0 {
      assert layers[0] != k;
      forall j | 0 <= j < |layers[1..]| && j != i - 1
        ensures layers[1..][j] != k
      {
        assert layers[1..][j] == layers[j + 1];
      }
      CountOnly(layers[1..], k, i - 1);
    } else {
      assert k !in layers[1..] by {
        forall j | 0 <= j < |layers[1..]|
          ensures layers[1..][j] != k
        {
          assert layers[1..][j] == layers[j + 1];
        }
      }
    }
  }

  /** In a well-formed stack the rpc client is counted once exactly when it
      is the first layer, and the rpc server once exactly when it is the last. */
  lemma WellFormedCounts(layers: seq<LayerKind>)
    requires WellFormed(layers)
    ensures Count(layers, RpcClient) == (if layers[0] == RpcClient then 1 else 0)
    ensures Count(layers, RpcServer) == (if layers[|layers| - 1] == RpcServer then 1 else 0)
  {
    if layers[0] == RpcClient {
      CountOnly(layers, RpcClient, 0);
    }
    if layers[|layers| - 1] == RpcServer {
      CountOnly(layers, RpcServer, |layers| - 1);
    }
  }

  /** A stack that passes every check is well formed. */
  lemma AcceptedIsWellFormed(layers: seq<LayerKind>)
    requires Validate(layers).None?
    ensures WellFormed(layers)
  {
    if RpcClient in layers {
      var i :| 0 <= i < |layers| && layers[i] == RpcClient;
      CountOne(layers, RpcClient, i);
    }
    if RpcServer in layers {
      var i :| 0 <= i < |layers| && layers[i] == RpcServer;
      CountOne(layers, RpcServer, i);
    }
  }

  /** The ordered checks accept exactly the well-formed stacks. */
  lemma ValidateAcceptsWellFormed(layers: seq<LayerKind>)
    ensures Validate(layers).None? <==> WellFormed(layers)
  {
    if Validate(layers).None? {
      AcceptedIsWellFormed(layers);
    }
    if WellFormed(layers) {
      WellFormedCounts(layers);
    }
  }

  /** Every accepted stack is either a client stack or a server stack, never both. */
  lemma ValidStackHasOneRole(layers: seq<LayerKind>)
    requires Validate(layers).None?
    ensures IsClient(layers) != IsServer(layers)
  {
    ValidateAcceptsWellFormed(layers);
  }

  /** One stack per rejection reason that fails that check alone, a stack
      failing both count checks reported at the earlier one, and two
      accepted stacks, a client one and a server one. */
  lemma ValidateSamples()
    ensures Validate([]) == Some(EmptyConfiguration)
    ensures Validate([RpcServer, RpcServer]) == Some(TooManyServers)
    ensures Validate([RpcServer, RpcServer, RpcClient, RpcClient]) == Some(TooManyServers)
    ensures Validate([RpcClient, Local, RpcClient]) == Some(TooManyClients)
    ensures Validate([MetadataCache, RpcClient]) == Some(ClientNotFirst)
    ensures Validate([RpcServer, Local]) == Some(ServerNotLast)
    ensures Validate([RpcClient, RpcServer]) == Some(ClientAndServer)
    ensures Validate([RpcClient, MetadataCache, DataCache]) == None
    ensures Validate([Local, RpcServer]) == None
  {
    assert [RpcServer, RpcServer][1..] == [RpcServer];
    assert [RpcServer, RpcServer, RpcClient, RpcClient][1..] == [RpcServer, RpcClient, RpcClient];
    assert [RpcServer, RpcClient, RpcClient][1..] == [RpcClient, RpcClient];
    assert [RpcClient, RpcClient][1..] == [RpcClient];
    assert [RpcClient, Local, RpcClient][1..] == [Local, RpcClient];
    assert [Local, RpcClient][1..] == [RpcClient];
    assert [RpcClient][1..] == [];
    assert [MetadataCache, RpcClient][1..] == [RpcClient];
    assert [RpcServer, Local][1..] == [Local];
    assert [Local][1..] == [];
    assert [RpcClient, RpcServer][1..] == [RpcServer];
    assert [RpcServer][1..] == [];
    assert [RpcClient, MetadataCache, DataCache][1..] == [MetadataCache, DataCache];
    assert [MetadataCache, DataCache][1..] == [DataCache];
    assert [DataCache][1..] == [];
    assert [Local, RpcServer][1..] == [RpcServer];
  }
}

=== FILE: data_cache.dfy ===
/** The data-block cache: file contents cached in fixed-size blocks keyed by
    (path, block index), validated against the modification time recorded
    when the file was opened and an optional time-out, with the cached bytes
    accounted in multiples of the block size. */
module DataCache {
  import opened Base
  import EvictionPolicy

  datatype Key = Key(path: Path, index: nat)

  /** A cached block: the bytes the backend returned for it (its size is
      their count), its file offset, when it was filled, and the file's
      modification time it was filled against. */
  datatype Block = Block(data: seq<Byte>, offset: nat, stamp: Instant, mtime: Timespec)

  /** `size` is the byte budget, `blockSize` the block length, a positive
      `timeOut` (seconds) bounds a block's age. */
  datatype Config = Config(size: nat, blockSize: nat, timeOut: int)

  datatype Cache = Cache(config: Config, mtimes: map<Path, Timespec>, blocks: map<Key, Block>,
                         policy: EvictionPolicy.Policy<Key>, tracked: nat)

  /** The layer below: open, attribute lookup, positional read and release.
      A read either yields bytes or a negative error code. */
  datatype Backend = Backend(open: Path -> int, getattr: Path -> (int, Stat),
                             read: (Path, nat, nat) -> Result<seq<Byte>>, release: Path -> int)

  /** A read never yields more bytes than requested, as POSIX guarantees. */
  ghost predicate ReadsAtMost(read: (Path, nat, nat) -> Result<seq<Byte>>)
  {
    forall p, o, n :: read(p, o, n).Ok? ==> |read(p, o, n).value| <= n
  }

  /** Every block sits at its index times the block size and holds at most
      one block of bytes. */
  predicate WellShaped(c: Cache)
  {
    forall k :: k in c.blocks ==>
      c.blocks[k].offset == k.index * c.config.blockSize && |c.blocks[k].data| <= c.config.blockSize
  }

  /** The cache's invariant: the policy tracks exactly the cached keys, the
      tracked byte count is one block size per cached block, blocks are well shaped. */
  predicate Consistent(c: Cache)
  {
    && c.config.blockSize > 0
    && EvictionPolicy.Valid(c.policy)
    && c.blocks.Keys == EvictionPolicy.Tracked(c.policy)
    && c.tracked == c.config.blockSize * |c.blocks|
    && WellShaped(c)
  }

  /** The budget bound: at most one block over the configured size. */
  predicate Bounded(c: Cache)
  {
    c.tracked <= c.config.size + c.config.blockSize
  }

  function Empty(config: Config, useLru: bool): (c: Cache)
    requires config.blockSize > 0
    ensures Consistent(c) && Bounded(c) && c.blocks == map[] && c.mtimes == map[]
  {
    Cache(config, map[], map[], EvictionPolicy.Fresh(useLru), 0)
  }

  /** block::is_valid: the block was filled against the file's current
      recorded modification time (any difference invalidates at once) and,
      with a positive time-out, is younger than it. */
  predicate IsValid(b: Block, timeOut: int, fileMtime: Timespec, now: Instant)
  {
    b.mtime == fileMtime && FreshAt(now, b.stamp, timeOut)
  }

  /** block::is_valid as a rule: a block read under a different modification
      time of the file is invalid at every instant; otherwise it is valid when
      just stamped, never expires under a non-positive time-out, is valid under
      a positive one exactly while less than a whole time-out has elapsed, and
      once invalid it stays invalid as the clock advances. */
  lemma ValidityRule(b: Block, timeOut: int, fileMtime: Timespec, now: Instant, later: Instant)
    requires b.stamp <= now <= later
    ensures b.mtime != fileMtime ==> !IsValid(b, timeOut, fileMtime, now)
    ensures b.mtime == fileMtime ==> IsValid(b, timeOut, fileMtime, b.stamp)
    ensures b.mtime == fileMtime && timeOut <= 0 ==> IsValid(b, timeOut, fileMtime, now)
    ensures b.mtime == fileMtime && timeOut > 0 ==>
              (IsValid(b, timeOut, fileMtime, now) <==> now - b.stamp < timeOut * NanosPerSecond)
    ensures !IsValid(b, timeOut, fileMtime, now) ==> !IsValid(b, timeOut, fileMtime, later)
  {
    FreshRule(b.stamp, timeOut, now, later);
  }

  /** cache::open: open below, then look up the attributes; a negative result
      of either is returned as is and nothing is recorded; on success the
      file's modification time is recorded for the path. */
  function Open(c: Cache, path: Path, be: Backend): (r: (int, Cache))
    ensures be.open(path) < 0 ==> r == (be.open(path), c)
    ensures be.open(path) >= 0 && be.getattr(path).0 < 0 ==> r == (be.getattr(path).0, c)
    ensures be.open(path) >= 0 && be.getattr(path).0 >= 0 ==>
              r.0 == 0 && r.1 == c.(mtimes := c.mtimes[path := be.getattr(path).1.mtime])
    ensures Consistent(c) ==> Consistent(r.1)
  {
    var res := be.open(path);
    if res < 0 then (res, c)
    else
      var (attrRes, stat) := be.getattr(path);
      if attrRes < 0 then (attrRes, c)
      else (0, c.(mtimes := c.mtimes[path := stat.mtime]))
  }

  /** cache::release: forget the recorded modification time, then release below. */
  function Release(c: Cache, path: Path, be: Backend): (r: (int, Cache))
    ensures r.0 == be.release(path)
    ensures path !in r.1.mtimes && r.1.mtimes == c.mtimes - {path}
    ensures r.1.blocks == c.blocks && r.1.policy == c.policy && r.1.tracked == c.tracked
  {
    (be.release(path), c.(mtimes := c.mtimes - {path}))
  }

  /** cache::remove_block: erase a cached block and give back its bytes; the
      policy is the caller's business. */
  function RemoveBlock(c: Cache, k: Key): (c': Cache)
    requires c.tracked == c.config.blockSize * |c.blocks|
    ensures c'.tracked == c'.config.blockSize * |c'.blocks|
    ensures c'.blocks == c.blocks - {k} && c'.config == c.config && c'.mtimes == c.mtimes
    ensures c'.policy == c.policy
    ensures k in c.blocks ==> c'.tracked == c.tracked - c.config.blockSize
    ensures k !in c.blocks ==> c' == c
  {
    if k in c.blocks then
      assert |c.blocks - {k}| == |c.blocks| - 1;
      c.(blocks := c.blocks - {k}, tracked := c.tracked - c.config.blockSize)
    else c
  }

  /** Bytes to copy out of a block of `blockLen` bytes from `offsetInBlock`
      when `remaining` are still wanted. Zero ends the read: the block holds
      nothing at or past that offset. */
  function CopyCount(remaining: nat, blockLen: nat, offsetInBlock: nat): (n: nat)
    ensures n <= remaining && offsetInBlock + n <= Max(blockLen, offsetInBlock)
    ensures n == 0 <==> remaining == 0 || blockLen <= offsetInBlock
    ensures offsetInBlock < blockLen ==> n == Min(remaining, blockLen - offsetInBlock)
  {
    if blockLen <= offsetInBlock then 0 else Min(remaining, blockLen - offsetInBlock)
  }

  /** The copy count as cache.cpp writes it: the block's byte count minus
      the offset in the block, computed in 64-bit unsigned arithmetic, so a
      cursor past the block's last byte wraps to a huge count and the minimum
      picks the remaining request instead of zero. */
  function CopyCountAsWritten(remaining: nat, blockLen: nat, offsetInBlock: nat): (n: nat)
    requires remaining < 0x1_0000_0000_0000_0000 && blockLen < 0x1_0000_0000_0000_0000
    requires offsetInBlock < 0x1_0000_0000_0000_0000
    ensures n <= remaining
    ensures offsetInBlock <= blockLen ==> n == CopyCount(remaining, blockLen, offsetInBlock)
  {
    Min(remaining, (blockLen - offsetInBlock) % 0x1_0000_0000_0000_0000)
  }

  /** A ten-byte file read with 16-byte blocks from offset 12: the cached
      first block holds ten bytes, yet the written count copies 2 bytes from
      past its end (and, for a 100-byte request, 100 bytes out of a 16-byte
      buffer) where the corrected count copies nothing and ends the read. */
  lemma CopyCountOverrun()
    ensures CopyCountAsWritten(2, 10, 12) == 2 && 12 + 2 > 10
    ensures CopyCountAsWritten(100, 10, 12) == 100 && 12 + 100 > 16
    ensures CopyCount(2, 10, 12) == 0 && CopyCount(100, 10, 12) == 0
  {
  }

  /** Every block of `path` that would be served without a refresh holds the
      content's bytes for its range. */
  ghost predicate BlocksMatch(c: Cache, path: Path, content: seq<Byte>, fileMtime: Timespec, now: Instant)
  {
    forall k :: k in c.blocks && k.path == path && IsValid(c.blocks[k], c.config.timeOut, fileMtime, now) ==>
      c.blocks[k].data == Window(content, k.index * c.config.blockSize, c.config.blockSize)
  }

  lemma WindowExtend(content: seq<Byte>, offset: nat, k: nat, n: nat)
    requires |Window(content, offset, k)| == k
    requires offset + k + n <= |content|
    ensures Window(content, offset, k) + content[offset + k..offset + k + n] == Window(content, offset, k + n)
  {
    if k == 0 {
      assert Window(content, offset, k) == [];
    }
  }

  lemma WindowAtEnd(content: seq<Byte>, offset: nat, k: nat, size: nat)
    requires |Window(content, offset, k)| == k <= size
    requires offset + k >= |content|
    ensures Window(content, offset, k) == Window(content, offset, size)
  {
  }

  /** What one turn of the read loop did. */
  datatype TurnOutcome = Copied(bytes: seq<Byte>) | Filled | Stop | Failed(code: int)

  /** The block holding a cursor starts at or before it and ends after it. */
  lemma BlockOfCursor(seeker: nat, bs: nat)
    requires bs > 0
    ensures (seeker / bs) * bs <= seeker < (seeker / bs) * bs + bs
  {
  }

  /** The offset of the block holding a cursor. */
  function BlockStart(seeker: nat, bs: nat): nat
    requires bs > 0
  {
    (seeker / bs) * bs
  }

  /** Overwrite a cached block in place with refreshed bytes. */
  function Replace(c: Cache, key: Key, blk: Block): (c': Cache)
    requires Consistent(c) && key in c.blocks
    requires blk.offset == c.blocks[key].offset && |blk.data| <= c.config.blockSize
    ensures Consistent(c') && c'.config == c.config && c'.mtimes == c.mtimes && c'.tracked == c.tracked
    ensures c'.blocks.Keys == c.blocks.Keys && c'.blocks[key] == blk
    ensures forall k :: k in c.blocks && k != key ==> c'.blocks[k] == c.blocks[k]
  {
    assert c.blocks[key := blk].Keys == c.blocks.Keys;
    c.(blocks := c.blocks[key := blk])
  }

  /** Insert a block for a key not cached yet, account one block size for it
      and touch the policy. */
  function Insert(c: Cache, key: Key, blk: Block): (c': Cache)
    requires Consistent(c) && key !in c.blocks
    requires blk.offset == key.index * c.config.blockSize && |blk.data| <= c.config.blockSize
    ensures Consistent(c') && c'.config == c.config && c'.mtimes == c.mtimes
    ensures c'.tracked == c.tracked + c.config.blockSize
    ensures c'.blocks.Keys == c.blocks.Keys + {key} && c'.blocks[key] == blk
    ensures forall k :: k in c.blocks ==> c'.blocks[k] == c.blocks[k]
    ensures c'.policy == EvictionPolicy.Touch(c.policy, key)
  {
    InsertKeeps(c, key, blk);
    Cache(c.config, c.mtimes, c.blocks[key := blk], EvictionPolicy.Touch(c.policy, key), c.tracked + c.config.blockSize)
  }

  /** A new well-shaped block adds one block size to the count and keeps
      every block well shaped. */
  lemma InsertKeeps(c: Cache, key: Key, blk: Block)
    requires Consistent(c) && key !in c.blocks
    requires blk.offset == key.index * c.config.blockSize && |blk.data| <= c.config.blockSize
    ensures var blocks := c.blocks[key := blk];
            && c.tracked + c.config.blockSize == c.config.blockSize * |blocks|
            && forall k :: k in blocks ==>
                 blocks[k].offset == k.index * c.config.blockSize && |blocks[k].data| <= c.config.blockSize
  {
    var bs, n := c.config.blockSize, |c.blocks|;
    assert |c.blocks[key := blk]| == n + 1;
    assert bs * (n + 1) == bs * n + bs;
  }

  /** The bytes copied out of a block that holds the content's window are
      the content's bytes at the same file offsets. */
  lemma CopyMatches(content: seq<Byte>, blockOffset: nat, bs: nat, data: seq<Byte>, offsetInBlock: nat, n: nat)
    requires data == Window(content, blockOffset, bs) && 0 < n && offsetInBlock + n <= |data|
    ensures blockOffset + offsetInBlock + n <= |content|
    ensures data[offsetInBlock..offsetInBlock + n] == content[blockOffset + offsetInBlock..blockOffset + offsetInBlock + n]
  {
    assert blockOffset < |content|;
    assert data == content[blockOffset..Min(blockOffset + bs, |content|)];
    var copied, wanted := data[offsetInBlock..offsetInBlock + n], content[blockOffset + offsetInBlock..blockOffset + offsetInBlock + n];
    forall i | 0 <= i < n
      ensures copied[i] == wanted[i]
    {
      assert copied[i] == data[offsetInBlock + i];
    }
  }

  /** A block holding the content's window that ends before the cursor
      inside it means the cursor is at or past the end of the content. */
  lemma ShortBlockAtEnd(content: seq<Byte>, blockOffset: nat, bs: nat, data: seq<Byte>, offsetInBlock: nat)
    requires data == Window(content, blockOffset, bs) && |data| <= offsetInBlock < bs
    ensures blockOffset + offsetInBlock >= |content|
  {
  }

  /** The coherence facts a turn keeps and delivers, when the backend reads
      `path` as `content`. */
  ghost predicate TurnCoherent(c: Cache, c': Cache, t: TurnOutcome, path: Path, seeker: nat, fileMtime: Timespec,
                               now: Instant, content: seq<Byte>)
  {
    BlocksMatch(c, path, content, fileMtime, now) ==>
      && BlocksMatch(c', path, content, fileMtime, now)
      && (t.Copied? ==> seeker + |t.bytes| <= |content| && t.bytes == content[seeker..seeker + |t.bytes|])
      && (t.Stop? ==> seeker >= |content|)
  }

  /** Dropping blocks keeps the coherence of the remaining ones. */
  lemma BlocksMatchShrink(c: Cache, c': Cache, path: Path, content: seq<Byte>, fileMtime: Timespec, now: Instant)
    requires BlocksMatch(c, path, content, fileMtime, now) && c'.config == c.config
    requires forall k :: k in c'.blocks ==> k in c.blocks && c'.blocks[k] == c.blocks[k]
    ensures BlocksMatch(c', path, content, fileMtime, now)
  {
  }

  /** Storing a block that holds the content's window keeps coherence. */
  lemma BlocksMatchStore(c: Cache, key: Key, blk: Block, content: seq<Byte>, fileMtime: Timespec, now: Instant)
    requires BlocksMatch(c, key.path, content, fileMtime, now)
    requires blk.data == Window(content, key.index * c.config.blockSize, c.config.blockSize)
    ensures BlocksMatch(c.(blocks := c.blocks[key := blk]), key.path, content, fileMtime, now)
  {
  }

  /** The shape facts every turn keeps. */
  predicate TurnKeeps(c: Cache, c': Cache)
  {
    && Consistent(c')
    && c'.config == c.config && c'.mtimes == c.mtimes
    && (Bounded(c) ==> Bounded(c'))
  }

  /** What a block holding the content's window serves at a cursor inside
      it: nothing exactly when the cursor is at or past the end of the
      content, and otherwise the content's bytes from the cursor on. */
  lemma ServedBytes(content: seq<Byte>, blockOffset: nat, bs: nat, data: seq<Byte>, seeker: nat, remaining: nat)
    requires data == Window(content, blockOffset, bs) && blockOffset <= seeker < blockOffset + bs
    ensures var n := CopyCount(remaining, |data|, seeker - blockOffset);
            && (n == 0 && remaining > 0 ==> seeker >= |content|)
            && (n > 0 ==> seeker + n <= |content| && data[seeker - blockOffset..seeker - blockOffset + n] == content[seeker..seeker + n])
  {
    var n := CopyCount(remaining, |data|, seeker - blockOffset);
    if n == 0 {
      if remaining > 0 {
        ShortBlockAtEnd(content, blockOffset, bs, data, seeker - blockOffset);
      }
    } else {
      CopyMatches(content, blockOffset, bs, data, seeker - blockOffset, n);
    }
  }

  /** A valid block of a coherent cache holds the content's window. */
  lemma ValidBlockMatches(c: Cache, key: Key, content: seq<Byte>, fileMtime: Timespec, now: Instant)
    requires BlocksMatch(c, key.path, content, fileMtime, now) && key in c.blocks
    requires IsValid(c.blocks[key], c.config.timeOut, fileMtime, now)
    ensures c.blocks[key].data == Window(content, key.index * c.config.blockSize, c.config.blockSize)
  {
  }

  /** The refresh step of a hit: a block that is no longer valid is read
      again from the backend at its own offset and restamped with the
      current instant and the file's recorded modification time; a read
      error erases it from map and policy instead and reports the code. */
  method Refresh(c: Cache, key: Key, fileMtime: Timespec, be: Backend, now: Instant, ghost content: seq<Byte>)
    returns (failure: Option<int>, c': Cache)
    requires Consistent(c) && ReadsAtMost(be.read) && key in c.blocks
    ensures TurnKeeps(c, c')
    ensures IsValid(c.blocks[key], c.config.timeOut, fileMtime, now) ==> failure == None && c' == c
    ensures failure.Some? ==> && be.read(key.path, c.blocks[key].offset, c.config.blockSize) == Err(failure.value)
                              && c'.blocks == c.blocks - {key} && key !in EvictionPolicy.Tracked(c'.policy)
    ensures failure.None? ==> && key in c'.blocks && IsValid(c'.blocks[key], c.config.timeOut, fileMtime, now)
                              && c'.blocks.Keys == c.blocks.Keys && c'.policy == c.policy
    ensures ReadsFile(be.read, key.path, content) && BlocksMatch(c, key.path, content, fileMtime, now) ==>
              BlocksMatch(c', key.path, content, fileMtime, now)
  {
    var blk := c.blocks[key];
    if IsValid(blk, c.config.timeOut, fileMtime, now) {
      return None, c;
    }
    var res := be.read(key.path, blk.offset, c.config.blockSize);
    if res.Err? {
      var dropped := RemoveBlock(c, key);
      c' := dropped.(policy := EvictionPolicy.Remove(dropped.policy, key));
      if ReadsFile(be.read, key.path, content) && BlocksMatch(c, key.path, content, fileMtime, now) {
        BlocksMatchShrink(c, c', key.path, content, fileMtime, now);
      }
      return Some(res.code), c';
    }
    var renewed := Block(res.value, blk.offset, now, fileMtime);
    assert IsValid(renewed, c.config.timeOut, fileMtime, now);
    c' := Replace(c, key, renewed);
    failure := None;
    if ReadsFile(be.read, key.path, content) && BlocksMatch(c, key.path, content, fileMtime, now) {
      BlocksMatchStore(c, key, renewed, content, fileMtime, now);
    }
  }

  /** The hit half of a turn of cache::read's loop on the block `key` that
      holds cursor `seeker`. A block that is no longer valid is refreshed from
      the backend at its own offset first; a refresh error erases it from map
      and policy and ends the read with that error. Then the wanted part is
      copied and the policy touched, or nothing is copied when the block holds
      nothing at the cursor, which ends the read. */
  method HitTurn(c: Cache, key: Key, seeker: nat, remaining: nat, fileMtime: Timespec, be: Backend,
                 now: Instant, ghost content: seq<Byte>)
    returns (t: TurnOutcome, c': Cache)
    requires Consistent(c) && remaining > 0 && ReadsAtMost(be.read)
    requires key in c.blocks && key.index == seeker / c.config.blockSize
    ensures TurnKeeps(c, c')
    ensures t.Copied? ==> 0 < |t.bytes| <= remaining && key in c'.blocks
    ensures t.Copied? ==> c'.policy == EvictionPolicy.Touch(c.policy, key)
    ensures t.Stop? ==> c'.policy == c.policy
    ensures !t.Filled?
    ensures t.Failed? ==> && be.read(key.path, key.index * c.config.blockSize, c.config.blockSize) == Err(t.code)
                          && c'.blocks == c.blocks - {key}
    ensures ReadsFile(be.read, key.path, content) ==> TurnCoherent(c, c', t, key.path, seeker, fileMtime, now, content)
  {
    var bs := c.config.blockSize;
    var failure, cur := Refresh(c, key, fileMtime, be, now, content);
    if failure.Some? {
      return Failed(failure.value), cur;
    }
    var blk := cur.blocks[key];
    BlockOfCursor(seeker, bs);
    var offsetInBlock := seeker - blk.offset;
    var n := CopyCount(remaining, |blk.data|, offsetInBlock);
    assert cur.policy == c.policy;
    if n == 0 {
      t, c' := Stop, cur;
    } else {
      t, c' := Copied(blk.data[offsetInBlock..offsetInBlock + n]), TouchBlock(cur, key);
    }
    if ReadsFile(be.read, key.path, content) {
      HitCoherent(c, cur, c', t, key, seeker, remaining, offsetInBlock, n, fileMtime, now, content);
    }
  }

  /** The policy touch after a copy: the blocks and the count stay as they are. */
  function TouchBlock(c: Cache, key: Key): (c': Cache)
    requires Consistent(c) && key in c.blocks
    ensures Consistent(c') && c'.config == c.config && c'.mtimes == c.mtimes
    ensures c'.blocks == c.blocks && c'.tracked == c.tracked
    ensures c'.policy == EvictionPolicy.Touch(c.policy, key)
  {
    c.(policy := EvictionPolicy.Touch(c.policy, key))
  }

  /** The coherence a hit delivers, from the coherence the refresh kept. */
  lemma HitCoherent(c: Cache, cur: Cache, c': Cache, t: TurnOutcome, key: Key, seeker: nat, remaining: nat,
                    off: nat, n: nat, fileMtime: Timespec, now: Instant, content: seq<Byte>)
    requires Consistent(cur) && key in cur.blocks && IsValid(cur.blocks[key], cur.config.timeOut, fileMtime, now)
    requires key.index == seeker / cur.config.blockSize && remaining > 0
    requires BlocksMatch(c, key.path, content, fileMtime, now) ==> BlocksMatch(cur, key.path, content, fileMtime, now)
    requires cur.blocks[key].offset + off == seeker && n == CopyCount(remaining, |cur.blocks[key].data|, off)
    requires n == 0 ==> t == Stop
    requires n > 0 ==> off + n <= |cur.blocks[key].data| && t == Copied(cur.blocks[key].data[off..off + n])
    requires c'.blocks == cur.blocks && c'.config == cur.config
    ensures TurnCoherent(c, c', t, key.path, seeker, fileMtime, now, content)
  {
    if BlocksMatch(c, key.path, content, fileMtime, now) {
      HitServes(cur, key, seeker, remaining, fileMtime, now, content);
      BlocksMatchShrink(cur, c', key.path, content, fileMtime, now);
    }
  }

  /** A valid block of a coherent cache serves the content's bytes at the
      cursor, or nothing when the cursor is at or past the end. */
  lemma HitServes(cur: Cache, key: Key, seeker: nat, remaining: nat, fileMtime: Timespec, now: Instant,
                  content: seq<Byte>)
    requires Consistent(cur) && BlocksMatch(cur, key.path, content, fileMtime, now) && key in cur.blocks
    requires IsValid(cur.blocks[key], cur.config.timeOut, fileMtime, now)
    requires key.index == seeker / cur.config.blockSize && remaining > 0
    ensures cur.blocks[key].offset <= seeker
    ensures var blk := cur.blocks[key];
            var n := CopyCount(remaining, |blk.data|, seeker - blk.offset);
            TurnCoherent(cur, cur, if n == 0 then Stop else Copied(blk.data[seeker - blk.offset..seeker - blk.offset + n]),
                            key.path, seeker, fileMtime, now, content)
  {
    var bs := cur.config.blockSize;
    var blk := cur.blocks[key];
    BlockOfCursor(seeker, bs);
    ValidBlockMatches(cur, key, content, fileMtime, now);
    ServedBytes(content, blk.offset, bs, blk.data, seeker, remaining);
  }

  /** The first half of a miss: when the tracked bytes exceed the budget, the
      policy chooses one victim whose block is erased. */
  method MakeRoom(c: Cache) returns (c': Cache)
    requires Consistent(c)
    ensures Consistent(c') && c'.config == c.config && c'.mtimes == c.mtimes
    ensures c'.blocks.Keys <= c.blocks.Keys
    ensures forall k :: k in c'.blocks ==> c'.blocks[k] == c.blocks[k]
    ensures c.tracked > c.config.size ==> c'.tracked == c.tracked - c.config.blockSize
    ensures c.tracked <= c.config.size ==> c' == c
  {
    c' := c;
    if c.tracked > c.config.size {
      assert c.blocks != map[];
      var k :| k in c.blocks;
      assert k in EvictionPolicy.Tracked(c.policy);
      var victim, policy := EvictionPolicy.Evict(c.policy);
      c' := RemoveBlock(c.(policy := policy), victim.value);
    }
  }

  /** The miss half of a turn: make room, then fetch the block at its own
      offset. A backend error ends the read with that error, an empty fetch
      ends it at the end of the file, otherwise the block is inserted,
      accounted as one block size, and the policy touched. */
  method MissTurn(c: Cache, key: Key, seeker: nat, fileMtime: Timespec, be: Backend,
                  now: Instant, ghost content: seq<Byte>)
    returns (t: TurnOutcome, c': Cache)
    requires Consistent(c) && ReadsAtMost(be.read)
    requires key !in c.blocks && key.index == seeker / c.config.blockSize
    ensures TurnKeeps(c, c')
    ensures !t.Copied?
    ensures t.Filled? ==> key in c'.blocks && EvictionPolicy.MostRecent(c'.policy, key)
    ensures t.Failed? ==> be.read(key.path, key.index * c.config.blockSize, c.config.blockSize) == Err(t.code)
    ensures t.Failed? ==> key !in c'.blocks
    ensures ReadsFile(be.read, key.path, content) ==> TurnCoherent(c, c', t, key.path, seeker, fileMtime, now, content)
  {
    var bs := c.config.blockSize;
    var blockOffset := key.index * bs;
    BlockOfCursor(seeker, bs);
    var cur := MakeRoom(c);
    var res := be.read(key.path, blockOffset, bs);
    if ReadsFile(be.read, key.path, content) && BlocksMatch(c, key.path, content, fileMtime, now) {
      BlocksMatchShrink(c, cur, key.path, content, fileMtime, now);
    }
    if res.Err? {
      return Failed(res.code), cur;
    }
    if |res.value| == 0 {
      return Stop, cur;
    }
    var blk := Block(res.value, blockOffset, now, fileMtime);
    c' := Insert(cur, key, blk);
    if ReadsFile(be.read, key.path, content) && BlocksMatch(c, key.path, content, fileMtime, now) {
      BlocksMatchStore(cur, key, blk, content, fileMtime, now);
      assert c'.blocks == cur.blocks[key := blk];
    }
    t := Filled;
  }

  /** Whether the block holding the cursor still has to be fetched. */
  function Missing(c: Cache, path: Path, seeker: nat): (m: nat)
    requires c.config.blockSize > 0
    ensures m <= 1 && (m == 0 <==> Key(path, seeker / c.config.blockSize) in c.blocks)
  {
    if Key(path, seeker / c.config.blockSize) in c.blocks then 0 else 1
  }

  /** One turn of cache::read's loop at cursor `seeker`: the hit half when
      the block holding it is cached, the miss half otherwise. A fill does
      not move the cursor but leaves the block cached for the next turn. */
  method Turn(c: Cache, path: Path, seeker: nat, remaining: nat, fileMtime: Timespec, be: Backend,
              now: Instant, ghost content: seq<Byte>)
    returns (t: TurnOutcome, c': Cache)
    requires Consistent(c) && remaining > 0 && ReadsAtMost(be.read)
    ensures TurnKeeps(c, c')
    ensures t.Copied? ==> 0 < |t.bytes| <= remaining
    ensures t.Copied? ==> c'.policy == EvictionPolicy.Touch(c.policy, Key(path, seeker / c.config.blockSize))
    ensures t.Filled? ==> Missing(c, path, seeker) == 1 && Missing(c', path, seeker) == 0
    ensures t.Filled? ==> EvictionPolicy.MostRecent(c'.policy, Key(path, seeker / c.config.blockSize))
    ensures t.Failed? ==> && be.read(path, BlockStart(seeker, c.config.blockSize), c.config.blockSize) == Err(t.code)
                          && Key(path, seeker / c.config.blockSize) !in c'.blocks
    ensures ReadsFile(be.read, path, content) ==> TurnCoherent(c, c', t, path, seeker, fileMtime, now, content)
  {
    var key := Key(path, seeker / c.config.blockSize);
    if key in c.blocks {
      t, c' := HitTurn(c, key, seeker, remaining, fileMtime, be, now, content);
    } else {
      t, c' := MissTurn(c, key, seeker, fileMtime, be, now, content);
    }
  }

  /** Block `i` of `path` is one the read of `size` bytes at `offset` covers,
      reading it from the backend failed with `code`, and it is not cached. */
  ghost predicate FailedAt(read: (Path, nat, nat) -> Result<seq<Byte>>, path: Path, bs: nat, offset: nat, size: nat,
                           blocks: map<Key, Block>, i: nat, code: int)
  {
    && bs > 0
    && BlockStart(offset, bs) <= i * bs < offset + size
    && read(path, i * bs, bs) == Err(code)
    && Key(path, i) !in blocks
  }

  /** `code` is the error of the backend read of one block the request
      covers, and that block is left uncached. */
  ghost predicate FailedBlockRead(read: (Path, nat, nat) -> Result<seq<Byte>>, path: Path, bs: nat, offset: nat,
                                  size: nat, blocks: map<Key, Block>, code: int)
  {
    exists i: nat :: FailedAt(read, path, bs, offset, size, blocks, i, code)
  }

  /** A failed read of the block holding a cursor inside the request. */
  lemma BlockReadFailed(read: (Path, nat, nat) -> Result<seq<Byte>>, path: Path, bs: nat, offset: nat, size: nat,
                        blocks: map<Key, Block>, seeker: nat, code: int)
    requires bs > 0 && offset <= seeker < offset + size
    requires read(path, BlockStart(seeker, bs), bs) == Err(code) && Key(path, seeker / bs) !in blocks
    ensures FailedBlockRead(read, path, bs, offset, size, blocks, code)
  {
    var i := seeker / bs;
    BlockOfCursor(seeker, bs);
    BlockStartMonotone(offset, seeker, bs);
    assert FailedAt(read, path, bs, offset, size, blocks, i, code);
  }

  /** A later cursor lies in the same block or a later one. */
  lemma BlockStartMonotone(a: nat, b: nat, bs: nat)
    requires bs > 0 && a <= b
    ensures BlockStart(a, bs) <= BlockStart(b, bs)
  {
    var x, y := a / bs, b / bs;
    BlockOfCursor(a, bs);
    BlockOfCursor(b, bs);
    if x > y {
      MulMonotone(y + 1, x, bs);
      assert false;
    }
    MulMonotone(x, y, bs);
  }

  lemma {:induction false} MulMonotone(p: nat, q: nat, bs: nat)
    requires p <= q
    ensures p * bs <= q * bs
    decreases q - p
  {
    if p < q {
      MulMonotone(p + 1, q, bs);
      assert (p + 1) * bs == p * bs + bs;
    }
  }

  /** Where the read loop stands: `out` holds the bytes copied so far. */
  datatype Progress = Progress(out: seq<Byte>, cache: Cache)

  /** The loop's coherence: the valid blocks agree with the content and the
      bytes copied so far are the content's bytes from `offset` on. */
  ghost predicate Served(p: Progress, path: Path, offset: nat, content: seq<Byte>, fileMtime: Timespec, now: Instant)
  {
    BlocksMatch(p.cache, path, content, fileMtime, now) && p.out == Window(content, offset, |p.out|)
  }

  /** What is left of a read: two units per byte still wanted, plus one
      while the block under the cursor is still to be fetched. */
  function Remaining(p: Progress, path: Path, size: nat, offset: nat): nat
    requires p.cache.config.blockSize > 0 && |p.out| <= size
  {
    2 * (size - |p.out|) + Missing(p.cache, path, offset + |p.out|)
  }

  /** Copying bytes moves the read strictly closer to its end. */
  lemma CopyShrinks(p: Progress, bytes: seq<Byte>, next: Cache, path: Path, size: nat, offset: nat)
    requires p.cache.config.blockSize > 0 && next.config.blockSize > 0
    requires 0 < |bytes| && |p.out| + |bytes| <= size
    ensures Remaining(Progress(p.out + bytes, next), path, size, offset) < Remaining(p, path, size, offset)
  {
    var _ := Missing(next, path, offset + |p.out + bytes|);
  }

  /** Fetching the block under the cursor moves the read closer to its end. */
  lemma FillShrinks(p: Progress, next: Cache, path: Path, size: nat, offset: nat)
    requires p.cache.config.blockSize > 0 && next.config.blockSize > 0 && |p.out| <= size
    requires Missing(p.cache, path, offset + |p.out|) == 1 && Missing(next, path, offset + |p.out|) == 0
    ensures Remaining(Progress(p.out, next), path, size, offset) < Remaining(p, path, size, offset)
  {
  }

  /** Bytes that continue the content where the copied ones end keep the
      loop's coherence. */
  lemma CopyServes(p: Progress, bytes: seq<Byte>, next: Cache, path: Path, offset: nat, content: seq<Byte>,
                   fileMtime: Timespec, now: Instant)
    requires Served(p, path, offset, content, fileMtime, now) && |Window(content, offset, |p.out|)| == |p.out|
    requires BlocksMatch(next, path, content, fileMtime, now)
    requires offset + |p.out| + |bytes| <= |content| && bytes == content[offset + |p.out|..offset + |p.out| + |bytes|]
    ensures Served(Progress(p.out + bytes, next), path, offset, content, fileMtime, now)
  {
    WindowExtend(content, offset, |p.out|, |bytes|);
  }

  /** One iteration of cache::read's loop: run a turn at the cursor and add
      the copied bytes. `Ok(true)` means the loop goes on, `Ok(false)` that
      it stopped at the end of the file. */
  method Advance(p: Progress, path: Path, fileMtime: Timespec, size: nat, offset: nat, be: Backend, now: Instant,
                 ghost content: seq<Byte>)
    returns (go: Result<bool>, p': Progress)
    requires Consistent(p.cache) && ReadsAtMost(be.read) && |p.out| < size
    ensures TurnKeeps(p.cache, p'.cache)
    ensures |p.out| <= |p'.out| <= size
    ensures go == Ok(true) ==> Remaining(p', path, size, offset) < Remaining(p, path, size, offset)
    ensures go.Err? ==> var bs := p.cache.config.blockSize;
                        && be.read(path, BlockStart(offset + |p.out|, bs), bs) == Err(go.code)
                        && Key(path, (offset + |p.out|) / bs) !in p'.cache.blocks
    ensures ReadsFile(be.read, path, content) && Served(p, path, offset, content, fileMtime, now) ==>
              && BlocksMatch(p'.cache, path, content, fileMtime, now)
              && (go.Ok? ==> Served(p', path, offset, content, fileMtime, now))
              && (go == Ok(false) ==> p'.out == Window(content, offset, size))
  {
    var readed := |p.out|;
    var seeker := offset + readed;
    var t, next := Turn(p.cache, path, seeker, size - readed, fileMtime, be, now, content);
    match t
    case Failed(code) =>
      go, p' := Err(code), Progress(p.out, next);
    case Stop =>
      if ReadsFile(be.read, path, content) && Served(p, path, offset, content, fileMtime, now) {
        WindowAtEnd(content, offset, readed, size);
      }
      go, p' := Ok(false), Progress(p.out, next);
    case Filled =>
      FillShrinks(p, next, path, size, offset);
      go, p' := Ok(true), Progress(p.out, next);
    case Copied(bytes) =>
      if ReadsFile(be.read, path, content) && Served(p, path, offset, content, fileMtime, now) {
        CopyServes(p, bytes, next, path, offset, content, fileMtime, now);
      }
      CopyShrinks(p, bytes, next, path, size, offset);
      go, p' := Ok(true), Progress(p.out + bytes, next);
  }

  /** The loop of cache::read for an opened file whose recorded
      modification time is `fileMtime`: serve block after block until `size`
      bytes are copied, a block holds nothing at the cursor or the backend
      has no more bytes (a short read at the end of the file), or the backend
      fails, in which case that error is returned even when bytes were
      already copied. */
  method Serve(c: Cache, path: Path, fileMtime: Timespec, size: nat, offset: nat, be: Backend, now: Instant,
               ghost content: seq<Byte>)
    returns (r: Result<seq<Byte>>, c': Cache)
    requires Consistent(c) && ReadsAtMost(be.read)
    ensures TurnKeeps(c, c')
    ensures r.Ok? ==> |r.value| <= size
    ensures r.Err? ==> FailedBlockRead(be.read, path, c.config.blockSize, offset, size, c'.blocks, r.code)
    ensures ReadsFile(be.read, path, content) && BlocksMatch(c, path, content, fileMtime, now) ==>
              && (r.Ok? ==> r.value == Window(content, offset, size))
              && BlocksMatch(c', path, content, fileMtime, now)
  {
    ghost var coherent := ReadsFile(be.read, path, content) && BlocksMatch(c, path, content, fileMtime, now);
    var p := Progress([], c);
    while |p.out| != size
      invariant |p.out| <= size
      invariant TurnKeeps(c, p.cache)
      invariant coherent ==> Served(p, path, offset, content, fileMtime, now)
      decreases Remaining(p, path, size, offset)
    {
      var go, p' := Advance(p, path, fileMtime, size, offset, be, now, content);
      if go.Err? {
        assert p.cache.config == c.config;
        BlockReadFailed(be.read, path, c.config.blockSize, offset, size, p'.cache.blocks, offset + |p.out|, go.code);
        return Err(go.code), p'.cache;
      }
      p := p';
      if !go.value {
        return Ok(p.out), p.cache;
      }
    }
    return Ok(p.out), p.cache;
  }

  /** cache::read. A path with no recorded modification time (not opened
      through this layer) bypasses the cache: the backend's read is returned
      as is. Otherwise the cached loop runs against the recorded time. When
      the backend reads the file as `content` and the valid cached blocks
      agree with it, the bytes returned are exactly the ones a direct read
      would return, and the cache stays coherent. */
  method Read(c: Cache, path: Path, size: nat, offset: nat, be: Backend, now: Instant, ghost content: seq<Byte>)
    returns (r: Result<seq<Byte>>, c': Cache)
    requires Consistent(c) && ReadsAtMost(be.read)
    ensures TurnKeeps(c, c')
    ensures path !in c.mtimes ==> r == be.read(path, offset, size) && c' == c
    ensures r.Ok? ==> |r.value| <= size
    ensures path in c.mtimes && r.Err? ==>
              FailedBlockRead(be.read, path, c.config.blockSize, offset, size, c'.blocks, r.code)
    ensures ReadsFile(be.read, path, content) ==>
              (path in c.mtimes ==> BlocksMatch(c, path, content, c.mtimes[path], now)) ==>
              && (r.Ok? ==> r.value == Window(content, offset, size))
              && (path in c.mtimes ==> BlocksMatch(c', path, content, c.mtimes[path], now))
  {
    if path !in c.mtimes {
      return be.read(path, offset, size), c;
    }
    r, c' := Serve(c, path, c.mtimes[path], size, offset, be, now, content);
  }
}

=== FILE: eviction_policy.dfy ===
/** The eviction-policy interface the two caches are written against: one of
    the two managers, chosen once at configuration time. */
module EvictionPolicy {
  import opened Base
  import LruManager
  import RndManager

  datatype Policy<K> = LruPolicy(lru: LruManager.Lru<K>) | RndPolicy(rnd: RndManager.Rnd<K>)

  predicate Valid<K(==)>(p: Policy<K>)
  {
    p.LruPolicy? ==> LruManager.Valid(p.lru)
  }

  /** The keys the policy currently tracks. */
  function Tracked<K>(p: Policy<K>): set<K>
  {
    match p
    case LruPolicy(m) => m.index
    case RndPolicy(m) => m.keys
  }

  /** An empty policy of the configured kind. */
  function Fresh<K(==)>(useLru: bool): (p: Policy<K>)
    ensures Valid(p) && Tracked(p) == {}
    ensures p.LruPolicy? <==> useLru
  {
    if useLru then LruPolicy(LruManager.Empty()) else RndPolicy(RndManager.Empty())
  }

  /** Under LRU, `k` sits at the most-recent end of the list; the random
      policy keeps no order. */
  predicate MostRecent<K>(p: Policy<K>, k: K)
  {
    p.LruPolicy? ==> |p.lru.order| > 0 && p.lru.order[0] == k
  }

  function Touch<K(==)>(p: Policy<K>, k: K): (p': Policy<K>)
    requires Valid(p)
    ensures Valid(p') && Tracked(p') == Tracked(p) + {k}
    ensures p'.LruPolicy? == p.LruPolicy?
    ensures MostRecent(p', k)
  {
    match p
    case LruPolicy(m) => LruPolicy(LruManager.Touch(m, k))
    case RndPolicy(m) => RndPolicy(RndManager.Touch(m, k))
  }

  function Remove<K(==)>(p: Policy<K>, k: K): (p': Policy<K>)
    requires Valid(p)
    ensures Valid(p') && Tracked(p') == Tracked(p) - {k}
    ensures p'.LruPolicy? == p.LruPolicy?
  {
    match p
    case LruPolicy(m) => LruPolicy(LruManager.Remove(m, k))
    case RndPolicy(m) => RndPolicy(RndManager.Remove(m, k))
  }

  /** Either policy's evict: nothing when no key is tracked, otherwise a
      tracked key, which stops being tracked. LRU picks the back of its list. */
  method Evict<K(==)>(p: Policy<K>) returns (victim: Option<K>, p': Policy<K>)
    requires Valid(p)
    ensures Valid(p') && p'.LruPolicy? == p.LruPolicy?
    ensures Tracked(p) == {} <==> victim == None
    ensures victim == None ==> p' == p
    ensures victim.Some? ==> victim.value in Tracked(p) && Tracked(p') == Tracked(p) - {victim.value}
    ensures p.LruPolicy? ==> (victim, p'.lru) == LruManager.Evict(p.lru)
  {
    match p
    case LruPolicy(m) =>
      var r := LruManager.Evict(m);
      victim, p' := r.0, LruPolicy(r.1);
    case RndPolicy(m) =>
      var m';
      victim, m' := RndManager.Evict(m);
      p' := RndPolicy(m');
  }
}

=== FILE: lru_manager.dfy ===
/** The least-recently-used eviction manager: a recency list whose front is
    the most recently touched key and whose back is the next victim, plus an
    index from each tracked key to its list node. The index is abstracted to
    its key set; each iterator in it points at the node holding its key. */
module LruManager {
  import opened Base

  datatype Lru<K> = Lru(order: seq<K>, index: set<K>)

  /** No key appears twice in `s`. */
  predicate NoDup<K(==)>(s: seq<K>)
  {
    forall i, j :: 0 <= i < j < |s| ==> s[i] != s[j]
  }

  /** List and index agree: every key is listed exactly once and the index
      holds exactly the listed keys. */
  predicate Valid<K(==)>(m: Lru<K>)
  {
    && NoDup(m.order)
    && (forall k :: k in m.order ==> k in m.index)
    && (forall k :: k in m.index ==> k in m.order)
  }

  function Empty<K>(): (m: Lru<K>)
    ensures Valid(m) && m.index == {}
  {
    Lru([], {})
  }

  /** `s` with every occurrence of `k` erased, the rest in order. */
  function Erase<K(==)>(s: seq<K>, k: K): (r: seq<K>)
    ensures forall x :: x in r ==> x in s && x != k
    ensures forall x :: x in s && x != k ==> x in r
    ensures |r| <= |s|
    ensures NoDup(s) ==> NoDup(r)
    ensures k !in s ==> r == s
  {
    if |s| == 0 then []
    else if s[0] == k then Erase(s[1..], k)
    else
      var rest := Erase(s[1..], k);
      assert NoDup(s) ==> s[0] !in rest;
      [s[0]] + rest
  }

  /** `a` lists the elements of `b` that differ from `k`, in `b`'s order. */
  ghost predicate OrderKeptWithout<K>(a: seq<K>, b: seq<K>, k: K)
  {
    a == Erase(b, k)
  }

  /** lru_cache_manager::touch: unlink the key if tracked, push it at the front. */
  function Touch<K(==)>(m: Lru<K>, k: K): (m': Lru<K>)
    requires Valid(m)
    ensures Valid(m')
    ensures m'.index == m.index + {k}
    ensures |m'.order| > 0 && m'.order[0] == k
    ensures OrderKeptWithout(m'.order[1..], m.order, k)
  {
    Lru([k] + Erase(m.order, k), m.index + {k})
  }

  /** lru_cache_manager::remove: erase the key from list and index if tracked. */
  function Remove<K(==)>(m: Lru<K>, k: K): (m': Lru<K>)
    requires Valid(m)
    ensures Valid(m')
    ensures m'.index == m.index - {k}
    ensures k !in m.index ==> m' == m
    ensures OrderKeptWithout(m'.order, m.order, k)
  {
    if k in m.index then Lru(Erase(m.order, k), m.index - {k}) else m
  }

  /** lru_cache_manager::evict: nothing on an empty index, otherwise pop the
      back of the list and drop it from the index. */
  function Evict<K(==)>(m: Lru<K>): (r: (Option<K>, Lru<K>))
    requires Valid(m)
    ensures Valid(r.1)
    ensures m.index == {} <==> r.0 == None
    ensures r.0 == None ==> r.1 == m
    ensures r.0.Some? ==> && r.0.value in m.index
                          && r.1.index == m.index - {r.0.value}
                          && m.order == r.1.order + [r.0.value]
  {
    if m.index == {} then (None, m)
    else
      assert m.order != [] by {
        var k :| k in m.index;
        assert k in m.order;
      }
      var last := m.order[|m.order| - 1];
      assert m.order == m.order[..|m.order| - 1] + [last];
      (Some(last), Lru(m.order[..|m.order| - 1], m.index - {last}))
  }
}

module LruRecency {
  import opened Base
  import opened LruManager

  /** The manager reached from an empty one by touching the keys of `h` in order. */
  function Replay<K(==)>(h: seq<K>): (m: Lru<K>)
    ensures Valid(m)
  {
    if |h| == 0 then Empty() else Touch(Replay(h[..|h| - 1]), h[|h| - 1])
  }

  /** Position in `h` of the last touch of `k`, or -1 if it was never touched. */
  function LastTouch<K(==)>(h: seq<K>, k: K): (r: int)
    ensures -1 <= r < |h|
    ensures r >= 0 ==> h[r] == k
    ensures r == -1 <==> k !in h
  {
    if |h| == 0 then -1
    else if h[|h| - 1] == k then |h| - 1
    else LastTouch(h[..|h| - 1], k)
  }

  /** `s` lists keys from the most to the least recently touched in `h`. */
  ghost predicate DescendingRecency<K>(s: seq<K>, h: seq<K>)
  {
    forall i, j :: 0 <= i < j < |s| ==> LastTouch(h, s[i]) > LastTouch(h, s[j])
  }

  lemma {:induction false} EraseKeepsRecency<K>(s: seq<K>, k: K, h: seq<K>)
    requires DescendingRecency(s, h)
    ensures DescendingRecency(Erase(s, k), h)
  {
    if |s| > 0 {
      EraseKeepsRecency(s[1..], k, h);
      if s[0] != k {
        var e := Erase(s[1..], k);
        forall j | 0 <= j < |e|
          ensures LastTouch(h, s[0]) > LastTouch(h, e[j])
        {
          assert e[j] in e;
          var i :| 0 <= i < |s[1..]| && s[1..][i] == e[j];
          assert s[i + 1] == e[j];
        }
      }
    }
  }

  /** The recency list of a replayed history is exactly the touched keys,
      ordered from the most to the least recently touched. */
  lemma {:induction false} ReplayIsRecencyOrder<K>(h: seq<K>)
    ensures Replay(h).index == set k | k in h
    ensures DescendingRecency(Replay(h).order, h)
  {
    if |h| > 0 {
      var h0, x := h[..|h| - 1], h[|h| - 1];
      assert h == h0 + [x];
      ReplayIsRecencyOrder(h0);
      var m0 := Replay(h0);
      assert Replay(h).order == [x] + Erase(m0.order, x);
      TouchKeepsRecency(m0.order, x, h0);
      assert (set k | k in h) == (set k | k in h0) + {x};
    }
  }

  /** One more touch of `x`: the list with `x` moved to the front is still
      in recency order for the longer history. */
  lemma TouchKeepsRecency<K>(s: seq<K>, x: K, h0: seq<K>)
    requires DescendingRecency(s, h0)
    ensures DescendingRecency([x] + Erase(s, x), h0 + [x])
  {
    EraseKeepsRecency(s, x, h0);
    var e := Erase(s, x);
    ExtendKeepsRecency(e, h0, x);
    LastTouchSnoc(h0, x, x);
    ConsRecency(x, e, h0 + [x]);
  }

  /** Touching a key not in `e` leaves the order of `e` and moves every key
      of `e` before the new last touch. */
  lemma ExtendKeepsRecency<K>(e: seq<K>, h0: seq<K>, x: K)
    requires DescendingRecency(e, h0) && x !in e
    ensures DescendingRecency(e, h0 + [x])
    ensures forall k :: k in e ==> LastTouch(h0 + [x], k) < |h0|
  {
    forall k | k in e
      ensures LastTouch(h0 + [x], k) == LastTouch(h0, k)
    {
      LastTouchSnoc(h0, x, k);
    }
    forall i, j | 0 <= i < j < |e|
      ensures LastTouch(h0 + [x], e[i]) > LastTouch(h0 + [x], e[j])
    {
      assert e[i] in e && e[j] in e;
    }
  }

  /** A key touched after every key of a recency-ordered list goes in front. */
  lemma ConsRecency<K>(x: K, e: seq<K>, h: seq<K>)
    requires DescendingRecency(e, h)
    requires forall k :: k in e ==> LastTouch(h, k) < LastTouch(h, x)
    ensures DescendingRecency([x] + e, h)
  {
    var order := [x] + e;
    forall i, j | 0 <= i < j < |order|
      ensures LastTouch(h, order[i]) > LastTouch(h, order[j])
    {
      assert order[j] == e[j - 1] && order[j] in e;
      if i > 0 {
        assert order[i] == e[i - 1];
      }
    }
  }

  /** The last touch in a history extended by `x`. */
  lemma LastTouchSnoc<K>(h0: seq<K>, x: K, y: K)
    ensures LastTouch(h0 + [x], y) == if y == x then |h0| else LastTouch(h0, y)
  {
    assert (h0 + [x])[..|h0|] == h0;
  }

  /** LRU eviction after any history of touches picks the tracked key whose
      last touch is the oldest. */
  lemma EvictIsLeastRecent<K>(h: seq<K>)
    ensures var (v, _) := Evict(Replay(h));
            (v == None <==> |h| == 0)
            && (v.Some? ==> v.value in h && forall x :: x in h ==> LastTouch(h, v.value) <= LastTouch(h, x))
  {
    ReplayIsRecencyOrder(h);
    var m := Replay(h);
    var (v, m') := Evict(m);
    if |h| > 0 {
      assert h[0] in m.index;
    }
    if v.Some? {
      forall x | x in h
        ensures LastTouch(h, v.value) <= LastTouch(h, x)
      {
        assert x in m.order;
        var i :| 0 <= i < |m.order| && m.order[i] == x;
        assert m.order[|m.order| - 1] == v.value;
      }
    }
  }

  /** Removing a key twice is the same as removing it once. */
  lemma RemoveIdempotent<K>(m: Lru<K>, k: K)
    requires Valid(m)
    ensures Remove(Remove(m, k), k) == Remove(m, k)
  {
  }

  /** Replaying one more touch touches the replayed manager. */
  lemma ReplaySnoc<K>(h: seq<K>, k: K)
    ensures Replay(h + [k]) == Touch(Replay(h), k)
  {
    assert (h + [k])[..|h|] == h;
  }

  /** Touching an untracked key pushes it in front of the unchanged list. */
  lemma TouchNew<K>(m: Lru<K>, k: K)
    requires Valid(m) && k !in m.index
    ensures Touch(m, k) == Lru([k] + m.order, m.index + {k})
  {
  }

  /** Erasing the last element of a list that holds it only there. */
  lemma {:induction false} EraseLast<K>(s: seq<K>, k: K)
    requires k !in s
    ensures Erase(s + [k], k) == s
  {
    if |s| > 0 {
      assert (s + [k])[1..] == s[1..] + [k];
      EraseLast(s[1..], k);
      assert [s[0]] + s[1..] == s;
    } else {
      assert [k][1..] == [];
    }
  }

  /** Replaying a touch of an untracked key. */
  lemma ReplayNew<K>(h: seq<K>, k: K, order: seq<K>, index: set<K>)
    requires Replay(h) == Lru(order, index) && k !in index
    ensures Replay(h + [k]) == Lru([k] + order, index + {k})
  {
    ReplaySnoc(h, k);
    TouchNew(Replay(h), k);
  }

  lemma ReplayAb<K>(a: K, b: K)
    requires a != b
    ensures Replay([a, b]) == Lru([b, a], {a, b})
  {
    ReplayNew([], a, [], {});
    assert [] + [a] == [a] && [a] + [] == [a] && {} + {a} == {a};
    ReplayNew([a], b, [a], {a});
    assert [a] + [b] == [a, b] && {a} + {b} == {a, b};
  }

  /** Touching three distinct keys lists them most recent first. */
  lemma ReplayAbc<K>(a: K, b: K, c: K)
    requires a != b && b != c && a != c
    ensures Replay([a, b, c]) == Lru([c, b, a], {a, b, c})
  {
    ReplayAb(a, b);
    ReplayNew([a, b], c, [b, a], {a, b});
    assert [a, b] + [c] == [a, b, c] && [c] + [b, a] == [c, b, a] && {a, b} + {c} == {a, b, c};
  }

  /** Replaying a touch of the least recently touched key. */
  lemma ReplayOldest<K>(h: seq<K>, k: K, rest: seq<K>, index: set<K>)
    requires Replay(h) == Lru(rest + [k], index) && k !in rest && k in index
    ensures Replay(h + [k]) == Lru([k] + rest, index)
  {
    ReplaySnoc(h, k);
    EraseLast(rest, k);
    assert index + {k} == index;
  }

  /** Touching the oldest key again moves it to the front. */
  lemma ReplayAbca<K>(a: K, b: K, c: K)
    requires a != b && b != c && a != c
    ensures Replay([a, b, c, a]) == Lru([a, c, b], {a, b, c})
  {
    ReplayAbc(a, b, c);
    assert [c, b, a] == [c, b] + [a];
    ReplayOldest([a, b, c], a, [c, b], {a, b, c});
    assert [a, b, c] + [a] == [a, b, c, a] && [a] + [c, b] == [a, c, b];
  }

  /** Evicting from a manager whose list ends with `k` pops `k`. */
  lemma EvictLast<K>(order: seq<K>, k: K, index: set<K>)
    requires Valid(Lru(order + [k], index))
    ensures Evict(Lru(order + [k], index)) == (Some(k), Lru(order, index - {k}))
  {
    var r := Evict(Lru(order + [k], index));
    assert k in index;
    assert r.1.order + [r.0.value] == order + [k];
    assert |r.1.order| == |order|;
    assert r.1.order == (order + [k])[..|order|];
  }

  /** Touching A, B, C, A and then evicting three times yields B, C, A and
      leaves the manager empty. */
  lemma TouchAbcaEvictsBca<K>(a: K, b: K, c: K)
    requires a != b && b != c && a != c
    ensures var m := Replay([a, b, c, a]);
            var (v1, m1) := Evict(m);
            var (v2, m2) := Evict(m1);
            var (v3, m3) := Evict(m2);
            && v1 == Some(b) && v2 == Some(c) && v3 == Some(a)
            && Evict(m3).0 == None
  {
    ReplayAbca(a, b, c);
    EvictAcb(a, b, c);
    EvictAc(a, c);
    EvictA(a);
  }

  lemma EvictAcb<K>(a: K, b: K, c: K)
    requires a != b && b != c && a != c
    ensures Evict(Lru([a, c, b], {a, b, c})) == (Some(b), Lru([a, c], {a, c}))
  {
    assert [a, c, b] == [a, c] + [b];
    EvictLast([a, c], b, {a, b, c});
    assert {a, b, c} - {b} == {a, c};
  }

  lemma EvictAc<K>(a: K, c: K)
    requires a != c
    ensures Evict(Lru([a, c], {a, c})) == (Some(c), Lru([a], {a}))
  {
    assert [a, c] == [a] + [c];
    EvictLast([a], c, {a, c});
    assert {a, c} - {c} == {a};
  }

  lemma EvictA<K>(a: K)
    ensures Evict(Lru([a], {a})) == (Some(a), Lru([], {}))
  {
    assert [a] == [] + [a];
    EvictLast([], a, {a});
    assert {a} - {a} == {};
  }
}

=== FILE: metadata_cache.dfy ===
/** The metadata cache: a path-keyed map of attribute snapshots bounded by an
    entry count, with time-out based validity, kept in step with an eviction
    policy over the same keys. */
module MetadataCache {
  import opened Base
  import EvictionPolicy

  /** An attribute snapshot and the instant it was taken. */
  datatype Entry = Entry(attrs: Stat, stamp: Instant)

  /** `size` caps the entry count; a positive `timeOut` (seconds) bounds the
      age of an entry, any other value disables expiry. */
  datatype Config = Config(size: nat, timeOut: int)

  datatype Cache = Cache(config: Config, entries: map<Path, Entry>,
                         policy: EvictionPolicy.Policy<Path>)

  /** The cache's own invariant: the policy tracks exactly the cached paths. */
  predicate Consistent(c: Cache)
  {
    EvictionPolicy.Valid(c.policy) && c.entries.Keys == EvictionPolicy.Tracked(c.policy)
  }

  /** The capacity bound: never more than max(size, 1) entries. */
  predicate Bounded(c: Cache)
  {
    |c.entries| <= Max(c.config.size, 1)
  }

  function Empty(config: Config, useLru: bool): (c: Cache)
    ensures Consistent(c) && Bounded(c) && c.entries == map[]
  {
    Cache(config, map[], EvictionPolicy.Fresh(useLru))
  }

  /** metadata::is_valid: the freshness rule applied to the entry's stamp. */
  predicate IsValid(e: Entry, timeOut: int, now: Instant)
  {
    FreshAt(now, e.stamp, timeOut)
  }

  /** The first half of cache::put: when the cache holds at least `size`
      entries, the policy chooses one victim, which is erased from the map. */
  method MakeRoom(c: Cache) returns (c': Cache, evicted: Option<Path>)
    requires Consistent(c)
    ensures Consistent(c') && c'.config == c.config
    ensures evicted.Some? <==> |c.entries| >= c.config.size && |c.entries| > 0
    ensures evicted == None ==> c' == c
    ensures evicted.Some? ==> && evicted.value in c.entries
                              && c'.entries == c.entries - {evicted.value}
                              && |c'.entries| == |c.entries| - 1
  {
    c', evicted := c, None;
    if |c.entries| >= c.config.size {
      var victim, policy := EvictionPolicy.Evict(c.policy);
      if victim.Some? {
        c' := Cache(c.config, c.entries - {victim.value}, policy);
        evicted := victim;
      } else {
        c' := c.(policy := policy);
      }
    }
    assert |c.entries| > 0 ==> EvictionPolicy.Tracked(c.policy) != {} by {
      if |c.entries| > 0 {
        var p :| p in c.entries;
        assert p in EvictionPolicy.Tracked(c.policy);
      }
    }
  }

  /** The second half of cache::put: emplace the snapshot, which leaves a
      path that is still present with its old snapshot, and touch the policy. */
  function Emplace(c: Cache, path: Path, attrs: Stat, now: Instant): (c': Cache)
    requires Consistent(c)
    ensures Consistent(c') && c'.config == c.config
    ensures path in c'.entries && c'.entries.Keys == c.entries.Keys + {path}
    ensures path in c.entries ==> c'.entries == c.entries
    ensures path !in c.entries ==> c'.entries[path] == Entry(attrs, now)
    ensures forall p :: p in c.entries ==> c'.entries[p] == c.entries[p]
    ensures c'.policy == EvictionPolicy.Touch(c.policy, path)
  {
    var entries := if path in c.entries then c.entries else c.entries[path := Entry(attrs, now)];
    Cache(c.config, entries, EvictionPolicy.Touch(c.policy, path))
  }

  /** cache::put: make room, then emplace. The capacity bound survives, a
      path that was present and not chosen as victim keeps its old snapshot,
      and every other surviving entry is unchanged. */
  method Put(c: Cache, path: Path, attrs: Stat, now: Instant) returns (c': Cache, evicted: Option<Path>)
    requires Consistent(c)
    ensures Consistent(c') && c'.config == c.config
    ensures Bounded(c) ==> Bounded(c')
    ensures evicted.Some? <==> |c.entries| >= c.config.size && |c.entries| > 0
    ensures evicted.Some? ==> evicted.value in c.entries
    ensures path in c'.entries
    ensures path in c.entries && evicted != Some(path) ==> c'.entries[path] == c.entries[path]
    ensures path !in c.entries || evicted == Some(path) ==> c'.entries[path] == Entry(attrs, now)
    ensures forall p :: p in c.entries && p != path && Some(p) != evicted ==> p in c'.entries && c'.entries[p] == c.entries[p]
    ensures forall p :: p in c'.entries && p != path ==> p in c.entries && Some(p) != evicted
    ensures EvictionPolicy.MostRecent(c'.policy, path)
  {
    var c1;
    c1, evicted := MakeRoom(c);
    c' := Emplace(c1, path, attrs, now);
  }

  /** cache::get. A missing path is a miss with no side effect; a stale
      entry is erased from map and policy and reported as a miss; a fresh
      entry is returned as stored and the policy is touched. */
  function Get(c: Cache, path: Path, now: Instant): (r: (Option<Stat>, Cache))
    requires Consistent(c)
    ensures Consistent(r.1) && r.1.config == c.config
    ensures Bounded(c) ==> Bounded(r.1)
    ensures path !in c.entries ==> r.0 == None && r.1 == c
    ensures path in c.entries && !IsValid(c.entries[path], c.config.timeOut, now) ==>
              r.0 == None && r.1.entries == c.entries - {path} && path !in EvictionPolicy.Tracked(r.1.policy)
    ensures path in c.entries && IsValid(c.entries[path], c.config.timeOut, now) ==>
              && r.0 == Some(c.entries[path].attrs) && r.1.entries == c.entries
              && r.1.policy == EvictionPolicy.Touch(c.policy, path)
    ensures r.0.Some? <==> path in c.entries && IsValid(c.entries[path], c.config.timeOut, now)
  {
    if path !in c.entries then (None, c)
    else if !IsValid(c.entries[path], c.config.timeOut, now) then
      (None, Cache(c.config, c.entries - {path}, EvictionPolicy.Remove(c.policy, path)))
    else
      (Some(c.entries[path].attrs), c.(policy := EvictionPolicy.Touch(c.policy, path)))
  }

  /** cache::remove: erase the path from map and policy. */
  function Remove(c: Cache, path: Path): (c': Cache)
    requires Consistent(c)
    ensures Consistent(c') && c'.config == c.config
    ensures Bounded(c) ==> Bounded(c')
    ensures c'.entries == c.entries - {path}
    ensures path !in c.entries ==> EvictionPolicy.Tracked(c'.policy) == EvictionPolicy.Tracked(c.policy)
  {
    Cache(c.config, c.entries - {path}, EvictionPolicy.Remove(c.policy, path))
  }

  /** With a positive time-out an entry goes stale once a whole time-out has
      elapsed and stays stale as the clock advances; otherwise it never expires. */
  lemma ValidityRule(e: Entry, timeOut: int, now: Instant, later: Instant)
    requires e.stamp <= now <= later
    ensures timeOut <= 0 ==> IsValid(e, timeOut, now)
    ensures IsValid(e, timeOut, e.stamp)
    ensures timeOut > 0 ==> (IsValid(e, timeOut, now) <==> now - e.stamp < timeOut * NanosPerSecond)
    ensures !IsValid(e, timeOut, now) ==> !IsValid(e, timeOut, later)
  {
    FreshRule(e.stamp, timeOut, now, later);
  }

  /** A snapshot stored at `now` is served unchanged by a lookup at the same
      instant, and a lookup a full time-out later misses and drops it. */
  lemma GetRoundTrip(c: Cache, path: Path, now: Instant, later: Instant)
    requires Consistent(c) && path in c.entries && c.entries[path].stamp == now
    requires c.config.timeOut > 0 && later >= now + c.config.timeOut * NanosPerSecond
    ensures Get(c, path, now).0 == Some(c.entries[path].attrs)
    ensures Get(c, path, later).0 == None && path !in Get(c, path, later).1.entries
  {
    ValidityRule(c.entries[path], c.config.timeOut, later, later);
  }
}

=== FILE: metadata_layer.dfy ===
/** The metadata-cache layer: attribute lookups answered from the cache when
    possible and cached on a successful backend lookup, and every mutating
    operation invalidating the entries it may make stale before it is handed
    to the layer below. `parent` stands for the parent-path computation of
    the filesystem library: `None` when the path has no parent. */
module MetadataLayer {
  import opened Base
  import opened MetadataCache

  /** getattr / fgetattr: a fresh cached snapshot is answered with result 0
      and the backend is not consulted; otherwise the backend's result and
      attributes are returned unchanged, and cached only when the result is 0. */
  method Getattr(c: Cache, path: Path, now: Instant, backend: Path -> (int, Stat))
    returns (res: int, attrs: Stat, c': Cache)
    requires Consistent(c)
    ensures Consistent(c') && c'.config == c.config
    ensures Bounded(c) ==> Bounded(c')
    ensures var (hit, afterGet) := Get(c, path, now);
            && (hit.Some? ==> res == 0 && attrs == hit.value && c' == afterGet)
            && (hit.None? ==> (res, attrs) == backend(path))
            && (hit.None? && res != 0 ==> c' == afterGet)
            && (hit.None? && res == 0 ==> path in c'.entries && c'.entries[path] == Entry(attrs, now))
  {
    var hit, afterGet := Get(c, path, now).0, Get(c, path, now).1;
    if hit.Some? {
      return 0, hit.value, afterGet;
    }
    res, attrs := backend(path).0, backend(path).1;
    c' := afterGet;
    if res == 0 {
      var evicted;
      c', evicted := Put(afterGet, path, attrs, now);
    }
  }

  /** The mutating operations the layer intercepts. */
  datatype Mutation =
    | Mknod(path: Path) | Mkdir(path: Path) | Unlink(path: Path) | Rmdir(path: Path) | Create(path: Path)
    | Symlink(from: Path, to: Path) | Link(from: Path, to: Path) | Rename(from: Path, to: Path)
    | Chmod(path: Path) | Chown(path: Path) | Truncate(path: Path) | Ftruncate(path: Path)
    | Utimens(path: Path) | Open(path: Path) | Flush(path: Path) | Release(path: Path) | Fsync(path: Path)

  /** Operations that add or remove a directory entry, and so change the
      attributes of the containing directory. */
  predicate ChangesDirectory(op: Mutation)
  {
    op.Mknod? || op.Mkdir? || op.Unlink? || op.Rmdir? || op.Create?
  }

  function ParentList(p: Path, parent: Path -> Option<Path>): seq<Path>
  {
    if parent(p).Some? then [parent(p).value] else []
  }

  /** The removals each operation performs, in the order it performs them. */
  function Invalidations(op: Mutation, parent: Path -> Option<Path>): seq<Path>
  {
    match op
    case Symlink(f, t) => [f, t] + ParentList(t, parent)
    case Link(f, t) => [f, t] + ParentList(t, parent)
    case Rename(f, t) => [f, t] + ParentList(f, parent) + ParentList(t, parent)
    case _ => if ChangesDirectory(op) then [op.path] + ParentList(op.path, parent) else [op.path]
  }

  /** The paths whose cached attributes an operation may make stale: the
      named paths, the parent of a created or removed entry, the parent of a
      link's target, and both parents of a rename. */
  predicate Affected(op: Mutation, parent: Path -> Option<Path>, p: Path)
  {
    if op.Symlink? || op.Link? then p == op.from || p == op.to || parent(op.to) == Some(p)
    else if op.Rename? then p == op.from || p == op.to || parent(op.from) == Some(p) || parent(op.to) == Some(p)
    else p == op.path || (ChangesDirectory(op) && parent(op.path) == Some(p))
  }

  function RemoveAll(c: Cache, paths: seq<Path>): (c': Cache)
    requires Consistent(c)
    ensures Consistent(c') && c'.config == c.config
    ensures Bounded(c) ==> Bounded(c')
    ensures forall p :: p in c'.entries <==> p in c.entries && p !in paths
    ensures forall p :: p in c'.entries ==> c'.entries[p] == c.entries[p]
    decreases |paths|
  {
    if |paths| == 0 then c else RemoveAll(Remove(c, paths[0]), paths[1..])
  }

  /** Every intercepted mutation: invalidate, then delegate. Exactly the
      affected paths lose their entries, every other entry is kept as it was,
      and the backend's result is returned unchanged; the invalidation does
      not depend on that result. */
  function Mutate(c: Cache, op: Mutation, parent: Path -> Option<Path>, backendResult: int): (r: (int, Cache))
    requires Consistent(c)
    ensures r.0 == backendResult
    ensures Consistent(r.1) && r.1.config == c.config
    ensures Bounded(c) ==> Bounded(r.1)
    ensures forall p :: p in r.1.entries <==> p in c.entries && !Affected(op, parent, p)
    ensures forall p :: p in r.1.entries ==> r.1.entries[p] == c.entries[p]
  {
    var inv := Invalidations(op, parent);
    assert forall p :: p in inv <==> Affected(op, parent, p);
    (backendResult, RemoveAll(c, inv))
  }
}

=== FILE: read_ahead.dfy ===
/** The read-ahead layer: one prefetch buffer per open file. A read that
    falls entirely inside the buffer is answered from it; any other read
    fetches at least the configured prefetch size from the layer below at the
    requested offset and replaces the buffer with what came back. */
module ReadAhead {
  import opened Base

  /** The buffered window of a file: where it starts (`None` before the first
      fetch, the -1 sentinel of the source) and the bytes fetched there. */
  datatype Buffer = Buffer(start: Option<nat>, data: seq<Byte>)

  /** `size` is the minimum number of bytes each fetch asks for. */
  datatype Config = Config(size: nat)

  datatype Cache = Cache(config: Config, buffers: map<Path, Buffer>)

  const NoBuffer: Buffer := Buffer(None, [])

  function Empty(config: Config): (c: Cache)
    ensures c.buffers == map[]
  {
    Cache(config, map[])
  }

  /** Whether the request [offset, offset + size) lies inside the window. */
  predicate Covers(b: Buffer, size: nat, offset: nat)
  {
    b.start.Some? && offset >= b.start.value && offset + size <= b.start.value + |b.data|
  }

  /** buffer::read: the requested bytes when the window covers the request,
      otherwise nothing (the source's -1). */
  function BufferRead(b: Buffer, size: nat, offset: nat): (r: Option<seq<Byte>>)
    ensures r.Some? <==> Covers(b, size, offset)
    ensures r.Some? ==> |r.value| == size
    ensures r.Some? ==> forall i :: 0 <= i < size ==> r.value[i] == b.data[offset - b.start.value + i]
  {
    if Covers(b, size, offset) then
      var from := offset - b.start.value;
      Some(b.data[from..from + size])
    else None
  }

  /** cache::open: give the path an empty buffer unless it has one, then
      open below; the buffer is created whatever the result below. */
  function Open(c: Cache, path: Path, open: Path -> int): (r: (int, Cache))
    ensures r.0 == open(path) && r.1.config == c.config
    ensures path in r.1.buffers
    ensures path in c.buffers ==> r.1 == c
    ensures path !in c.buffers ==> r.1.buffers == c.buffers[path := NoBuffer]
  {
    if path in c.buffers then (open(path), c)
    else (open(path), c.(buffers := c.buffers[path := NoBuffer]))
  }

  /** cache::release: drop the buffer, then release below. */
  function Release(c: Cache, path: Path, release: Path -> int): (r: (int, Cache))
    ensures r.0 == release(path) && r.1.config == c.config
    ensures r.1.buffers == c.buffers - {path}
  {
    (release(path), c.(buffers := c.buffers - {path}))
  }

  /** cache::read on an opened file. A covered request is answered from the
      buffer with no call below. Otherwise max(size, prefetch) bytes are read
      below at `offset`: an error is returned as is and the buffer kept; on
      success the caller gets the first min(count, size) bytes and the buffer
      becomes the fetched window at `offset`. */
  function Read(c: Cache, path: Path, size: nat, offset: nat, read: (Path, nat, nat) -> Result<seq<Byte>>)
    : (r: (Result<seq<Byte>>, Cache))
    requires path in c.buffers
    ensures r.1.config == c.config && path in r.1.buffers && r.1.buffers.Keys == c.buffers.Keys
    ensures forall p :: p in c.buffers && p != path ==> r.1.buffers[p] == c.buffers[p]
    ensures Covers(c.buffers[path], size, offset) ==>
              r.1 == c && r.0.Ok? && |r.0.value| == size
              && r.0.value == c.buffers[path].data[offset - c.buffers[path].start.value..][..size]
    ensures !Covers(c.buffers[path], size, offset) ==>
              var fetched := read(path, offset, Max(size, c.config.size));
              && (fetched.Err? ==> r == (fetched, c))
              && (fetched.Ok? ==> && r.1.buffers[path] == Buffer(Some(offset), fetched.value)
                                  && r.0 == Ok(fetched.value[..Min(|fetched.value|, size)]))
  {
    var b := c.buffers[path];
    var hit := BufferRead(b, size, offset);
    if hit.Some? then
      assert hit.value == b.data[offset - b.start.value..][..size];
      (Ok(hit.value), c)
    else
      var fetched := read(path, offset, Max(size, c.config.size));
      if fetched.Err? then (fetched, c)
      else
        (Ok(fetched.value[..Min(|fetched.value|, size)]),
         c.(buffers := c.buffers[path := Buffer(Some(offset), fetched.value)]))
  }

  /** After a read that missed and fetched `f` at `offset`, every later
      request lying inside [offset, offset + |f|) is a hit: it is answered
      from the fetched bytes without going below and leaves the cache as it
      is, whatever the layer below would now return. */
  lemma MissThenHit(c: Cache, path: Path, size: nat, offset: nat, read: (Path, nat, nat) -> Result<seq<Byte>>,
                    size': nat, offset': nat, read': (Path, nat, nat) -> Result<seq<Byte>>)
    requires path in c.buffers && !Covers(c.buffers[path], size, offset)
    requires read(path, offset, Max(size, c.config.size)).Ok?
    requires offset <= offset' && offset' + size' <= offset + |read(path, offset, Max(size, c.config.size)).value|
    ensures var f := read(path, offset, Max(size, c.config.size)).value;
            var c1 := Read(c, path, size, offset, read).1;
            Read(c1, path, size', offset', read') == (Ok(f[offset' - offset..][..size']), c1)
  {
  }

  /** The buffer holds the content's bytes for its window. */
  ghost predicate Holds(b: Buffer, content: seq<Byte>)
  {
    b.start.Some? ==> b.data == Window(content, b.start.value, |b.data|)
  }

  /** When the layer below reads the file as `content` and the buffer agrees
      with it, a read through the layer returns exactly what a direct read
      of `size` bytes at `offset` returns, and the buffer keeps agreeing. */
  lemma ReadIsTransparent(c: Cache, path: Path, size: nat, offset: nat, read: (Path, nat, nat) -> Result<seq<Byte>>,
                          content: seq<Byte>)
    requires path in c.buffers && ReadsFile(read, path, content) && Holds(c.buffers[path], content)
    ensures var (r, c') := Read(c, path, size, offset, read);
            && (r.Ok? ==> r.value == Window(content, offset, size))
            && Holds(c'.buffers[path], content)
  {
    var b := c.buffers[path];
    if Covers(b, size, offset) {
      WindowInside(content, b.start.value, |b.data|, offset, size);
    } else {
      var m := Max(size, c.config.size);
      if read(path, offset, m).Ok? {
        WindowPrefix(content, offset, size, m);
        WindowOwnLength(content, offset, m);
      }
    }
  }

  /** A freshly opened file's buffer agrees with any content. */
  lemma OpenHolds(c: Cache, path: Path, open: Path -> int, content: seq<Byte>)
    requires path !in c.buffers
    ensures Holds(Open(c, path, open).1.buffers[path], content)
  {
  }
}

=== FILE: rnd_manager.dfy ===
/** The uniform-random eviction manager: an unordered set of tracked keys
    from which eviction removes an arbitrary member. The random generator is
    replaced by a nondeterministic choice. */
module RndManager {
  import opened Base

  datatype Rnd<K> = Rnd(keys: set<K>)

  function Empty<K>(): (m: Rnd<K>)
    ensures m.keys == {}
  {
    Rnd({})
  }

  /** rnd_cache_manager::touch: insert the key into the set. */
  function Touch<K(==)>(m: Rnd<K>, k: K): (m': Rnd<K>)
    ensures k in m'.keys
    ensures m'.keys == m.keys + {k}
    ensures k in m.keys ==> m' == m
  {
    Rnd(m.keys + {k})
  }

  /** rnd_cache_manager::remove: erase the key from the set if present. */
  function Remove<K(==)>(m: Rnd<K>, k: K): (m': Rnd<K>)
    ensures k !in m'.keys
    ensures m'.keys == m.keys - {k}
    ensures k !in m.keys ==> m' == m
  {
    Rnd(m.keys - {k})
  }

  /** rnd_cache_manager::evict: nothing from an empty set, otherwise one
      tracked key, chosen freely, removed from the set. */
  method Evict<K(==)>(m: Rnd<K>) returns (victim: Option<K>, m': Rnd<K>)
    ensures m.keys == {} <==> victim == None
    ensures victim == None ==> m' == m
    ensures victim.Some? ==> && victim.value in m.keys
                             && m'.keys == m.keys - {victim.value}
                             && |m'.keys| == |m.keys| - 1
  {
    if m.keys == {} {
      return None, m;
    }
    var k :| k in m.keys;
    victim, m' := Some(k), Rnd(m.keys - {k});
  }

  /** Touching twice is touching once. */
  lemma TouchIdempotent<K>(m: Rnd<K>, k: K)
    ensures Touch(Touch(m, k), k) == Touch(m, k)
  {
  }
}

/** The random manager read against its history: the set it tracks after
    any sequence of touches and removes, described key by key. */
module RndHistory {
  import opened Base
  import opened RndManager

  /** One call on the manager. */
  datatype Action<K> = TouchKey(key: K) | RemoveKey(key: K)

  /** The manager reached from an empty one by performing `h` in order. */
  function Replay<K(==)>(h: seq<Action<K>>): Rnd<K>
  {
    if |h| == 0 then Empty()
    else
      var m := Replay(h[..|h| - 1]);
      match h[|h| - 1]
      case TouchKey(k) => Touch(m, k)
      case RemoveKey(k) => Remove(m, k)
  }

  /** The last action of `h` on `k` is a touch. */
  predicate LastTouched<K(==)>(h: seq<Action<K>>, k: K)
  {
    if |h| == 0 then false
    else if h[|h| - 1].key == k then h[|h| - 1].TouchKey?
    else LastTouched(h[..|h| - 1], k)
  }

  /** After any history, a key is tracked exactly when the last call that
      named it was a touch. */
  lemma {:induction false} ReplayTracks<K>(h: seq<Action<K>>, k: K)
    ensures k in Replay(h).keys <==> LastTouched(h, k)
  {
    if |h| > 0 {
      ReplayTracks(h[..|h| - 1], k);
    }
  }

  /** Eviction after any history: nothing exactly when no key's last call
      was a touch; otherwise a key whose last call was a touch, after which
      exactly the other such keys stay tracked. */
  method EvictAfter<K(==)>(h: seq<Action<K>>) returns (victim: Option<K>, m': Rnd<K>)
    ensures victim == None <==> forall k :: !LastTouched(h, k)
    ensures victim.Some? ==> LastTouched(h, victim.value)
    ensures forall k :: k in m'.keys <==> LastTouched(h, k) && victim != Some(k)
  {
    var m := Replay(h);
    victim, m' := Evict(m);
    forall k
      ensures k in m'.keys <==> LastTouched(h, k) && victim != Some(k)
      ensures victim == None ==> !LastTouched(h, k)
    {
      ReplayTracks(h, k);
    }
    if victim.Some? {
      ReplayTracks(h, victim.value);
    } else {
      assert m.keys == {};
    }
  }
}

=== FILE: server.dfy ===
/** The server's configuration and the vocabulary its call objects share.
    Every call object is driven by the completion queue: each completion
    delivered with the object as tag runs its `proceed` once, which may
    create a sibling object to accept the next call of the same kind, may
    call the backend on the message just received, and issues at most one
    new asynchronous operation, or deletes the object. */
module Server {
  import opened Base

  /** The number of completion queues and of poller threads per queue. */
  datatype Config = Config(nQueues: nat, nPollersPerQueue: nat)

  /** The constructor's clamping: a zero count becomes one, any other is kept. */
  function Clamp(c: Config): (r: Config)
    ensures r.nQueues >= 1 && r.nPollersPerQueue >= 1
    ensures c.nQueues >= 1 ==> r.nQueues == c.nQueues
    ensures c.nPollersPerQueue >= 1 ==> r.nPollersPerQueue == c.nPollersPerQueue
  {
    Config(Max(1, c.nQueues), Max(1, c.nPollersPerQueue))
  }

  /** The asynchronous operation a call object issues with itself as tag. */
  datatype Op =
    | ReadMsg                   // read the next message of the stream
    | WriteReply(result: int)   // write one reply message carrying a result
    | FinishStatus              // finish the stream with status OK, no reply
    | FinishReply(result: int)  // finish the call with status OK and one reply

  /** What one `proceed` did: whether it created the sibling that accepts
      the next call, whether it called the backend on the message just
      received, and the operation it issued, none when it deleted itself. */
  datatype Effect = Effect(spawn: bool, serve: bool, op: Option<Op>)

  /** The operations issued along a sequence of effects, in order. */
  function Ops(es: seq<Effect>): (ops: seq<Op>)
    ensures |ops| <= |es|
  {
    if |es| == 0 then []
    else (if es[0].op.Some? then [es[0].op.value] else []) + Ops(es[1..])
  }

  function Spawns(es: seq<Effect>): nat
  {
    if |es| == 0 then 0 else (if es[0].spawn then 1 else 0) + Spawns(es[1..])
  }

  /** Effects where only the first may spawn. */
  lemma SpawnsFirstOnly(es: seq<Effect>)
    requires |es| > 0 && es[0].spawn && forall i :: 0 < i < |es| ==> !es[i].spawn
    ensures Spawns(es) == 1
  {
    NoSpawns(es[1..]);
  }

  lemma {:induction false} NoSpawns(es: seq<Effect>)
    requires forall i :: 0 <= i < |es| ==> !es[i].spawn
    ensures Spawns(es) == 0
    decreases |es|
  {
    if |es| > 0 {
      NoSpawns(es[1..]);
    }
  }

  /** `n` reads in a row. */
  function ReadOps(n: nat): (ops: seq<Op>)
    ensures |ops| == n
    ensures forall i :: 0 <= i < n ==> ops[i] == ReadMsg
  {
    if n == 0 then [] else [ReadMsg] + ReadOps(n - 1)
  }

  /** Unfolding both counts over an effect put in front. */
  lemma OpsCons(e: Effect, rest: seq<Effect>)
    ensures Ops([e] + rest) == (if e.op.Some? then [e.op.value] else []) + Ops(rest)
    ensures Spawns([e] + rest) == (if e.spawn then 1 else 0) + Spawns(rest)
  {
    assert ([e] + rest)[1..] == rest;
  }
}

/** The unary call objects (getattr, write, ... : one request, one reply).
    `proceed` ignores the completion's `ok` flag. */
module UnaryCall {
  import opened Base
  import opened Server

  datatype Status = Process | Finished

  /** PROCESS: create the sibling, call the backend, finish with a reply
      carrying the backend's result. FINISHED: delete the object. */
  function Proceed(s: Status, ok: bool, result: int): (r: (Option<Status>, Effect))
    ensures r.1.spawn <==> s == Process
    ensures r.1.serve <==> s == Process
    ensures r.0.None? <==> r.1.op.None?
    ensures r.1.op.Some? ==> r.1.op.value == FinishReply(result) && r.0 == Some(Finished)
  {
    match s
    case Process => (Some(Finished), Effect(true, true, Some(FinishReply(result))))
    case Finished => (None, Effect(false, false, None))
  }

  /** The effects of the completions `oks` delivered to an object in status
      `s`, up to its deletion. */
  function Life(s: Status, oks: seq<bool>, result: int): (es: seq<Effect>)
    ensures |es| <= |oks|
    decreases |oks|
  {
    if |oks| == 0 then []
    else
      var (next, e) := Proceed(s, oks[0], result);
      [e] + (if next.None? then [] else Life(next.value, oks[1..], result))
  }

  /** A unary call serves its request once and answers with exactly one
      reply carrying the backend's result; the next completion deletes it,
      whatever the `ok` flags were. */
  lemma OneReply(oks: seq<bool>, result: int)
    requires |oks| >= 2
    ensures var es := Life(Process, oks, result);
            && |es| == 2
            && Ops(es) == [FinishReply(result)]
            && Spawns(es) == 1
            && es[0].serve && !es[1].serve
  {
    var es := Life(Process, oks, result);
    assert Life(Finished, oks[1..], result) == [Effect(false, false, None)];
    assert es == [Effect(true, true, Some(FinishReply(result))), Effect(false, false, None)];
    assert Ops(es[1..]) == [] by {
      assert es[1..][1..] == [];
    }
    assert Spawns(es[1..]) == 0 by {
      assert es[1..][1..] == [];
    }
  }
}

/** The bidirectional streams (stream read, stream write): each request
    message read is answered with one reply message. */
module BidiStreamCall {
  import opened Base
  import opened Server

  datatype Status = Create | Read | Write | Finished

  /** One completion: its `ok` flag and the result the backend returns if
      this completion makes the object call it. */
  datatype Completion = Completion(ok: bool, result: int)

  /** CREATE: create the sibling and read. READ: on `ok` call the backend
      and write the reply, otherwise finish the stream. WRITE: read the next
      message. FINISHED: delete the object. CREATE and WRITE ignore `ok`. */
  function Proceed(s: Status, c: Completion): (r: (Option<Status>, Effect))
    ensures r.1.spawn <==> s == Create
    ensures r.1.serve <==> s == Read && c.ok
    ensures r.0.None? <==> s == Finished
    ensures r.0.None? <==> r.1.op.None?
    ensures r.0 != Some(Create)
    ensures r.1.op == Some(ReadMsg) <==> s == Create || s == Write
    ensures r.1.op == Some(ReadMsg) ==> r.0 == Some(Read)
    ensures r.1.op.Some? && r.1.op.value.WriteReply? <==> s == Read && c.ok
    ensures r.1.op.Some? && r.1.op.value.WriteReply? ==> r.1.op.value.result == c.result && r.0 == Some(Write)
    ensures r.1.op == Some(FinishStatus) <==> s == Read && !c.ok
    ensures r.1.op == Some(FinishStatus) ==> r.0 == Some(Finished)
  {
    match s
    case Create => (Some(Read), Effect(true, false, Some(ReadMsg)))
    case Read =>
      if c.ok then (Some(Write), Effect(false, true, Some(WriteReply(c.result))))
      else (Some(Finished), Effect(false, false, Some(FinishStatus)))
    case Write => (Some(Read), Effect(false, false, Some(ReadMsg)))
    case Finished => (None, Effect(false, false, None))
  }

  /** The effects of the completions `cs` delivered to an object in status
      `s`, up to its deletion. */
  function Life(s: Status, cs: seq<Completion>): (es: seq<Effect>)
    ensures |es| <= |cs|
    decreases |cs|
  {
    if |cs| == 0 then []
    else
      var r := Proceed(s, cs[0]);
      [r.1] + (if r.0.None? then [] else Life(r.0.value, cs[1..]))
  }

  /** The first completion's effect, followed by the life of the status it
      leads to. */
  lemma LifeStep(s: Status, cs: seq<Completion>)
    requires |cs| > 0
    ensures var r := Proceed(s, cs[0]);
            var es := Life(s, cs);
            && es[0] == r.1
            && es[1..] == (if r.0.None? then [] else Life(r.0.value, cs[1..]))
  {
  }

  /** The shape of the operations issued from status `s` on: counting from
      the next one, reads and reply writes strictly alternate (a read first
      unless the object is waiting for a message), and a finish can only
      come where a reply write would, as the last operation. */
  ghost predicate Alternating(s: Status, ops: seq<Op>)
  {
    forall i :: 0 <= i < |ops| ==>
      if (s == Read) != (i % 2 == 0) then ops[i] == ReadMsg
      else ops[i].WriteReply? || (ops[i] == FinishStatus && i == |ops| - 1)
  }

  /** One more operation in front of an alternating tail, issued from the
      status that precedes the tail's. */
  lemma AlternatingCons(s: Status, t: Status, op: Op, tail: seq<Op>)
    requires Alternating(t, tail)
    requires (t == Read) == (s != Read)
    requires if s != Read then op == ReadMsg else op.WriteReply?
    ensures Alternating(s, [op] + tail)
  {
    var ops := [op] + tail;
    forall i | 0 < i < |ops|
      ensures if (s == Read) != (i % 2 == 0) then ops[i] == ReadMsg
              else ops[i].WriteReply? || (ops[i] == FinishStatus && i == |ops| - 1)
    {
      assert ops[i] == tail[i - 1];
    }
  }

  lemma {:induction false} AlternatingFrom(s: Status, cs: seq<Completion>)
    requires s != Finished
    ensures Alternating(s, Ops(Life(s, cs)))
    decreases |cs|
  {
    if |cs| > 0 {
      var r := Proceed(s, cs[0]);
      var es := Life(s, cs);
      LifeStep(s, cs);
      assert es == [r.1] + es[1..];
      OpsCons(r.1, es[1..]);
      if r.0 == Some(Finished) {
        var rest := es[1..];
        if |cs| > 1 {
          LifeStep(Finished, cs[1..]);
          assert rest == [rest[0]] + rest[1..];
          OpsCons(rest[0], rest[1..]);
        }
        assert Ops(rest) == [];
      } else {
        AlternatingFrom(r.0.value, cs[1..]);
        AlternatingCons(s, r.0.value, r.1.op.value, Ops(es[1..]));
      }
    }
  }

  /** A stream call's operations, from its creation on: read, reply, read,
      reply, ..., with at most one finish, as the last operation, in place of
      a reply. */
  lemma StreamAlternates(cs: seq<Completion>)
    ensures var ops := Ops(Life(Create, cs));
            forall i :: 0 <= i < |ops| ==>
              if i % 2 == 0 then ops[i] == ReadMsg
              else ops[i].WriteReply? || (ops[i] == FinishStatus && i == |ops| - 1)
  {
    AlternatingFrom(Create, cs);
  }

  /** Every `proceed` but the deleting one leaves exactly one operation
      pending: along a stream's life, only the last effect may issue none. */
  lemma {:induction false} OnePending(s: Status, cs: seq<Completion>)
    ensures var es := Life(s, cs);
            forall i :: 0 <= i < |es| - 1 ==> es[i].op.Some?
    decreases |cs|
  {
    if |cs| > 0 {
      var r := Proceed(s, cs[0]);
      LifeStep(s, cs);
      if r.0.Some? {
        OnePending(r.0.value, cs[1..]);
        var es := Life(s, cs);
        forall i | 0 < i < |es| - 1
          ensures es[i].op.Some?
        {
          assert es[i] == es[1..][i - 1];
        }
      }
    }
  }

  /** Only the first `proceed` of an object creates a sibling; an object
      accepted in CREATE creates exactly one. */
  lemma SpawnsOnce(s: Status, cs: seq<Completion>)
    ensures forall i :: 0 < i < |Life(s, cs)| ==> !Life(s, cs)[i].spawn
    ensures |cs| > 0 && s == Create ==> Life(s, cs)[0].spawn && Spawns(Life(s, cs)) == 1
  {
    if |cs| > 0 {
      var r := Proceed(s, cs[0]);
      var es := Life(s, cs);
      LifeStep(s, cs);
      if r.0.Some? {
        NeverCreate(r.0.value, cs[1..]);
        forall i | 0 < i < |es|
          ensures !es[i].spawn
        {
          assert es[i] == es[1..][i - 1];
        }
      }
      if s == Create {
        SpawnsFirstOnly(es);
      }
    }
  }

  /** An object past CREATE never creates a sibling again. */
  lemma {:induction false} NeverCreate(s: Status, cs: seq<Completion>)
    requires s != Create
    ensures forall i :: 0 <= i < |Life(s, cs)| ==> !Life(s, cs)[i].spawn
    decreases |cs|
  {
    if |cs| > 0 {
      var r := Proceed(s, cs[0]);
      var es := Life(s, cs);
      LifeStep(s, cs);
      if r.0.Some? {
        NeverCreate(r.0.value, cs[1..]);
        forall i | 0 < i < |es|
          ensures !es[i].spawn
        {
          assert es[i] == es[1..][i - 1];
        }
      }
    }
  }

  /** Each reply written carries the result of the backend call made on
      the message that completion delivered. */
  lemma {:induction false} RepliesCarryResults(s: Status, cs: seq<Completion>)
    ensures var es := Life(s, cs);
            forall i :: 0 <= i < |es| && es[i].op.Some? && es[i].op.value.WriteReply? ==>
              es[i].serve && es[i].op.value.result == cs[i].result
    decreases |cs|
  {
    if |cs| > 0 {
      var r := Proceed(s, cs[0]);
      var es := Life(s, cs);
      LifeStep(s, cs);
      if r.0.Some? {
        RepliesCarryResults(r.0.value, cs[1..]);
        forall i | 0 < i < |es| && es[i].op.Some? && es[i].op.value.WriteReply?
          ensures es[i].serve && es[i].op.value.result == cs[i].result
        {
          assert es[i] == es[1..][i - 1] && cs[i] == cs[1..][i - 1];
        }
      }
    }
  }
}

/** The client-streaming write used by the write-back client: every message
    read is written to the backend, no reply is sent per message, and the
    end of the stream is answered with one default reply. The backend's
    result is not looked at. */
module ClientStreamCall {
  import opened Base
  import opened Server
  import WriteBack

  datatype Status = Create | Read | Finished

  /** One completion: its `ok` flag and the message a completed read filled in. */
  datatype Completion = Completion(ok: bool, msg: WriteBack.Request)

  /** The result field of a default-constructed reply. */
  const DefaultResult: int := 0

  /** CREATE: create the sibling and read. READ: on `ok` write the message
      to the backend and read again, otherwise finish with the default
      reply. FINISHED: delete the object. CREATE ignores `ok`. */
  function Proceed(s: Status, c: Completion): (r: (Option<Status>, Effect))
    ensures r.1.spawn <==> s == Create
    ensures r.1.serve <==> s == Read && c.ok
    ensures r.0.None? <==> s == Finished
    ensures r.0.None? <==> r.1.op.None?
    ensures r.0 != Some(Create)
    ensures r.1.op == Some(ReadMsg) <==> r.0 == Some(Read)
    ensures r.1.op.Some? && r.1.op.value != ReadMsg ==> r.1.op.value == FinishReply(DefaultResult) && r.0 == Some(Finished)
  {
    match s
    case Create => (Some(Read), Effect(true, false, Some(ReadMsg)))
    case Read =>
      if c.ok then (Some(Read), Effect(false, true, Some(ReadMsg)))
      else (Some(Finished), Effect(false, false, Some(FinishReply(DefaultResult))))
    case Finished => (None, Effect(false, false, None))
  }

  /** The object's life over the completions `cs`: its effects up to its
      deletion and the messages it wrote to the backend, in order. */
  function Life(s: Status, cs: seq<Completion>): (r: (seq<Effect>, seq<WriteBack.Request>))
    ensures |r.0| <= |cs| && |r.1| <= |cs|
    decreases |cs|
  {
    if |cs| == 0 then ([], [])
    else
      var p := Proceed(s, cs[0]);
      var rest := if p.0.None? then ([], []) else Life(p.0.value, cs[1..]);
      ([p.1] + rest.0, (if p.1.serve then [cs[0].msg] else []) + rest.1)
  }

  /** The first completion's effect and message, followed by the life of the
      status it leads to. */
  lemma LifeStep(s: Status, cs: seq<Completion>)
    requires |cs| > 0
    ensures var p := Proceed(s, cs[0]);
            var rest := if p.0.None? then ([], []) else Life(p.0.value, cs[1..]);
            Life(s, cs) == ([p.1] + rest.0, (if p.1.serve then [cs[0].msg] else []) + rest.1)
  {
  }

  /** The completions a stream carrying `msgs` delivers: the call accepted,
      one successful read per message, the failed read that marks the
      client's end of writes, and the completion of the finish. */
  function Stream(accepted: Completion, msgs: seq<WriteBack.Request>, end: Completion, finished: Completion): (cs: seq<Completion>)
    requires !end.ok
  {
    [accepted] + (Reads(msgs) + [end, finished])
  }

  function Reads(msgs: seq<WriteBack.Request>): (cs: seq<Completion>)
    ensures |cs| == |msgs|
  {
    if |msgs| == 0 then [] else [Completion(true, msgs[0])] + Reads(msgs[1..])
  }

  /** In READ, a stream of messages and its end: every message is written to
      the backend in order, each answered by nothing but the next read; the
      end is answered by the one default reply and the object is deleted. */
  lemma {:induction false} ReadsThenEnd(msgs: seq<WriteBack.Request>, end: Completion, finished: Completion)
    requires !end.ok
    ensures var r := Life(Read, Reads(msgs) + [end, finished]);
            && r.1 == msgs
            && Ops(r.0) == ReadOps(|msgs|) + [FinishReply(DefaultResult)]
            && Spawns(r.0) == 0
    decreases |msgs|
  {
    if |msgs| == 0 {
      assert Reads(msgs) + [end, finished] == [end, finished];
      LastTwo(end, finished);
    } else {
      var tail := Reads(msgs[1..]) + [end, finished];
      assert Reads(msgs) + [end, finished] == [Completion(true, msgs[0])] + tail;
      ReadsThenEnd(msgs[1..], end, finished);
      ReadStep(msgs[0], tail);
      ReadThenReads(Life(Read, tail).0, |msgs| - 1);
      assert [msgs[0]] + msgs[1..] == msgs;
    }
  }

  /** In READ, a successful read writes its message to the backend and
      reads again. */
  lemma ReadStep(m: WriteBack.Request, tail: seq<Completion>)
    requires |tail| > 0
    ensures Life(Read, [Completion(true, m)] + tail).0 == [Effect(false, true, Some(ReadMsg))] + Life(Read, tail).0
    ensures Life(Read, [Completion(true, m)] + tail).1 == [m] + Life(Read, tail).1
  {
    var cs := [Completion(true, m)] + tail;
    assert cs[0] == Completion(true, m) && cs[1..] == tail;
    LifeStep(Read, cs);
  }

  /** Putting one more serving read in front of `n` reads and the reply. */
  lemma ReadThenReads(rest: seq<Effect>, n: nat)
    requires Ops(rest) == ReadOps(n) + [FinishReply(DefaultResult)] && Spawns(rest) == 0
    ensures Ops([Effect(false, true, Some(ReadMsg))] + rest) == ReadOps(n + 1) + [FinishReply(DefaultResult)]
    ensures Spawns([Effect(false, true, Some(ReadMsg))] + rest) == 0
  {
    OpsCons(Effect(false, true, Some(ReadMsg)), rest);
    assert ReadOps(n + 1) == [ReadMsg] + ReadOps(n);
  }

  /** The failed read that ends the stream is answered by the default reply,
      and the completion of that finish deletes the object. */
  lemma LastTwo(end: Completion, finished: Completion)
    requires !end.ok
    ensures var r := Life(Read, [end, finished]);
            && r.1 == []
            && Ops(r.0) == [FinishReply(DefaultResult)]
            && Spawns(r.0) == 0
  {
    var cs := [end, finished];
    LifeStep(Read, cs);
    assert cs[1..] == [finished];
    LifeStep(Finished, [finished]);
    var last := Life(Finished, [finished]);
    assert last.0 == [Effect(false, false, None)];
    assert last.1 == [];
    OpsCons(Effect(false, false, Some(FinishReply(DefaultResult))), last.0);
    OpsCons(Effect(false, false, None), []);
  }

  /** A whole client stream: one sibling is created, the messages are
      written to the backend exactly once each and in order, no reply is
      sent until the end of the stream, and then exactly one. */
  lemma WholeStream(accepted: Completion, msgs: seq<WriteBack.Request>, end: Completion, finished: Completion)
    requires !end.ok
    ensures var r := Life(Create, Stream(accepted, msgs, end, finished));
            && r.1 == msgs
            && Spawns(r.0) == 1
            && Ops(r.0) == ReadOps(|msgs| + 1) + [FinishReply(DefaultResult)]
  {
    var tail := Reads(msgs) + [end, finished];
    ReadsThenEnd(msgs, end, finished);
    CreateStep(accepted, tail);
    SpawnThenReads(Life(Read, tail).0, |msgs|);
  }

  /** Putting the spawning first read in front of `n` reads and the reply. */
  lemma SpawnThenReads(rest: seq<Effect>, n: nat)
    requires Ops(rest) == ReadOps(n) + [FinishReply(DefaultResult)] && Spawns(rest) == 0
    ensures Ops([Effect(true, false, Some(ReadMsg))] + rest) == ReadOps(n + 1) + [FinishReply(DefaultResult)]
    ensures Spawns([Effect(true, false, Some(ReadMsg))] + rest) == 1
  {
    OpsCons(Effect(true, false, Some(ReadMsg)), rest);
    assert ReadOps(n + 1) == [ReadMsg] + ReadOps(n);
  }

  /** From CREATE, whatever the first completion says, a sibling is spawned,
      the first read is issued and the rest of the stream is read. */
  lemma CreateStep(accepted: Completion, tail: seq<Completion>)
    requires |tail| > 0
    ensures Life(Create, [accepted] + tail).0 == [Effect(true, false, Some(ReadMsg))] + Life(Read, tail).0
    ensures Life(Create, [accepted] + tail).1 == Life(Read, tail).1
  {
    var cs := [accepted] + tail;
    assert cs[0] == accepted && cs[1..] == tail;
    var rest := Life(Read, tail);
    LifeStep(Create, cs);
    assert Life(Create, cs).1 == [] + rest.1;
  }

  /** The bytes the backend write receives: `size` bytes of the message's
      buffer (never more than it holds). */
  function Payload(m: WriteBack.Request): (data: seq<Byte>)
    ensures |data| == Min(m.size, |m.buf|)
    ensures m.size == |m.buf| ==> data == m.buf
  {
    m.buf[..Min(m.size, |m.buf|)]
  }

  /** The files after the backend wrote the served messages in order. */
  function ApplyServed(fs: WriteBack.Files, ms: seq<WriteBack.Request>): WriteBack.Files
    decreases |ms|
  {
    if |ms| == 0 then fs else ApplyServed(WriteBack.ApplyWrite(fs, ms[0].path, ms[0].offset, Payload(ms[0])), ms[1..])
  }

  /** Requests whose declared size is their buffer's length. */
  ghost predicate Sized(ms: seq<WriteBack.Request>)
  {
    forall i :: 0 <= i < |ms| ==> ms[i].size == |ms[i].buf|
  }

  lemma {:induction false} ServedAsSent(fs: WriteBack.Files, ms: seq<WriteBack.Request>)
    requires Sized(ms)
    ensures ApplyServed(fs, ms) == WriteBack.ApplyRequests(fs, ms)
    decreases |ms|
  {
    if |ms| > 0 {
      ServedAsSent(WriteBack.ApplyWrite(fs, ms[0].path, ms[0].offset, ms[0].buf), ms[1..]);
    }
  }

  /** Every request the write-back client sends declares its buffer's length. */
  lemma {:induction false} MessagesSized(bs: seq<WriteBack.Block>, maxSize: nat)
    ensures Sized(WriteBack.Messages(bs, maxSize))
    decreases |bs|
  {
    if |bs| > 0 {
      var (m, n) := WriteBack.SendBlock(bs, maxSize);
      WriteBack.MessagesUnfold(bs, maxSize);
      MessagesSized(bs[n..], maxSize);
      var ms := WriteBack.Messages(bs, maxSize);
      forall i | 0 <= i < |ms|
        ensures ms[i].size == |ms[i].buf|
      {
        if i > 0 {
          assert ms[i] == WriteBack.Messages(bs[n..], maxSize)[i - 1];
        }
      }
    }
  }

  /** End to end: a flush call over a queue of blocks, received by a
      client-stream object, leaves the backend's files as if the blocks had
      been written one by one in queue order. */
  lemma FlushLandsInOrder(blocks: seq<WriteBack.Block>, maxBlockSize: nat, statusOk: bool, fs: WriteBack.Files,
                          accepted: Completion, end: Completion, finished: Completion)
    requires !end.ok
    ensures var (sent, _, _) := WriteBack.Drive(WriteBack.NewCall(blocks, maxBlockSize), statusOk);
            ApplyServed(fs, Life(Create, Stream(accepted, sent, end, finished)).1) == WriteBack.ApplyBlocks(fs, blocks)
  {
    WriteBack.CallDeliversQueue(blocks, maxBlockSize, statusOk, fs);
    var sent := WriteBack.Messages(blocks, maxBlockSize);
    WholeStream(accepted, sent, end, finished);
    MessagesSized(blocks, maxBlockSize);
    ServedAsSent(fs, sent);
  }
}

=== FILE: write_back.dfy ===
/** The write-back client's buffered blocks and its flush calls. Writes are
    buffered as blocks; a flush call streams them to the server, merging
    runs of adjacent blocks of one file into a single write request, and
    releases each block once the stream has taken it. */
module WriteBack {
  import opened Base

  /** The file-handle fields a buffered write keeps; the merge rule compares
      all of them and the same fields travel with every request. */
  datatype FileInfo = FileInfo(flags: int, fhOld: nat, writepage: int, directIo: bool,
                               keepCache: bool, flush: bool, nonseekable: bool,
                               flockRelease: bool, padding: nat, fh: nat, lockOwner: nat)

  /** One buffered write: a copy of the caller's bytes, their file offset and
      the file-handle fields at write time. */
  datatype Block = Block(path: Path, data: seq<Byte>, offset: nat, info: FileInfo)

  /** A write request on the stream: where to write, the handle fields, the
      payload and its announced size. */
  datatype Request = Request(path: Path, offset: nat, info: FileInfo, buf: seq<Byte>, size: nat)

  /** block::is_mergeable: `next` continues `prev` in the same file, right
      where `prev` ends, under identical handle fields. */
  predicate Mergeable(prev: Block, next: Block)
  {
    prev.path == next.path && prev.offset + |prev.data| == next.offset && prev.info == next.info
  }

  /** Total payload bytes of a sequence of blocks. */
  function Size(bs: seq<Block>): (n: nat)
  {
    if |bs| == 0 then 0 else Size(bs[..|bs| - 1]) + |bs[|bs| - 1].data|
  }

  /** The payloads of a sequence of blocks, back to back. */
  function Concat(bs: seq<Block>): (r: seq<Byte>)
    ensures |r| == Size(bs)
  {
    if |bs| == 0 then [] else Concat(bs[..|bs| - 1]) + bs[|bs| - 1].data
  }

  /** Each block continues the one before it. */
  predicate Contiguous(bs: seq<Block>)
  {
    forall i :: 0 <= i < |bs| - 1 ==> Mergeable(bs[i], bs[i + 1])
  }

  /** The first `n` blocks are what one request of send_block carries: the
      first block always, then successors while each continues the previous
      one and the running size stays within `maxSize`, up to the first
      successor that fails either test. */
  predicate MaximalRun(bs: seq<Block>, n: nat, maxSize: nat)
  {
    && 1 <= n <= |bs|
    && Contiguous(bs[..n])
    && (n == 1 || Size(bs[..n]) <= maxSize)
    && (n < |bs| ==> !Mergeable(bs[n - 1], bs[n]) || Size(bs[..n]) + |bs[n].data| > maxSize)
  }

  lemma SizeStep(bs: seq<Block>, n: nat)
    requires n < |bs|
    ensures Size(bs[..n + 1]) == Size(bs[..n]) + |bs[n].data|
    ensures Concat(bs[..n + 1]) == Concat(bs[..n]) + bs[n].data
  {
    assert bs[..n + 1][..n] == bs[..n];
  }

  /** A longer prefix never has fewer bytes. */
  lemma {:induction false} SizeMonotone(bs: seq<Block>, n: nat, m: nat)
    requires n <= m <= |bs|
    ensures Size(bs[..n]) <= Size(bs[..m])
    decreases m - n
  {
    if n < m {
      SizeStep(bs, n);
      SizeMonotone(bs, n + 1, m);
    }
  }

  lemma ContiguousStep(bs: seq<Block>, n: nat)
    requires 1 <= n < |bs| && Contiguous(bs[..n]) && Mergeable(bs[n - 1], bs[n])
    ensures Contiguous(bs[..n + 1])
  {
    var longer := bs[..n + 1];
    forall i | 0 <= i < n
      ensures Mergeable(longer[i], longer[i + 1])
    {
      if i < n - 1 {
        assert bs[..n][i] == bs[i] && bs[..n][i + 1] == bs[i + 1];
      }
    }
  }

  /** The merge loop of send_block, from a run of `n` blocks holding `acc`
      bytes: the run it stops at is maximal. */
  function Extend(bs: seq<Block>, maxSize: nat, n: nat, acc: nat): (k: nat)
    requires 1 <= n <= |bs| && Contiguous(bs[..n]) && acc == Size(bs[..n])
    requires n == 1 || acc <= maxSize
    ensures n <= k && MaximalRun(bs, k, maxSize)
    decreases |bs| - n
  {
    if n < |bs| && acc + |bs[n].data| <= maxSize && Mergeable(bs[n - 1], bs[n]) then
      SizeStep(bs, n);
      ContiguousStep(bs, n);
      Extend(bs, maxSize, n + 1, acc + |bs[n].data|)
    else
      n
  }

  /** There is only one maximal run, so send_block's choice is determined
      by the queue and the size limit. */
  lemma MaximalRunUnique(bs: seq<Block>, maxSize: nat, n: nat, m: nat)
    requires MaximalRun(bs, n, maxSize) && MaximalRun(bs, m, maxSize)
    ensures n == m
  {
    RunWithin(bs, maxSize, n, m);
    RunWithin(bs, maxSize, m, n);
  }

  /** Any run that passes send_block's tests is no longer than the maximal one. */
  lemma RunWithin(bs: seq<Block>, maxSize: nat, n: nat, m: nat)
    requires MaximalRun(bs, n, maxSize)
    requires 1 <= m <= |bs| && Contiguous(bs[..m]) && (m == 1 || Size(bs[..m]) <= maxSize)
    ensures m <= n
  {
    if n < m {
      assert bs[..m][n - 1] == bs[n - 1] && bs[..m][n] == bs[n];
      assert Mergeable(bs[n - 1], bs[n]);
      SizeStep(bs, n);
      SizeMonotone(bs, n + 1, m);
      assert false;
    }
  }

  /** send_block: the request built from the front of a non-empty queue and
      the number of blocks it carries. Its path, offset and handle fields are
      the first block's, its payload is the carried blocks back to back, and
      its announced size is the payload's length. */
  function SendBlock(bs: seq<Block>, maxSize: nat): (r: (Request, nat))
    requires |bs| > 0
    ensures MaximalRun(bs, r.1, maxSize)
    ensures r.0.path == bs[0].path && r.0.offset == bs[0].offset && r.0.info == bs[0].info
    ensures r.0.buf == Concat(bs[..r.1]) && r.0.size == |r.0.buf|
  {
    assert bs[..1] == [bs[0]] && bs[..1][..0] == [];
    var n := Extend(bs, maxSize, 1, |bs[0].data|);
    (Request(bs[0].path, bs[0].offset, bs[0].info, Concat(bs[..n]), Size(bs[..n])), n)
  }

  /** The requests a whole queue turns into: send_block applied repeatedly,
      each time to what the previous request left. */
  function Messages(bs: seq<Block>, maxSize: nat): (ms: seq<Request>)
    ensures |ms| <= |bs| && (|ms| == 0 <==> |bs| == 0)
    decreases |bs|
  {
    if |bs| == 0 then []
    else
      var (m, n) := SendBlock(bs, maxSize);
      [m] + Messages(bs[n..], maxSize)
  }

  lemma MessagesUnfold(bs: seq<Block>, maxSize: nat)
    requires |bs| > 0
    ensures var r := SendBlock(bs, maxSize);
            Messages(bs, maxSize) == [r.0] + Messages(bs[r.1..], maxSize)
  {
  }

  /** The payloads of a sequence of requests, back to back. */
  function Payloads(ms: seq<Request>): (r: seq<Byte>)
  {
    if |ms| == 0 then [] else ms[0].buf + Payloads(ms[1..])
  }

  lemma {:induction false} ConcatAppend(a: seq<Block>, b: seq<Block>)
    ensures Concat(a + b) == Concat(a) + Concat(b)
    ensures Size(a + b) == Size(a) + Size(b)
    decreases |b|
  {
    if |b| > 0 {
      var b0 := b[..|b| - 1];
      assert (a + b)[..|a + b| - 1] == a + b0;
      ConcatAppend(a, b0);
    } else {
      assert a + b == a;
    }
  }

  /** The queue split at `n`: its first `n` blocks and the rest. */
  lemma ConcatSplit(bs: seq<Block>, n: nat)
    requires n <= |bs|
    ensures Concat(bs) == Concat(bs[..n]) + Concat(bs[n..])
    ensures Size(bs) == Size(bs[..n]) + Size(bs[n..])
  {
    SplitAt(bs, n);
    ConcatJoin(bs[..n], bs[n..], bs);
  }

  lemma ConcatJoin(a: seq<Block>, b: seq<Block>, c: seq<Block>)
    requires a + b == c
    ensures Concat(c) == Concat(a) + Concat(b) && Size(c) == Size(a) + Size(b)
  {
    ConcatAppend(a, b);
  }

  lemma PayloadsCons(m: Request, ms: seq<Request>)
    ensures Payloads([m] + ms) == m.buf + Payloads(ms)
  {
    assert ([m] + ms)[1..] == ms;
  }

  /** Splitting into requests neither drops, duplicates nor reorders a byte:
      the payloads of the requests are the queued payloads in queue order. */
  lemma {:induction false} MessagesCoverQueue(bs: seq<Block>, maxSize: nat)
    ensures Payloads(Messages(bs, maxSize)) == Concat(bs)
    decreases |bs|
  {
    if |bs| > 0 {
      var r := SendBlock(bs, maxSize);
      var rest := bs[r.1..];
      MessagesUnfold(bs, maxSize);
      MessagesCoverQueue(rest, maxSize);
      PayloadsCons(r.0, Messages(rest, maxSize));
      ConcatSplit(bs, r.1);
    }
  }

  lemma ConcatSingle(b: Block)
    ensures Concat([b]) == b.data
  {
    assert [b][..0] == [];
  }

  /** A lone block travels as one request carrying exactly its bytes. */
  lemma MessagesSingle(b: Block, maxSize: nat)
    ensures Messages([b], maxSize) == [Request(b.path, b.offset, b.info, b.data, |b.data|)]
  {
    var r := SendBlock([b], maxSize);
    MessagesUnfold([b], maxSize);
    assert [b][..1] == [b] && [b][1..] == [];
    ConcatSingle(b);
  }

  /** Two blocks where the second does not continue the first travel in
      separate requests, whatever the size limit. */
  lemma UnmergeableSplit(b1: Block, b2: Block, maxSize: nat)
    requires !Mergeable(b1, b2)
    ensures Messages([b1, b2], maxSize) == [Request(b1.path, b1.offset, b1.info, b1.data, |b1.data|),
                                             Request(b2.path, b2.offset, b2.info, b2.data, |b2.data|)]
  {
    var bs := [b1, b2];
    var r := SendBlock(bs, maxSize);
    assert r.1 == 1;
    MessagesUnfold(bs, maxSize);
    assert bs[..1] == [b1] && bs[1..] == [b2];
    ConcatSingle(b1);
    MessagesSingle(b2, maxSize);
  }

  /** Two adjacent writes under one handle that fit the limit together
      travel as one request carrying both payloads. */
  lemma AdjacentMerge(b1: Block, b2: Block, maxSize: nat)
    requires Mergeable(b1, b2) && |b1.data| + |b2.data| <= maxSize
    ensures Messages([b1, b2], maxSize) == [Request(b1.path, b1.offset, b1.info, b1.data + b2.data,
                                                    |b1.data| + |b2.data|)]
  {
    var bs := [b1, b2];
    assert bs[..1] == [b1];
    ConcatSingle(b1);
    SizeStep(bs, 1);
    var r := SendBlock(bs, maxSize);
    assert r.1 == 2;
    MessagesUnfold(bs, maxSize);
    assert bs[..2] == bs && bs[2..] == [];
  }

  // ---- What the server does with the requests ----------------------------

  /** The server's files, by path; a path never written reads as empty. */
  type Files = map<Path, seq<Byte>>

  function Contents(fs: Files, path: Path): seq<Byte>
  {
    if path in fs then fs[path] else []
  }

  /** A positional write: `data` replaces the bytes at `offset`, a gap past
      the old end reads as zeros, and the rest of the file is kept. */
  function WriteAt(content: seq<Byte>, offset: nat, data: seq<Byte>): (r: seq<Byte>)
    ensures |r| == Max(|content|, offset + |data|)
    ensures forall i :: 0 <= i < |r| ==>
              r[i] == if offset <= i < offset + |data| then data[i - offset]
                      else if i < |content| then content[i] else 0
  {
    var padded := if |content| < offset then content + seq(offset - |content|, _ => 0) else content;
    var tail := if offset + |data| < |padded| then padded[offset + |data|..] else [];
    padded[..offset] + data + tail
  }

  function ApplyWrite(fs: Files, path: Path, offset: nat, data: seq<Byte>): Files
  {
    fs[path := WriteAt(Contents(fs, path), offset, data)]
  }

  /** The files after the blocks are written one by one, in queue order. */
  function ApplyBlocks(fs: Files, bs: seq<Block>): Files
    decreases |bs|
  {
    if |bs| == 0 then fs else ApplyBlocks(ApplyWrite(fs, bs[0].path, bs[0].offset, bs[0].data), bs[1..])
  }

  /** The files after the requests are written one by one, in order. */
  function ApplyRequests(fs: Files, ms: seq<Request>): Files
    decreases |ms|
  {
    if |ms| == 0 then fs else ApplyRequests(ApplyWrite(fs, ms[0].path, ms[0].offset, ms[0].buf), ms[1..])
  }

  /** Writing `a` and then `b` right behind it is writing `a + b` at once. */
  lemma WriteAtAdjacent(content: seq<Byte>, offset: nat, a: seq<Byte>, b: seq<Byte>)
    ensures WriteAt(WriteAt(content, offset, a), offset + |a|, b) == WriteAt(content, offset, a + b)
  {
    var lhs, rhs := WriteAt(WriteAt(content, offset, a), offset + |a|, b), WriteAt(content, offset, a + b);
    assert |lhs| == |rhs|;
    forall i | 0 <= i < |lhs|
      ensures lhs[i] == rhs[i]
    {
      if offset <= i < offset + |a| {
        assert rhs[i] == (a + b)[i - offset];
      } else if offset + |a| <= i < offset + |a| + |b| {
        assert rhs[i] == (a + b)[i - offset];
      }
    }
  }

  lemma {:induction false} ApplyBlocksAppend(fs: Files, a: seq<Block>, b: seq<Block>)
    ensures ApplyBlocks(fs, a + b) == ApplyBlocks(ApplyBlocks(fs, a), b)
    decreases |a|
  {
    if |a| > 0 {
      assert (a + b)[0] == a[0] && (a + b)[1..] == a[1..] + b;
      ApplyBlocksAppend(ApplyWrite(fs, a[0].path, a[0].offset, a[0].data), a[1..], b);
    } else {
      assert a + b == b;
    }
  }

  /** In a contiguous run every block sits right behind the bytes of the
      blocks before it, in the same file under the same handle fields. */
  lemma {:induction false} RunPositions(bs: seq<Block>, i: nat)
    requires Contiguous(bs) && i < |bs|
    ensures bs[i].offset == bs[0].offset + Size(bs[..i])
    ensures bs[i].path == bs[0].path && bs[i].info == bs[0].info
    decreases i
  {
    if i > 0 {
      RunPositions(bs, i - 1);
      SizeStep(bs, i - 1);
      assert Mergeable(bs[i - 1], bs[i]);
    } else {
      assert bs[..0] == [];
    }
  }

  /** Two adjacent writes to one file are one write of both payloads. */
  lemma ApplyWriteAdjacent(fs: Files, path: Path, offset: nat, a: seq<Byte>, b: seq<Byte>)
    ensures ApplyWrite(ApplyWrite(fs, path, offset, a), path, offset + |a|, b)
            == ApplyWrite(fs, path, offset, a + b)
  {
    WriteAtAdjacent(Contents(fs, path), offset, a, b);
  }

  lemma ApplyBlocksSnoc(fs: Files, init: seq<Block>, last: Block)
    ensures ApplyBlocks(fs, init + [last]) == ApplyWrite(ApplyBlocks(fs, init), last.path, last.offset, last.data)
  {
    ApplyBlocksAppend(fs, init, [last]);
    assert [last][1..] == [];
  }

  lemma ContiguousPrefix(bs: seq<Block>, k: nat)
    requires Contiguous(bs) && k <= |bs|
    ensures Contiguous(bs[..k])
  {
    assert forall i :: 0 <= i < k ==> bs[..k][i] == bs[i];
  }

  /** Writing a contiguous run block by block has the same effect as one
      write of its concatenated payload at the first block's offset. */
  lemma {:induction false} ApplyRun(fs: Files, bs: seq<Block>)
    requires |bs| > 0 && Contiguous(bs)
    ensures ApplyBlocks(fs, bs) == ApplyWrite(fs, bs[0].path, bs[0].offset, Concat(bs))
    decreases |bs|
  {
    if |bs| == 1 {
      ApplySingle(fs, bs[0]);
      assert bs == [bs[0]];
    } else {
      var k := |bs| - 1;
      ContiguousPrefix(bs, k);
      ApplyRun(fs, bs[..k]);
      ApplyRunStep(fs, bs);
    }
  }

  lemma SplitAt(bs: seq<Block>, n: nat)
    requires n <= |bs|
    ensures bs[..n] + bs[n..] == bs
  {
  }

  lemma LastSplit(bs: seq<Block>)
    requires |bs| > 0
    ensures bs == bs[..|bs| - 1] + [bs[|bs| - 1]]
  {
  }

  lemma ApplySingle(fs: Files, b: Block)
    ensures ApplyBlocks(fs, [b]) == ApplyWrite(fs, b.path, b.offset, Concat([b]))
  {
    assert [b][..0] == [] && [b][1..] == [];
    assert Concat([b]) == b.data;
  }

  /** The inductive step of ApplyRun: one more block behind a run. */
  lemma ApplyRunStep(fs: Files, bs: seq<Block>)
    requires |bs| > 1 && Contiguous(bs)
    requires ApplyBlocks(fs, bs[..|bs| - 1]) == ApplyWrite(fs, bs[0].path, bs[0].offset, Concat(bs[..|bs| - 1]))
    ensures ApplyBlocks(fs, bs) == ApplyWrite(fs, bs[0].path, bs[0].offset, Concat(bs))
  {
    var k := |bs| - 1;
    LastSplit(bs);
    RunPositions(bs, k);
    SnocRun(fs, bs[..k], bs[k], bs[0].path, bs[0].offset);
  }

  /** A block right behind a run that writes like one write extends it. */
  lemma SnocRun(fs: Files, init: seq<Block>, last: Block, p: Path, o: nat)
    requires ApplyBlocks(fs, init) == ApplyWrite(fs, p, o, Concat(init))
    requires last.path == p && last.offset == o + Size(init)
    ensures ApplyBlocks(fs, init + [last]) == ApplyWrite(fs, p, o, Concat(init + [last]))
  {
    var a, d := Concat(init), last.data;
    ConcatAppend(init, [last]);
    ConcatSingle(last);
    assert Concat(init + [last]) == a + d;
    ApplyBlocksSnoc(fs, init, last);
    WriteAfter(ApplyBlocks(fs, init), ApplyWrite(fs, p, o, a), last, p, o + |a|);
    ApplyWriteAdjacent(fs, p, o, a, d);
  }

  /** Writing a block to equal file sets at its own place. */
  lemma WriteAfter(fs: Files, gs: Files, last: Block, p: Path, o: nat)
    requires fs == gs && last.path == p && last.offset == o
    ensures ApplyWrite(fs, last.path, last.offset, last.data) == ApplyWrite(gs, p, o, last.data)
  {
  }

  lemma ApplyRequestsCons(fs: Files, m: Request, ms: seq<Request>)
    ensures ApplyRequests(fs, [m] + ms) == ApplyRequests(ApplyWrite(fs, m.path, m.offset, m.buf), ms)
  {
    assert ([m] + ms)[1..] == ms;
  }

  /** Merging is invisible to the server: applying the requests a queue
      turns into leaves the files exactly as writing its blocks one by one
      would. */
  lemma {:induction false} MessagesWriteLikeBlocks(fs: Files, bs: seq<Block>, maxSize: nat)
    ensures ApplyRequests(fs, Messages(bs, maxSize)) == ApplyBlocks(fs, bs)
    decreases |bs|
  {
    if |bs| > 0 {
      var r := SendBlock(bs, maxSize);
      var run, rest := bs[..r.1], bs[r.1..];
      MessagesUnfold(bs, maxSize);
      ApplyRequestsCons(fs, r.0, Messages(rest, maxSize));
      var after := ApplyWrite(fs, r.0.path, r.0.offset, r.0.buf);
      MessagesWriteLikeBlocks(after, rest, maxSize);
      SplitAt(bs, r.1);
      ApplyBlocksAppend(fs, run, rest);
      assert run[0] == bs[0];
      ApplyRun(fs, run);
    }
  }

  // ---- The flush call ----------------------------------------------------

  /** The stages of a flush call: the stream is being opened, a write is
      outstanding, the end of the writes is being announced, or the final
      status is awaited. */
  datatype Stage = Create | Writing | WritesDone | Finished

  /** A flush call: the blocks it still holds, its stage and how many of the
      held blocks the outstanding write carries. */
  datatype Call = Call(maxBlockSize: nat, blocks: seq<Block>, stage: Stage, nSent: nat)

  /** What a step asks of the stream or of the client. */
  datatype Action =
    | StartCall                 // open the stream
    | Send(req: Request)        // write one request
    | SendWritesDone            // announce the end of the writes
    | SendFinish                // ask for the final status
    | End(ok: bool)             // report the call over, with its status

  /** The call's own invariant: an outstanding write exists exactly while
      writing, it carries held blocks, and once the writes are done nothing
      is held. */
  predicate CallValid(c: Call)
  {
    && c.nSent <= |c.blocks|
    && (c.stage == Writing <==> c.nSent > 0)
    && (c.stage == WritesDone || c.stage == Finished ==> c.blocks == [])
  }

  /** The call_data constructor: the call takes the whole queue. */
  function NewCall(blocks: seq<Block>, maxBlockSize: nat): (c: Call)
    ensures CallValid(c) && c.stage == Create && c.blocks == blocks
  {
    Call(maxBlockSize, blocks, Create, 0)
  }

  /** call_data::start: a call with nothing to write ends at once with
      success; any other call opens its stream. */
  function Start(c: Call): (a: Action)
    ensures a == End(true) <==> c.blocks == []
    ensures a != End(true) ==> a == StartCall
  {
    if c.blocks == [] then End(true) else StartCall
  }

  /** The requests still to be written: all of them before the stream is
      open, those after the outstanding write while writing, none after. */
  function Outstanding(c: Call): seq<Request>
    requires CallValid(c)
  {
    match c.stage
    case Create => Messages(c.blocks, c.maxBlockSize)
    case Writing => Messages(c.blocks[c.nSent..], c.maxBlockSize)
    case _ => []
  }

  /** Steps left before the call ends. */
  function Measure(c: Call): nat
    requires CallValid(c)
  {
    match c.stage
    case Create => 2 * |c.blocks| + 3
    case Writing => 2 * (|c.blocks| - c.nSent) + 3
    case WritesDone => 2
    case Finished => 1
  }

  /** send_block from a call state holding `blocks`: the call is writing
      the request for the maximal run at the front. */
  function SendNext(blocks: seq<Block>, maxBlockSize: nat): (r: (Call, Action))
    requires |blocks| > 0
    ensures CallValid(r.0) && r.0.stage == Writing && r.0.blocks == blocks
    ensures r.0.maxBlockSize == maxBlockSize && MaximalRun(blocks, r.0.nSent, maxBlockSize)
    ensures r.1.Send? && Messages(blocks, maxBlockSize) == [r.1.req] + Outstanding(r.0)
    ensures Measure(r.0) < 2 * |blocks| + 3
  {
    var (req, n) := SendBlock(blocks, maxBlockSize);
    MessagesUnfold(blocks, maxBlockSize);
    (Call(maxBlockSize, blocks, Writing, n), Send(req))
  }

  /** The WRITE case of proceed: the blocks the completed write carried
      are popped and their bytes released, then either the next write goes
      out or the end of the writes is announced. */
  function Acknowledge(c: Call): (r: (Call, Action, nat))
    requires CallValid(c) && c.stage == Writing
    ensures CallValid(r.0) && r.0.maxBlockSize == c.maxBlockSize
    ensures r.0.blocks == c.blocks[c.nSent..] && r.2 == Size(c.blocks[..c.nSent])
    ensures Size(c.blocks) == r.2 + Size(r.0.blocks)
    ensures r.1.Send? || r.1 == SendWritesDone
    ensures r.1.Send? ==> r.0.stage == Writing && MaximalRun(r.0.blocks, r.0.nSent, c.maxBlockSize)
    ensures Measure(r.0) < Measure(c)
    ensures Outstanding(c) == (if r.1.Send? then [r.1.req] else []) + Outstanding(r.0)
  {
    var rest := c.blocks[c.nSent..];
    ConcatSplit(c.blocks, c.nSent);
    if |rest| == 0 then (Call(c.maxBlockSize, [], WritesDone, 0), SendWritesDone, Size(c.blocks[..c.nSent]))
    else
      var (c', a) := SendNext(rest, c.maxBlockSize);
      (c', a, Size(c.blocks[..c.nSent]))
  }

  /** call_data::proceed, on the completion of the last asynchronous step.
      The completion's success flag is ignored by the source and is not a
      parameter; `statusOk` is the final status the stream reports. Returns
      the next call state, the action issued and the bytes released. Only a
      completed write releases bytes: those of the blocks it carried, whether
      or not it succeeded. Every step but the last brings the end nearer, and
      each request issued is the next one the queue turns into. */
  function Proceed(c: Call, statusOk: bool): (r: (Call, Action, nat))
    requires CallValid(c)
    ensures CallValid(r.0) && r.0.maxBlockSize == c.maxBlockSize
    ensures c.stage == Writing ==> r.0.blocks == c.blocks[c.nSent..] && r.2 == Size(c.blocks[..c.nSent])
    ensures c.stage != Writing ==> r.0.blocks == c.blocks && r.2 == 0
    ensures Size(c.blocks) == r.2 + Size(r.0.blocks)
    ensures r.1.End? <==> c.stage == Finished
    ensures r.1.End? ==> r.1 == End(statusOk)
    ensures r.1.Send? ==> r.0.stage == Writing && MaximalRun(r.0.blocks, r.0.nSent, c.maxBlockSize)
    ensures !r.1.End? ==> Measure(r.0) < Measure(c)
    ensures Outstanding(c) == (if r.1.Send? then [r.1.req] else []) + Outstanding(r.0)
  {
    match c.stage
    case Create =>
      if |c.blocks| == 0 then (c.(stage := Finished), SendFinish, 0)
      else
        var (c', a) := SendNext(c.blocks, c.maxBlockSize);
        (c', a, 0)
    case Writing => Acknowledge(c)
    case WritesDone => (c.(stage := Finished), SendFinish, 0)
    case Finished => (c, End(statusOk), 0)
  }

  /** A call driven from `c` until it ends, each completion handled by
      Proceed: the requests written, the bytes released and the status
      reported. */
  function Drive(c: Call, statusOk: bool): (r: (seq<Request>, nat, bool))
    requires CallValid(c)
    ensures r.0 == Outstanding(c)
    ensures r.1 == Size(c.blocks)
    ensures r.2 == statusOk
    decreases Measure(c)
  {
    var (c', a, released) := Proceed(c, statusOk);
    if a.End? then ([], released, a.ok)
    else
      var (sent, more, ok) := Drive(c', statusOk);
      ((if a.Send? then [a.req] else []) + sent, released + more, ok)
  }

  /** A flush call over a queue writes exactly the requests the queue turns
      into, releases every queued byte, reports the stream's final status,
      and leaves the server's files as writing the blocks one by one would. */
  lemma CallDeliversQueue(blocks: seq<Block>, maxBlockSize: nat, statusOk: bool, fs: Files)
    ensures var (sent, released, ok) := Drive(NewCall(blocks, maxBlockSize), statusOk);
            && sent == Messages(blocks, maxBlockSize)
            && Payloads(sent) == Concat(blocks)
            && ApplyRequests(fs, sent) == ApplyBlocks(fs, blocks)
            && released == Size(blocks)
            && ok == statusOk
  {
    MessagesCoverQueue(blocks, maxBlockSize);
    MessagesWriteLikeBlocks(fs, blocks, maxBlockSize);
  }
}

=== FILE: write_scheduler.dfy ===
/** The write-back client's front end and its flush scheduler. Writes are
    queued as blocks; a flush detaches the whole queue into a new flush
    call and asks the scheduler, over the event channel, to start it; the
    scheduler starts queued calls one at a time, in the order they were
    scheduled, as earlier calls end. Threads, locks, the idle timer and the
    completion queue become events the environment chooses to deliver. */
module WriteScheduler {
  import opened Base
  import opened WriteBack
  import Channel

  datatype Event = Terminated | CallEnded | FlushRequest

  /** `cacheSize` bounds the buffered bytes before a writer must wait,
      `threshold` (at most `cacheSize`) is the queue size beyond which a
      write starts a flush in the background, and `blockSize` bounds the
      payload of a merged request. */
  datatype Config = Config(cacheSize: nat, threshold: nat, blockSize: nat)

  /** A flush call as the client knows it: its number in scheduling order,
      the count of blocks ever written when it was scheduled, and the call. */
  datatype Flush = Flush(id: nat, mark: nat, call: Call)

  /** The client's state: the queue and its byte count, the byte count of
      everything not yet released, the scheduled and the started-but-not-ended
      calls, the scheduler's flag and channel, the idle timer, a writer
      waiting on a flush before appending its block, and the history of
      written and of released blocks. */
  datatype Client = Client(
    config: Config,
    queue: seq<Block>,
    queued: nat,
    total: nat,
    pending: seq<Flush>,
    inflight: seq<Flush>,
    flushing: bool,
    events: Channel.Channel<Event>,
    terminated: bool,
    timerArmed: bool,
    waiting: Option<(Block, nat)>,
    nextId: nat,
    ended: nat,
    written: seq<Block>,
    released: seq<Block>)

  /** The calls not yet ended, oldest first. */
  function Calls(s: Client): seq<Flush>
  {
    s.inflight + s.pending
  }

  /** The blocks held by a sequence of calls, in call order. */
  function Blocks(fs: seq<Flush>): seq<Block>
    decreases |fs|
  {
    if |fs| == 0 then [] else fs[0].call.blocks + Blocks(fs[1..])
  }

  /** Every block written and not yet released, oldest first. */
  function Held(s: Client): seq<Block>
  {
    Blocks(Calls(s)) + s.queue
  }

  function CountEnded(q: seq<Event>): nat
    decreases |q|
  {
    if |q| == 0 then 0 else (if q[0] == CallEnded then 1 else 0) + CountEnded(q[1..])
  }

  /** The calls are numbered consecutively from `start`. */
  predicate IdsFrom(start: nat, fs: seq<Flush>)
    decreases |fs|
  {
    |fs| == 0 || (fs[0].id == start && IdsFrom(start + 1, fs[1..]))
  }

  /** Each call's mark counts the blocks released before it, given that
      `base` blocks are released before the first, plus its own. */
  predicate MarksFrom(base: nat, fs: seq<Flush>)
    decreases |fs|
  {
    |fs| == 0 || (fs[0].mark == base + |fs[0].call.blocks| && MarksFrom(fs[0].mark, fs[1..]))
  }

  predicate CallsValid(fs: seq<Flush>, blockSize: nat)
  {
    forall i :: 0 <= i < |fs| ==> CallValid(fs[i].call) && fs[i].call.maxBlockSize == blockSize
  }

  /** The client's invariant.
      - the queue counter is the queue's size, and the total counter the
        size of every block not yet released;
      - what was written is what was released followed by what is held;
      - the scheduler's flag is up exactly while a call is in flight or its
        end is still to be received;
      - calls are numbered in scheduling order and the marks are consistent;
      - a scheduled call always has a start coming: the flag is up or a
        flush request is on its way;
      - a waiting writer waits on the last call, with an empty queue. */
  predicate Inv(s: Client)
  {
    && s.config.threshold <= s.config.cacheSize
    && Counted(s)
    && (if s.flushing then 1 else 0) == |s.inflight| + CountEnded(s.events.queue)
    && Numbered(s)
    && CallsValid(Calls(s), s.config.blockSize)
    && (|s.pending| > 0 ==> s.flushing || FlushRequest in s.events.queue)
    && (s.waiting.Some? ==> s.queue == [] && s.waiting.value.1 + 1 == s.nextId)
  }

  /** The counters and the histories agree with the held blocks. */
  predicate Counted(s: Client)
  {
    && s.queued == Size(s.queue)
    && s.total == Size(Held(s))
    && s.written == s.released + Held(s)
  }

  /** Calls are numbered in scheduling order from the count of ended calls,
      and their marks follow the released history. */
  predicate Numbered(s: Client)
  {
    && s.ended + |Calls(s)| == s.nextId
    && IdsFrom(s.ended, Calls(s))
    && MarksFrom(|s.released|, Calls(s))
  }

  // ---- Facts about the bookkeeping ---------------------------------------

  lemma {:induction false} BlocksAppend(a: seq<Flush>, b: seq<Flush>)
    ensures Blocks(a + b) == Blocks(a) + Blocks(b)
    decreases |a|
  {
    if |a| > 0 {
      assert (a + b)[1..] == a[1..] + b;
      BlocksAppend(a[1..], b);
    } else {
      assert a + b == b;
    }
  }

  lemma BlocksSnoc(fs: seq<Flush>, x: Flush)
    ensures Blocks(fs + [x]) == Blocks(fs) + x.call.blocks
  {
    BlocksAppend(fs, [x]);
    assert [x][1..] == [];
  }

  lemma {:induction false} IdsSnoc(start: nat, fs: seq<Flush>, x: Flush)
    requires IdsFrom(start, fs) && x.id == start + |fs|
    ensures IdsFrom(start, fs + [x])
    decreases |fs|
  {
    if |fs| > 0 {
      assert (fs + [x])[1..] == fs[1..] + [x];
      IdsSnoc(start + 1, fs[1..], x);
    } else {
      assert ([x])[1..] == [];
    }
  }

  lemma {:induction false} MarksSnoc(base: nat, fs: seq<Flush>, x: Flush)
    requires MarksFrom(base, fs) && x.mark == base + |Blocks(fs)| + |x.call.blocks|
    ensures MarksFrom(base, fs + [x])
    decreases |fs|
  {
    if |fs| > 0 {
      assert (fs + [x])[1..] == fs[1..] + [x];
      MarksSnoc(fs[0].mark, fs[1..], x);
    } else {
      assert ([x])[1..] == [];
    }
  }

  lemma {:induction false} CountEndedSnoc(q: seq<Event>, e: Event)
    ensures CountEnded(q + [e]) == CountEnded(q) + (if e == CallEnded then 1 else 0)
    decreases |q|
  {
    if |q| > 0 {
      assert (q + [e])[1..] == q[1..] + [e];
      CountEndedSnoc(q[1..], e);
    } else {
      assert [e][1..] == [];
    }
  }

  lemma CallsValidSnoc(fs: seq<Flush>, x: Flush, blockSize: nat)
    requires CallsValid(fs, blockSize) && CallValid(x.call) && x.call.maxBlockSize == blockSize
    ensures CallsValid(fs + [x], blockSize)
  {
    forall i | 0 <= i < |fs + [x]|
      ensures CallValid((fs + [x])[i].call) && (fs + [x])[i].call.maxBlockSize == blockSize
    {
      if i < |fs| {
        assert (fs + [x])[i] == fs[i];
      }
    }
  }

  lemma CallsValidCons(x: Flush, fs: seq<Flush>, blockSize: nat)
    requires CallsValid(fs, blockSize) && CallValid(x.call) && x.call.maxBlockSize == blockSize
    ensures CallsValid([x] + fs, blockSize)
  {
    forall i | 0 <= i < |[x] + fs|
      ensures CallValid(([x] + fs)[i].call) && ([x] + fs)[i].call.maxBlockSize == blockSize
    {
      if i > 0 {
        assert ([x] + fs)[i] == fs[i - 1];
      }
    }
  }

  lemma CallsValidTail(fs: seq<Flush>, blockSize: nat)
    requires CallsValid(fs, blockSize) && |fs| > 0
    ensures CallsValid(fs[1..], blockSize) && CallValid(fs[0].call) && fs[0].call.maxBlockSize == blockSize
  {
    forall i | 0 <= i < |fs| - 1
      ensures CallValid(fs[1..][i].call) && fs[1..][i].call.maxBlockSize == blockSize
    {
      assert fs[1..][i] == fs[i + 1];
    }
  }

  lemma CountEndedCons(e: Event, q: seq<Event>)
    ensures CountEnded([e] + q) == (if e == CallEnded then 1 else 0) + CountEnded(q)
  {
    assert ([e] + q)[1..] == q;
  }

  /** The total counter splits into the queue counter and the bytes the
      scheduled and in-flight calls still hold. */
  lemma Accounting(s: Client)
    requires Inv(s)
    ensures s.total == s.queued + Size(Blocks(Calls(s)))
  {
    ConcatAppend(Blocks(Calls(s)), s.queue);
  }

  /** At most one call is in flight. */
  function InFlight(s: Client): (n: nat)
    requires Inv(s)
    ensures n <= 1 && n == |s.inflight|
    ensures n == 1 ==> s.flushing
  {
    |s.inflight|
  }

  // ---- The client's operations -------------------------------------------

  /** The constructor: nothing queued, nothing scheduled. */
  function Init(config: Config): (s: Client)
    requires config.threshold <= config.cacheSize
    ensures Inv(s) && s.total == 0 && s.written == []
  {
    Client(config, [], 0, 0, [], [], false, Channel.New(), false, false, None, 0, 0, [], [])
  }

  /** schedule_flush: the whole queue moves into a new call appended to the
      scheduled calls, the queue counter drops to zero while the total is
      kept, and a flush request is sent. Returns the call's number, which
      flush and fsync wait on. */
  function ScheduleFlush(s: Client): (r: (Client, nat))
    requires Inv(s) && s.waiting.None?
    ensures Inv(r.0) && r.0.waiting.None?
    ensures r.1 == s.nextId && r.0.nextId == s.nextId + 1
    ensures r.0.pending == s.pending + [Flush(r.1, |s.written|, NewCall(s.queue, s.config.blockSize))]
    ensures r.0.queue == [] && r.0.queued == 0 && r.0.total == s.total
    ensures r.0.events.queue == s.events.queue + [FlushRequest]
    ensures Held(r.0) == Held(s) && r.0.written == s.written && r.0.released == s.released
    ensures r.0.inflight == s.inflight && r.0.ended == s.ended && r.0.flushing == s.flushing
    ensures r.0.config == s.config && r.0.terminated == s.terminated && r.0.timerArmed == s.timerArmed
  {
    var call := Flush(s.nextId, |s.written|, NewCall(s.queue, s.config.blockSize));
    var r := s.(queue := [], queued := 0, pending := s.pending + [call],
                events := Channel.Send(s.events, FlushRequest), nextId := s.nextId + 1);
    ScheduleFlushKeeps(s, call, r);
    (r, s.nextId)
  }

  lemma ScheduleFlushKeeps(s: Client, call: Flush, r: Client)
    requires Inv(s) && s.waiting.None?
    requires call == Flush(s.nextId, |s.written|, NewCall(s.queue, s.config.blockSize))
    requires r == s.(queue := [], queued := 0, pending := s.pending + [call],
                     events := Channel.Send(s.events, FlushRequest), nextId := s.nextId + 1)
    ensures Held(r) == Held(s)
    ensures Counted(r)
    ensures (if r.flushing then 1 else 0) == |r.inflight| + CountEnded(r.events.queue)
    ensures Numbered(r)
    ensures CallsValid(Calls(r), r.config.blockSize)
    ensures Inv(r)
  {
    assert Calls(r) == Calls(s) + [call];
    BlocksSnoc(Calls(s), call);
    assert Held(r) == Held(s);
    CountEndedSnoc(s.events.queue, FlushRequest);
    IdsSnoc(s.ended, Calls(s), call);
    assert |s.written| == |s.released| + |Blocks(Calls(s))| + |s.queue|;
    MarksSnoc(|s.released|, Calls(s), call);
    CallsValidSnoc(Calls(s), call, s.config.blockSize);
    assert FlushRequest in r.events.queue;
  }

  /** The second half of write: the block joins the queue, both counters
      grow by its size, and the idle timer is re-armed. */
  function Append(s: Client, b: Block): (r: Client)
    requires Inv(s) && s.waiting.None?
    ensures Inv(r) && r.waiting.None? && r.timerArmed
    ensures r.queue == s.queue + [b] && r.written == s.written + [b] && r.released == s.released
    ensures r.queued == s.queued + |b.data| && r.total == s.total + |b.data|
    ensures Calls(r) == Calls(s) && r.nextId == s.nextId && r.events == s.events
  {
    var r := s.(queue := s.queue + [b], queued := s.queued + |b.data|, total := s.total + |b.data|,
                written := s.written + [b], timerArmed := true);
    AppendKeeps(s, b, r);
    r
  }

  lemma AppendKeeps(s: Client, b: Block, r: Client)
    requires Inv(s) && s.waiting.None?
    requires r == s.(queue := s.queue + [b], queued := s.queued + |b.data|, total := s.total + |b.data|,
                     written := s.written + [b], timerArmed := true)
    ensures Inv(r)
  {
    AppendCounted(s.queue, s.queued, s.total, Blocks(Calls(s)), s.written, s.released, b);
    assert Held(r) == Blocks(Calls(s)) + (s.queue + [b]);
  }

  /** The counters and the histories after a block joins the queue, stated
      over the pieces they are made of. */
  lemma AppendCounted(queue: seq<Block>, queued: nat, total: nat, calls: seq<Block>,
                      written: seq<Block>, released: seq<Block>, b: Block)
    requires queued == Size(queue) && total == Size(calls + queue) && written == released + (calls + queue)
    ensures queued + |b.data| == Size(queue + [b])
    ensures total + |b.data| == Size(calls + (queue + [b]))
    ensures written + [b] == released + (calls + (queue + [b]))
  {
    var held := calls + queue;
    assert calls + (queue + [b]) == held + [b];
    assert released + (held + [b]) == (released + held) + [b];
    ConcatSingle(b);
    ConcatAppend(queue, [b]);
    ConcatAppend(held, [b]);
  }

  /** write. The idle timer is cancelled. Over the byte budget, the writer
      schedules a flush and waits for it to end before its block joins the
      queue (`None`: the block is held by the waiting writer; see Resume).
      Otherwise a queue beyond the threshold schedules a flush in the
      background, the block joins the queue, and the write returns its size. */
  function Write(s: Client, b: Block): (r: (Client, Option<nat>))
    requires Inv(s) && s.waiting.None?
    ensures Inv(r.0)
    ensures r.1.None? <==> s.total > s.config.cacheSize
    ensures r.1.None? ==> && r.0.waiting == Some((b, s.nextId))
                          && r.0.written == s.written && r.0.total == s.total
    ensures r.1.Some? ==> && r.1.value == |b.data| && r.0.written == s.written + [b]
                          && r.0.total == s.total + |b.data| <= s.config.cacheSize + |b.data|
    ensures !r.0.timerArmed <==> r.1.None?
  {
    var s0 := Disarm(s);
    if s.total > s.config.cacheSize then (WriteWaits(s0, b), None)
    else (WriteQueues(s0, b), Some(|b.data|))
  }

  /** Cancelling the idle timer. */
  function Disarm(s: Client): (r: Client)
    requires Inv(s)
    ensures Inv(r) && !r.timerArmed && r == s.(timerArmed := false)
  {
    s.(timerArmed := false)
  }

  /** A write over the byte budget: the writer schedules a flush and waits
      on it with its block. */
  function WriteWaits(s: Client, b: Block): (r: Client)
    requires Inv(s) && s.waiting.None?
    ensures Inv(r)
    ensures && r.waiting == Some((b, s.nextId)) && r.nextId == s.nextId + 1
            && r.queue == [] && r.written == s.written && r.total == s.total
            && r.timerArmed == s.timerArmed
  {
    var (s1, id) := ScheduleFlush(s);
    s1.(waiting := Some((b, id)))
  }

  /** A write within the byte budget: a queue beyond the threshold is
      flushed in the background first, then the block joins the queue. */
  function WriteQueues(s: Client, b: Block): (r: Client)
    requires Inv(s) && s.waiting.None?
    ensures Inv(r) && r.waiting.None? && r.timerArmed
    ensures r.written == s.written + [b] && r.total == s.total + |b.data|
    ensures s.queued > s.config.threshold ==>
              r.nextId == s.nextId + 1 && r.queue == [b] && r.queued == |b.data|
    ensures s.queued <= s.config.threshold ==>
              r.nextId == s.nextId && r.queue == s.queue + [b]
  {
    if s.queued > s.config.threshold then FlushThenAppend(s, b) else Append(s, b)
  }

  /** The over-threshold branch of a write: the old queue leaves as one
      flush call and the block starts a fresh queue. */
  function FlushThenAppend(s: Client, b: Block): (r: Client)
    requires Inv(s) && s.waiting.None?
    ensures Inv(r) && r.waiting.None? && r.timerArmed
    ensures r.written == s.written + [b] && r.total == s.total + |b.data|
    ensures r.nextId == s.nextId + 1 && r.queue == [b] && r.queued == |b.data|
  {
    var s1 := ScheduleFlush(s).0;
    assert s1.queue + [b] == [b];
    Append(s1, b)
  }

  /** The rest of a write that had to wait: once the call it waits on has
      ended every call has, so nothing is held any more; the block joins the
      queue and the write returns its size. */
  function Resume(s: Client): (r: (Client, nat))
    requires Inv(s) && s.waiting.Some? && s.waiting.value.1 < s.ended
    ensures Inv(r.0) && r.0.waiting.None? && r.0.timerArmed
    ensures var b := s.waiting.value.0;
            && r.1 == |b.data|
            && r.0.written == s.written + [b]
            && r.0.queue == [b] && r.0.total == |b.data|
            && Calls(r.0) == []
  {
    var b := s.waiting.value.0;
    var s1 := s.(waiting := None);
    DropWaiting(s, s1);
    (Append(s1, b), |b.data|)
  }

  /** Once the awaited call has ended nothing is held, and the writer can
      stop waiting. */
  lemma DropWaiting(s: Client, s1: Client)
    requires Inv(s) && s.waiting.Some? && s.waiting.value.1 < s.ended
    requires s1 == s.(waiting := None)
    ensures Inv(s1) && Calls(s1) == [] && Held(s1) == []
  {
    assert Calls(s) == [];
  }

  /** The idle timer fired one second after the last write: flush in the
      background. */
  function TimerFired(s: Client): (r: Client)
    requires Inv(s) && s.timerArmed && s.waiting.None?
    ensures Inv(r) && !r.timerArmed && r.queue == [] && r.nextId == s.nextId + 1
    ensures r.pending == s.pending + [Flush(s.nextId, |s.written|, NewCall(s.queue, s.config.blockSize))]
  {
    ScheduleFlush(s.(timerArmed := false)).0
  }

  /** The destructor's last message, sent once its own flush has ended:
      ask the scheduler to stop. */
  function Shutdown(s: Client): (r: Client)
    requires Inv(s) && s.waiting.None? && s.ended == s.nextId
    ensures Inv(r) && Calls(r) == [] && r.events.queue == s.events.queue + [Terminated]
  {
    CountEndedSnoc(s.events.queue, Terminated);
    s.(events := Channel.Send(s.events, Terminated))
  }

  // ---- The scheduler -----------------------------------------------------

  /** Calls started so far: those that ended and the one in flight. */
  function Started(s: Client): nat
  {
    s.ended + |s.inflight|
  }

  /** Take the oldest scheduled call and start it; a call with nothing to
      write ends at once and reports its end on the channel. Called only
      with no call in flight, the flag down and no end pending. */
  function StartOldest(s: Client): (r: Client)
    requires Quiet(s) && |s.pending| > 0 && s.inflight == [] && !s.flushing && CountEnded(s.events.queue) == 0
    ensures Inv(r) && r.pending == s.pending[1..] && r.flushing
    ensures s.pending[0].id == Started(s) && Started(r) == Started(s) + 1
    ensures r.written == s.written && r.released == s.released && r.queue == s.queue
  {
    var f := s.pending[0];
    FirstId(s);
    if Start(f.call) == End(true) then
      var r := s.(pending := s.pending[1..], flushing := true, ended := s.ended + 1,
                  events := Channel.Send(s.events, CallEnded));
      StartEmptyKeeps(s, r);
      r
    else
      var r := s.(pending := s.pending[1..], flushing := true, inflight := [f]);
      StartCallKeeps(s, r);
      r
  }

  /** With no call in flight the oldest scheduled call is the next to start. */
  lemma FirstId(s: Client)
    requires Quiet(s) && |s.pending| > 0 && s.inflight == []
    ensures s.pending[0].id == Started(s)
  {
    assert Calls(s) == s.pending;
  }

  /** One iteration of the scheduler loop: receive the next event.
      - CALL_ENDED lowers the flag, then starts the oldest scheduled call if any;
      - FLUSH_REQUEST starts the oldest scheduled call if any and none is running;
      - TERMINATED is put back behind any pending event, and ends the loop
        only when it was the last one.
      A call starts only when none is in flight, and it is the oldest
      scheduled one, so calls start in the order they were scheduled. */
  function Step(s: Client): (r: Client)
    requires Inv(s) && !s.terminated && Channel.HasPending(s.events)
    ensures Inv(r)
    ensures r.written == s.written && r.released == s.released && r.queue == s.queue
    ensures || (Started(r) == Started(s) && r.pending == s.pending)
            || (&& Started(r) == Started(s) + 1 && s.inflight == [] && |s.pending| > 0
                && s.pending[0].id == Started(s) && r.pending == s.pending[1..])
    ensures r.terminated ==> s.events.queue == [Terminated] && !Channel.HasPending(r.events)
  {
    var (ev, rest) := Channel.Receive(s.events).value;
    assert s.events.queue == [ev] + rest.queue;
    match ev
    case CallEnded => OnCallEnded(s, rest)
    case FlushRequest => OnFlushRequest(s, rest)
    case Terminated => OnTerminated(s, rest)
  }

  /** CALL_ENDED: the flag goes down, and the oldest scheduled call starts. */
  function OnCallEnded(s: Client, rest: Channel.Channel<Event>): (r: Client)
    requires Inv(s) && s.events.queue == [CallEnded] + rest.queue
    ensures Inv(r) && r.terminated == s.terminated
    ensures r.written == s.written && r.released == s.released && r.queue == s.queue
    ensures || (Started(r) == Started(s) && r.pending == s.pending)
            || (&& Started(r) == Started(s) + 1 && s.inflight == [] && |s.pending| > 0
                && s.pending[0].id == Started(s) && r.pending == s.pending[1..])
  {
    CountEndedCons(CallEnded, rest.queue);
    var s1 := s.(events := rest, flushing := false);
    if |s.pending| > 0 then StartOldest(s1) else s1
  }

  /** FLUSH_REQUEST: the oldest scheduled call starts unless one is running. */
  function OnFlushRequest(s: Client, rest: Channel.Channel<Event>): (r: Client)
    requires Inv(s) && s.events.queue == [FlushRequest] + rest.queue
    ensures Inv(r) && r.terminated == s.terminated
    ensures r.written == s.written && r.released == s.released && r.queue == s.queue
    ensures || (Started(r) == Started(s) && r.pending == s.pending)
            || (&& Started(r) == Started(s) + 1 && s.inflight == [] && |s.pending| > 0
                && s.pending[0].id == Started(s) && r.pending == s.pending[1..])
  {
    CountEndedCons(FlushRequest, rest.queue);
    var s1 := s.(events := rest);
    if |s.pending| > 0 && !s.flushing then StartOldest(s1) else s1
  }

  /** TERMINATED: put back behind the pending events, or end the loop. */
  function OnTerminated(s: Client, rest: Channel.Channel<Event>): (r: Client)
    requires Inv(s) && !s.terminated && s.events.queue == [Terminated] + rest.queue
    ensures Inv(r) && Calls(r) == Calls(s) && r.ended == s.ended
    ensures r.written == s.written && r.released == s.released && r.queue == s.queue
    ensures r.terminated ==> s.events.queue == [Terminated] && !Channel.HasPending(r.events)
  {
    CountEndedCons(Terminated, rest.queue);
    if Channel.HasPending(rest) then
      CountEndedSnoc(rest.queue, Terminated);
      s.(events := Channel.Send(rest, Terminated))
    else s.(events := rest, terminated := true)
  }

  /** The invariant minus the parts about the flag and the flush requests:
      what holds just before the scheduler starts a call. */
  predicate Quiet(s: Client)
  {
    && s.config.threshold <= s.config.cacheSize
    && Counted(s)
    && Numbered(s)
    && CallsValid(Calls(s), s.config.blockSize)
    && (s.waiting.Some? ==> s.queue == [] && s.waiting.value.1 + 1 == s.nextId)
  }

  lemma StartCallKeeps(s: Client, r: Client)
    requires Quiet(s) && |s.pending| > 0 && s.inflight == [] && CountEnded(s.events.queue) == 0
    requires r == s.(pending := s.pending[1..], flushing := true, inflight := [s.pending[0]])
    ensures Inv(r)
  {
    SplitFirst(s.pending);
    assert Calls(r) == Calls(s);
  }

  lemma StartEmptyKeeps(s: Client, r: Client)
    requires Quiet(s) && |s.pending| > 0 && s.inflight == [] && CountEnded(s.events.queue) == 0
    requires Start(s.pending[0].call) == End(true)
    requires r == s.(pending := s.pending[1..], flushing := true, ended := s.ended + 1,
                     events := Channel.Send(s.events, CallEnded))
    ensures Inv(r)
  {
    var f, rest := s.pending[0], s.pending[1..];
    assert Calls(s) == [f] + rest && Calls(r) == rest;
    SplitFirst(s.pending);
    BlocksCons(f, rest);
    assert Held(r) == Held(s);
    IdsCons(s.ended, f, rest);
    MarksCons(|s.released|, f, rest);
    CallsValidTail(Calls(s), s.config.blockSize);
    CountEndedSnoc(s.events.queue, CallEnded);
  }

  lemma SplitFirst(fs: seq<Flush>)
    requires |fs| > 0
    ensures fs == [fs[0]] + fs[1..]
  {
  }

  lemma BlocksCons(x: Flush, fs: seq<Flush>)
    ensures Blocks([x] + fs) == x.call.blocks + Blocks(fs)
  {
    assert ([x] + fs)[1..] == fs;
  }

  lemma IdsCons(start: nat, x: Flush, fs: seq<Flush>)
    ensures IdsFrom(start, [x] + fs) <==> x.id == start && IdsFrom(start + 1, fs)
  {
    assert ([x] + fs)[1..] == fs;
  }

  lemma MarksCons(base: nat, x: Flush, fs: seq<Flush>)
    ensures MarksFrom(base, [x] + fs) <==> x.mark == base + |x.call.blocks| && MarksFrom(x.mark, fs)
  {
    assert ([x] + fs)[1..] == fs;
  }

  /** The completion queue delivers the next completion of the call in
      flight, and its Proceed step runs. Bytes of the blocks a completed
      write carried leave the total counter and those blocks join the
      released history; when the call ends it leaves the in-flight set and
      reports its end on the channel, and by then every block written
      before the call was scheduled has been released, in write order. */
  function CallProceed(s: Client, statusOk: bool): (r: (Client, Action))
    requires Inv(s) && |s.inflight| > 0
    ensures Inv(r.0)
    ensures r.0.written == s.written && r.0.queue == s.queue && r.0.pending == s.pending
    ensures r.1 == Proceed(s.inflight[0].call, statusOk).1
    ensures |s.released| <= |r.0.released| && r.0.released[..|s.released|] == s.released
    ensures r.0.total + Size(r.0.released[|s.released|..]) == s.total
    ensures r.1.End? ==> && r.0.ended == s.ended + 1 && r.0.inflight == []
                         && r.0.released == s.written[..s.inflight[0].mark]
  {
    var f := s.inflight[0];
    var step := Proceed(f.call, statusOk);
    if step.1.End? then
      var r := EndCall(s);
      assert r.released[|s.released|..] == [];
      (r, step.1)
    else
      var k := if f.call.stage == Writing then f.call.nSent else 0;
      var r := AdvanceCall(s, k, step.0);
      assert r.released[|s.released|..] == f.call.blocks[..k];
      (r, step.1)
  }

  /** The in-flight call, with nothing left to write, ends: it leaves the
      in-flight set and its end goes on the channel. */
  function EndCall(s: Client): (r: Client)
    requires Inv(s) && |s.inflight| > 0 && s.inflight[0].call.blocks == []
    ensures Inv(r)
    ensures && r.written == s.written && r.queue == s.queue && r.pending == s.pending
            && r.released == s.released && r.total == s.total
    ensures r.ended == s.ended + 1 && r.inflight == []
    ensures r.released == s.written[..s.inflight[0].mark]
  {
    var r := s.(inflight := [], ended := s.ended + 1, events := Channel.Send(s.events, CallEnded));
    EndKeeps(s, r);
    r
  }

  /** The in-flight call moves on to `c'`, which keeps all but its first `k`
      blocks: those are released and their bytes leave the total counter. */
  function AdvanceCall(s: Client, k: nat, c': Call): (r: Client)
    requires Inv(s) && |s.inflight| > 0
    requires k <= |s.inflight[0].call.blocks| && s.inflight[0].call.blocks[k..] == c'.blocks
    requires CallValid(c') && c'.maxBlockSize == s.config.blockSize
    ensures Inv(r)
    ensures r.written == s.written && r.queue == s.queue && r.pending == s.pending
    ensures r.released == s.released + s.inflight[0].call.blocks[..k]
    ensures r.total + Size(s.inflight[0].call.blocks[..k]) == s.total
    ensures r.inflight == [s.inflight[0].(call := c')]
  {
    var f := s.inflight[0];
    var done := f.call.blocks[..k];
    SplitAt(f.call.blocks, k);
    HeldSplit(s, done, c'.blocks);
    var r := s.(total := s.total - Size(done), released := s.released + done, inflight := [f.(call := c')]);
    AdvanceKeeps(s, done, f.(call := c'), r);
    r
  }

  /** What the state holds, seen from the in-flight call: the blocks it has
      had acknowledged and the blocks it keeps, then everything after it. */
  lemma HeldSplit(s: Client, done: seq<Block>, kept: seq<Block>)
    requires Inv(s) && |s.inflight| > 0 && s.inflight[0].call.blocks == done + kept
    ensures s.inflight == [s.inflight[0]]
    ensures Held(s) == done + (kept + Blocks(s.pending) + s.queue)
    ensures Size(done) <= s.total
  {
    var f := s.inflight[0];
    assert s.inflight == [f];
    assert Calls(s) == [f] + s.pending;
    BlocksCons(f, s.pending);
    Regroup(done, kept, Blocks(s.pending), s.queue);
    ConcatAppend(done, kept + Blocks(s.pending) + s.queue);
  }

  lemma Regroup(a: seq<Block>, b: seq<Block>, c: seq<Block>, d: seq<Block>)
    ensures (a + b) + c + d == a + (b + c + d)
  {
  }

  lemma EndKeeps(s: Client, r: Client)
    requires Inv(s) && |s.inflight| > 0 && s.inflight[0].call.blocks == []
    requires r == s.(inflight := [], ended := s.ended + 1, events := Channel.Send(s.events, CallEnded))
    ensures Inv(r) && r.released == s.written[..s.inflight[0].mark]
  {
    var f := s.inflight[0];
    assert s.inflight == [f];
    assert Calls(s) == [f] + s.pending && Calls(r) == s.pending;
    BlocksCons(f, s.pending);
    assert Held(r) == Held(s);
    IdsCons(s.ended, f, s.pending);
    MarksCons(|s.released|, f, s.pending);
    CallsValidTail(Calls(s), s.config.blockSize);
    CountEndedSnoc(s.events.queue, CallEnded);
  }

  lemma AdvanceKeeps(s: Client, done: seq<Block>, f': Flush, r: Client)
    requires Inv(s) && |s.inflight| > 0
    requires s.inflight[0].call.blocks == done + f'.call.blocks
    requires f'.id == s.inflight[0].id && f'.mark == s.inflight[0].mark
    requires CallValid(f'.call) && f'.call.maxBlockSize == s.config.blockSize
    requires Size(done) <= s.total
    requires r == s.(total := s.total - Size(done), released := s.released + done, inflight := [f'])
    ensures Inv(r)
  {
    var f := s.inflight[0];
    HeldSplit(s, done, f'.call.blocks);
    assert Calls(s) == [f] + s.pending && Calls(r) == [f'] + s.pending;
    BlocksCons(f', s.pending);
    assert Held(r) == f'.call.blocks + Blocks(s.pending) + s.queue;
    ReleaseCounted(s.total, s.written, s.released, done, Held(r));
    IdsCons(s.ended, f, s.pending);
    IdsCons(s.ended, f', s.pending);
    MarksCons(|s.released|, f, s.pending);
    MarksCons(|r.released|, f', s.pending);
    CallsValidTail(Calls(s), s.config.blockSize);
    CallsValidCons(f', s.pending, s.config.blockSize);
  }

  /** Releasing the oldest held blocks, stated over the pieces. */
  lemma ReleaseCounted(total: nat, written: seq<Block>, released: seq<Block>, done: seq<Block>, rest: seq<Block>)
    requires total == Size(done + rest) && written == released + (done + rest)
    ensures Size(done) <= total && total - Size(done) == Size(rest)
    ensures written == (released + done) + rest
  {
    ConcatAppend(done, rest);
  }
}
